=== FILE: README.md ===
# MFL interpreter in Dafny

A model of the MFL interpreter pipeline. MFL is a small expression language: `val` bindings and expression statements, separated by `;`.

- **Character stream.** A cursor over the input text. It keeps a deferred-advance flag and a line count. Whitespace is skipped before each token.
- **Lexer.** `nextToken` and its symbol dispatch `lookup`. They produce identifiers and keywords, integer and real literals, operators, EOF and UNKNOWN tokens.
- **Recursive-descent parser.** The grammar levels `prog`, `val`, `expr`, `rexpr`, `mexpr`, `term` and `factor` work over the token stream. The parser returns the tree and the diagnostics it logs.
- **Tree-walking evaluator.** It runs the statements against one environment of bindings. It prints the value of every statement that is not a `val` and stops at the first exception.

Everything is pure: a cursor, a token sequence or an environment is a value, and every Java exception becomes an `Err` or a recorded failure.

Modules:

- `Results`: `Option` and `Result`.
- `CharacterStream`: the cursor.
- `Tokens`: token kinds, tokens and fixed spellings.
- `Lexer`: the token functions.
- `LexerProperties`: one lemma per branch of `nextToken` and `lookup`.
- `TokenText`: rendering tokens as text, and the lexer round trip.
- `Syntax`: the tree.
- `Parser`: one function per grammar level.
- `ParserSteps`: one-step unfoldings, including the error paths.
- `Printer`: printing a tree as tokens, and the parser round trip.
- `ParserProperties`: associativity, precedence and error cases.
- `Numerals`: `Long.parseLong` and `Double.parseDouble` on decimal text.
- `Evaluator` and `EvaluatorProperties`: the evaluator and its properties.
- `Pipeline`: text to tree to run.
- `Reflection`: the evaluator's field lookup as written; see Findings.
- `Promotion`: the long arithmetic and the comparisons the evaluator evidently intends; see Findings.

Main results:

- `TokenText.TokenizeRender`: lexing the rendering of well-formed tokens gives back those tokens, then EOF.
- `Printer.ProgramRoundTrip`: parsing a printed program gives back the program.
- `ParserProperties.ChainFoldsLeft`: every left-associative level folds to the left, for operands of any shape.
- `EvaluatorProperties.FailurePoint`: what a failing run prints is exactly the printing statements before the failing one.
- `Pipeline.PrintedProgramRuns`: writing a program out as text and interpreting the text runs that program.

## Model

| member | source | states |
|---|---|---|
| CharacterStream.Open | src/lexer/CharacterStream.java:22-24 | a null input is read as the empty text; the cursor starts at index 0, flag clear, and satisfies the line invariant |
| CharacterStream.NullIsEmpty | src/lexer/CharacterStream.java:22-24 | opening a null string gives the same cursor as opening the empty string |
| CharacterStream.CurrentChar | src/lexer/CharacterStream.java:30-33 | at or past the end the current character is the `'\0'` sentinel |
| CharacterStream.CurrentClass | src/lexer/CharacterStream.java:35-42 | the class is END exactly when the index is at or past the end |
| CharacterStream.AtEndIsSentinel | src/lexer/CharacterStream.java:30-42 | past the end both the character (`'\0'`) and the class (END) report the end |
| CharacterStream.Advance | src/lexer/CharacterStream.java:45-54 | a pending deferred advance only clears the flag; at the end nothing moves; otherwise the index grows by one and the line grows by one exactly when the character was a newline |
| CharacterStream.AdvancePreservesValid | src/lexer/CharacterStream.java:45-54 | the line number stays one plus the count of newlines before the index |
| CharacterStream.SkipNextAdvance | src/lexer/CharacterStream.java:57-59 | sets the flag, leaving index and line alone |
| CharacterStream.SkipThenAdvance | src/lexer/CharacterStream.java:45-59 | an advance right after `skipNextAdvance` cancels it: the cursor is where it was, flag clear |
| CharacterStream.ConsumeDeferredAdvance | src/lexer/CharacterStream.java:62-64 | clears the flag without moving |
| CharacterStream.SkipBlanks | src/lexer/CharacterStream.java:72-74 | stops at the first non-whitespace character or at the end, and every character passed over is whitespace |
| CharacterStream.AdvanceToNonBlank | src/lexer/CharacterStream.java:67-75 | clears the flag, then moves exactly over the whitespace run: it lands on a non-blank or at the end and keeps the line invariant |
| Lexer.WordToken | src/lexer/Lexer.java:65-67 | the token text is the word; the kind is ID exactly when the word is not a keyword, and the keyword's kind otherwise |
| Lexer.ScanWhile | src/lexer/Lexer.java:57-61 | the scan only moves forward within the input and keeps the line invariant |
| Lexer.WordAt | src/lexer/Lexer.java:52-67 | consumes at least one character and never yields EOF |
| Lexer.NumberAt | src/lexer/Lexer.java:71-92 | consumes at least one character and yields INT or REAL |
| Lexer.FractionAt | src/lexer/Lexer.java:80-89 | after the digits, a `.` and the digits after it give a REAL |
| Lexer.Lookup | src/lexer/Lexer.java:118-210 | every symbol consumes at least one character and never yields EOF |
| Lexer.TokenAt | src/lexer/Lexer.java:49-105 | EOF exactly at the end, with the cursor unchanged; a WHITE_SPACE class (the `default` branch) gives UNKNOWN with empty text and no move; any other token consumes input |
| Lexer.NextToken | src/lexer/Lexer.java:45-106 | a token other than EOF always consumes input; the line invariant is kept |
| Lexer.TokenizeFrom | src/lexer/Lexer.java:99-100 | repeated `nextToken` ends with exactly one EOF |
| Lexer.Tokenize | src/lexer/Lexer.java:35-38 | the token stream of a string (null read as empty) ends with EOF |
| LexerProperties.RunEnd | src/lexer/Lexer.java:57-61 | the end of the maximal run of letters/digits (or digits) from a position: all inside belong to the run and the next does not |
| LexerProperties.RunEndUnique | src/lexer/Lexer.java:57-61 | any position with that property is the run's end |
| LexerProperties.ScanStopsAtRunEnd | src/lexer/Lexer.java:75-78 | the scan loop stops exactly at the run end and accumulates exactly the characters of the run |
| LexerProperties.LexWord | src/lexer/Lexer.java:52-67 | a word is the maximal run of letters and digits; it is ID unless it is a keyword, the keyword's kind otherwise; the following character is deferred |
| LexerProperties.LexInt | src/lexer/Lexer.java:71-92 | a digit run not followed by `.` is one INT token with exactly that text |
| LexerProperties.LexReal | src/lexer/Lexer.java:80-89 | digits, `.` and the digits after it form one REAL token with exactly that text |
| LexerProperties.LexLeadingDot | src/lexer/Lexer.java:122-131 | a `.` followed by digits (possibly none) is a REAL whose text starts with `.` |
| LexerProperties.LexAssignOrUnknown | src/lexer/Lexer.java:157-183 | `:=` is ASSIGN and `!=` is NEQ, two characters long; a lone `:` or `!` is UNKNOWN with empty text, consuming only itself |
| LexerProperties.LexComparison | src/lexer/Lexer.java:185-203 | `<=`/`>=` are two-character LTE/GTE; a lone `<`/`>` is LT/GT and the next character is left for the next token |
| LexerProperties.SingleKind | src/lexer/Lexer.java:133-173 | each one-character symbol has a kind whose spelling is that character |
| LexerProperties.LexSingle | src/lexer/Lexer.java:133-173 | `+ - * / ( ) ; =` each give their own token and consume one character |
| LexerProperties.LexUnknown | src/lexer/Lexer.java:205-208 | any other symbol is UNKNOWN carrying that character, and it is consumed |
| LexerProperties.EofForever | src/lexer/Lexer.java:99-100 | once EOF is returned, every later call returns EOF again from the same place, at the end of the input |
| LexerProperties.EofOnlyAtEnd | src/lexer/Lexer.java:45-106 | the token stream holds EOF only as its last token |
| TokenText.KeywordTable | src/lexer/Lexer.java:213-224 | the keyword table is exactly the seven reserved words, each mapped to its own kind |
| TokenText.TokenAtWellFormed | src/lexer/Lexer.java:45-106 | a well-formed token written at the cursor is read back as exactly that token, consuming exactly its text |
| TokenText.TokenizeRender | src/lexer/Lexer.java:45-106 | lexing well-formed tokens written out with separating blanks gives back those tokens, then EOF |
| Parser.Next | src/parser/MFLParser.java:104-105 | consuming the lookahead drops one token; past the end the stream stays at EOF |
| Parser.Match | src/parser/MFLParser.java:91-92 | `match` consumes a token exactly when it has the expected kind, and otherwise fails naming the expected kind and the token found |
| Parser.ParseFactor | src/parser/MFLParser.java:155-175 | succeeds only on a literal kind or `(`, consuming input; any other token is the "Unexpected token in factor" error |
| Parser.ParseTerm | src/parser/MFLParser.java:138-152 | a term starts with a token an expression can start with, and consumes input |
| Parser.TermTail | src/parser/MFLParser.java:145-150 | the `*`/`/`/`mod` loop keeps a well-formed tree and only consumes tokens |
| Parser.ParseMexpr | src/parser/MFLParser.java:126-135 | consumes input and yields an expression tree |
| Parser.MexprTail | src/parser/MFLParser.java:128-133 | the `+`/`-` loop keeps a well-formed tree and only consumes tokens |
| Parser.ParseRexpr | src/parser/MFLParser.java:113-123 | consumes input and yields an expression tree |
| Parser.ParseExpr | src/parser/MFLParser.java:101-110 | consumes input and yields an expression tree |
| Parser.ExprTail | src/parser/MFLParser.java:103-108 | the `and`/`or` loop keeps a well-formed tree and only consumes tokens |
| Parser.ParseVal | src/parser/MFLParser.java:88-98 | yields a statement: a binding or an expression |
| Parser.ParseStmts | src/parser/MFLParser.java:74-82 | the statements are well formed, the loop ends where no `;` follows, and input not at EOF yields at least one statement |
| Parser.ParseProg | src/parser/MFLParser.java:66-85 | an input at EOF is the empty program, consuming nothing; otherwise a program of statements |
| Parser.Leftover | src/parser/MFLParser.java:59-60 | a diagnostic is logged exactly when the token after the program is not EOF |
| Parser.Parse | src/parser/MFLParser.java:55-63 | the tree is a program, with at most one logged diagnostic, and only for a leftover token other than EOF |
| ParserSteps.FactorLeaf | src/parser/MFLParser.java:159-165 | a literal token becomes a leaf and is consumed |
| ParserSteps.FactorParen | src/parser/MFLParser.java:166-170 | `( e )` gives the tree of `e` itself |
| ParserSteps.FactorUnclosed | src/parser/MFLParser.java:169 | a parenthesised expression not followed by `)` fails with "expected `)`" naming the token found |
| ParserSteps.TermNot | src/parser/MFLParser.java:139-142 | `not` takes a relational expression and returns at once |
| ParserSteps.RexprPair | src/parser/MFLParser.java:114-121 | one relational operator between two mexprs forms a comparison node |
| ParserSteps.ValBinding | src/parser/MFLParser.java:89-94 | `val x := e` gives a binding of the identifier's text to `e` |
| ParserSteps.StmtsMore | src/parser/MFLParser.java:74-82 | a statement followed by `;` is kept, and the loop continues |
| ParserSteps.StmtsLast | src/parser/MFLParser.java:78-81 | a statement not followed by `;` ends the loop |
| ParserSteps.ParseEnd | src/parser/MFLParser.java:55-63 | the tree of `parse` is that of `parseProg`, and the diagnostic is about what follows it |
| ParserSteps.ParseErr | src/parser/MFLParser.java:55-63 | an exception in `parseProg` aborts `parse` with the same error |
| Printer.ProgramRoundTrip | src/parser/MFLParser.java:35-43 | parsing the tokens of any printed program, then EOF, gives back that program with no diagnostics |
| Printer.ExprRoundTrip | src/parser/MFLParser.java:101-175 | a printed expression followed by a token no operator level takes parses back whole |
| ParserProperties.Operand | src/parser/MFLParser.java:101-175 | a phrase of a grammar level parses at that level to its tree, leaving any following token that does not continue the level |
| ParserProperties.Lift | src/parser/MFLParser.java:101-152 | a phrase of one level is unchanged a phrase of the next looser level |
| ParserProperties.TermTailFolds | src/parser/MFLParser.java:145-150 | `a * b / c` parses as `(a * b) / c`, for operand phrases of any shape |
| ParserProperties.MexprTailFolds | src/parser/MFLParser.java:128-133 | `a - b - c` parses as `(a - b) - c`, for operand phrases of any shape |
| ParserProperties.ExprTailFolds | src/parser/MFLParser.java:103-108 | `a and b or c` parses as `(a and b) or c`, for operand phrases of any shape |
| ParserProperties.ChainFoldsLeft | src/parser/MFLParser.java:101-152 | on every left-associative level, an operand followed by a chain of operators and operands parses to the left fold |
| ParserProperties.ChainChunk | src/parser/MFLParser.java:101-152 | such a chain is itself a phrase of its level, so it can be an operand one level up |
| ParserProperties.SubtractionFoldsLeft | src/parser/MFLParser.java:40 | the instance `a - b - c` is `(a - b) - c` |
| ParserProperties.SumIsExpression | src/parser/MFLParser.java:101-135 | a sum followed by what ends an expression is a whole expression |
| ParserProperties.RelationalPair | src/parser/MFLParser.java:113-123 | `l p r` with `p` relational parses to one comparison node |
| ParserProperties.RelationalChunk | src/parser/MFLParser.java:113-123 | a comparison is a phrase of the relational level |
| ParserProperties.RelationalStopsAtSecond | src/parser/MFLParser.java:115-121 | after one comparison the expression ends, leaving a second relational operator unread |
| ParserProperties.RelationalNotAssociative | src/parser/MFLParser.java:59-60 | a program `l < r < s` is the first comparison, with the second operator logged as trailing input |
| ParserProperties.NotTakesRelational | src/parser/MFLParser.java:139-142 | `not` takes a whole relational phrase: `not l = r` is `not (l = r)` |
| ParserProperties.NotChunk | src/parser/MFLParser.java:139-142 | `not` and a relational phrase form a relational phrase |
| ParserProperties.NotOfComparison | src/parser/MFLParser.java:139-142 | the instance `not a = b` is `not (a = b)` as a whole expression |
| ParserProperties.EmptyProgram | src/parser/MFLParser.java:70-72 | an input at EOF is the empty program with no diagnostics |
| ParserProperties.OptionalSemicolon | src/parser/MFLParser.java:78-81 | a single statement needs no `;` before EOF |
| ParserProperties.WithSemicolon | src/parser/MFLParser.java:74-82 | the same statement with its `;` gives the same program |
| ParserProperties.StrayAfterStatement | src/parser/MFLParser.java:59-62 | a stray token after a statement is logged and the tree of the statement is still returned |
| ParserProperties.FirstStatementFails | src/parser/MFLParser.java:74-76 | when the first statement fails, the whole parse fails with its error |
| ParserProperties.BadStart | src/parser/MFLParser.java:171-173 | a token that cannot start a statement fails the parse with the factor error naming it |
| ParserProperties.ValNeedsName | src/parser/MFLParser.java:91 | `val` must be followed by an identifier, else "expected identifier" names the token found |
| ParserProperties.ValNeedsAssign | src/parser/MFLParser.java:92 | the name must be followed by `:=`, else "expected `:=`" names the token found |
| ParserProperties.UnclosedParen | src/parser/MFLParser.java:167-169 | an opened parenthesis must be closed right after its expression |
| Numerals.ParseLong | src/Evaluator.java:87 | a parsed long lies within the 64-bit range |
| Numerals.DigitsAsLong | src/Evaluator.java:87 | a digit string parses to its decimal value when that fits in a long, and is a format error otherwise |
| Numerals.LongTextRoundTrip | src/Evaluator.java:87 | the decimal text of every long parses back to it |
| Numerals.PointShift | src/Evaluator.java:88 | `a.b` parses to the digits of `ab` divided by ten to the length of `b` |
| Numerals.WholeDouble | src/Evaluator.java:88 | the decimal text of a natural number parses to that number as a double |
| Evaluator.Num | src/Evaluator.java:102-108 | longs and doubles are numbers, as doubles; a Boolean is the "Expected number" error |
| Evaluator.Bool | src/Evaluator.java:110-113 | only a Boolean has a truth value; anything else is the "Expected boolean" error |
| Evaluator.Truncate | src/Evaluator.java:71 | the `(long)` cast rounds toward zero |
| Evaluator.ToLong | src/Evaluator.java:71 | the cast lands in the long range, saturating at its ends |
| Evaluator.JavaRem | src/Evaluator.java:71 | the remainder is smaller in magnitude than the divisor |
| Evaluator.ApplyBinary | src/Evaluator.java:65-76 | `+ - * /` give doubles, `mod` gives a long, `and`/`or` give Booleans |
| Evaluator.ApplyUnary | src/Evaluator.java:78-83 | succeeds exactly for `not` on a Boolean, negating it; any other operator is "Unsupported unary op" |
| Evaluator.Literal | src/Evaluator.java:85-99 | an identifier is found exactly when bound, with its bound value, else "Undefined variable"; a non-literal token is "Unsupported literal token" |
| Evaluator.Eval | src/Evaluator.java:35-63 | evaluation never unbinds a name; an expression leaves the environment unchanged; a program or comparison node is "Unknown node" |
| Evaluator.CountPrinting | src/Evaluator.java:29 | the number of statements whose value is printed is at most the number of statements |
| EvaluatorProperties.CountsPrintingStatements | src/Evaluator.java:26-32 | the printed count is exactly the number of positions holding a statement that is not a `val`, against the independent set of those positions |
| Evaluator.RunStatements | src/Evaluator.java:26-32 | a run prints at most one value per printing statement, and exactly one each when nothing fails |
| Evaluator.Run | src/Evaluator.java:15-33 | a program prints at most one value per printing statement, and exactly one each when no statement fails; a root that is not a program fails reading `statements` |
| EvaluatorProperties.ValBinds | src/Evaluator.java:38-44 | `val x := e` returns the value of `e` and binds `x` to it; an error in `e` is the binding's error |
| EvaluatorProperties.LookupAfterBind | src/Evaluator.java:42 | after binding `x`, looking up `x` gives the bound value, and other names are unaffected |
| EvaluatorProperties.LookupIff | src/Evaluator.java:91-95 | an identifier evaluates exactly when bound, to its value, else "Undefined variable" |
| EvaluatorProperties.LeftErrorFirst | src/Evaluator.java:46 | an error in the left operand is the operator's error, whatever the right operand |
| EvaluatorProperties.RightErrorAborts | src/Evaluator.java:47 | with a good left operand, an error in the right operand aborts the operator |
| EvaluatorProperties.OperandsThenOperator | src/Evaluator.java:45-50 | an operator node is the operator applied to the values of its operands, left then right |
| EvaluatorProperties.ArithmeticNeedsNumbers | src/Evaluator.java:67-71 | an arithmetic operator with a Boolean operand is "Expected number" naming the first Boolean operand |
| EvaluatorProperties.LongsMakeDoubles | src/Evaluator.java:67-69 | `+`, `-` and `*` of two longs give the double of the exact result, never a long |
| EvaluatorProperties.DivisionIsReal | src/Evaluator.java:70 | `/` is real division, and a zero divisor gives a non-finite result |
| EvaluatorProperties.ConnectiveNeedsBooleans | src/Evaluator.java:72-73 | a connective with a non-Boolean left operand is "Expected boolean" |
| EvaluatorProperties.ConnectivesAreLogic | src/Evaluator.java:72-73 | on Booleans `and` and `or` are conjunction and disjunction |
| EvaluatorProperties.DecidedByLeft | src/Evaluator.java:72-73 | `false and r` and `true or r` never look at `r`, whatever its type |
| EvaluatorProperties.UndecidedChecksRight | src/Evaluator.java:72-73 | when the left operand does not decide, a non-Boolean right operand is "Expected boolean" |
| EvaluatorProperties.FalseAndFive | src/Evaluator.java:72 | `false and 5` evaluates to `false` with no error |
| EvaluatorProperties.RemainderTruncates | src/Evaluator.java:71 | the remainder satisfies truncated division: `a == q*b + r`, `r` has the sign of `a` and is smaller than `b` in magnitude |
| EvaluatorProperties.TruncDivisionUnique | src/Evaluator.java:71 | any quotient and remainder with those properties are the truncated ones |
| EvaluatorProperties.RemainderNotEuclidean | src/Evaluator.java:71 | `-7 mod 2` is `-1`, unlike the Euclidean `1` |
| EvaluatorProperties.ModOfLongs | src/Evaluator.java:71 | `mod` of two longs with a non-zero divisor is their truncated remainder |
| EvaluatorProperties.ModTruncatesDoubles | src/Evaluator.java:71 | `mod` casts doubles to longs first: `7.5 mod 2.0` is `1`, and `5 mod 0.5` divides by zero |
| EvaluatorProperties.RelOpFails | src/Evaluator.java:60-61 | a comparison node is "Unknown node: RelOpNode" |
| EvaluatorProperties.UnsupportedOperator | src/Evaluator.java:74 | any binary operator other than the seven is "Unsupported bin op" |
| EvaluatorProperties.UnsupportedLeaf | src/Evaluator.java:96-97 | a leaf that is not a literal kind is "Unsupported literal token" |
| EvaluatorProperties.RunAppend | src/Evaluator.java:26-32 | running `ss + more` is running `ss` and then, if nothing failed, `more` from the resulting bindings, with the outputs concatenated |
| EvaluatorProperties.ErrorIgnoresRest | src/Evaluator.java:26-32 | once a statement fails, the statements after it change nothing |
| EvaluatorProperties.FailurePoint | src/Evaluator.java:26-32 | a failing run has a first failing statement: the output is that of the statements before it, the failure is its error, and the bindings are those made before it |
| EvaluatorProperties.ProgramFailurePoint | src/Evaluator.java:23-33 | a program whose run fails prints exactly what its statements before the first failing one print from no bindings, keeps their bindings, and fails with that statement's error |
| EvaluatorProperties.ExpressionsKeepBindings | src/Evaluator.java:26-32 | a run of expression statements only leaves the bindings unchanged |
| EvaluatorProperties.SampleProgram | src/Evaluator.java:23-63 | `val x := 3; x + 4; x < 5` prints `7` (the double 7.0, which `stringify` writes without a fraction), binds `x` to `3` and then stops at the comparison |
| Promotion.Wrap | src/Evaluator.java:101 | Java `long` arithmetic: the result lies in the 64-bit range, differs from the exact result by a multiple of 2^64, and is the exact result when that fits |
| Promotion.PromotedBinary | src/Evaluator.java:67-70 | corrected `binOp`: `+ - * /` of two longs give a long in range, and fail exactly for `/` by zero, with the division error; any other operands or operator give `binOp` as written |
| Promotion.PromotionRoundsAsWritten | src/Evaluator.java:67-70 | on two longs, the corrected result is the as-written double rounded toward zero and wrapped into a long |
| Promotion.TruncateQuotient | src/Evaluator.java:70 | rounding the real quotient toward zero gives the quotient of Java's integer `/` |
| Promotion.SevenOverTwo | src/Evaluator.java:67-70 | `7 / 2` evaluates to the double 3.5 as written, and to the long 3 with promotion |
| Promotion.Compare | src/parser/MFLParser.java:113-123 | corrected comparison: succeeds exactly for a relational operator on two numbers and gives a Boolean; a Boolean operand is "Expected number", the left one first |
| Promotion.ComparisonsAgree | src/parser/MFLParser.java:113-123 | on numbers exactly one of `<`, `=` and `>` holds; `<=`, `>=` and `!=` negate `>`, `<` and `=`; `>` is `<` with the operands swapped |
| Promotion.CompareLongs | src/parser/MFLParser.java:113-123 | on two longs, `<` and `=` are the integers' order and equality |
| Promotion.EvalComparing | src/Evaluator.java:37-61 | corrected `eval` step: a relational node gives a Boolean, keeps the bindings for expression operands, and fails with its left operand's error; any other node is `eval` as written |
| Promotion.SampleComparison | src/Evaluator.java:37-61 | the comparison `x < 5` that stops the sample program is `true` when `x` is 3 |
| Pipeline.ParseText | src/EvalMain.java:12-13 | the parsed text is a program tree |
| Pipeline.Interpret | src/EvalMain.java:12-14 | the run happens exactly when parsing succeeds; a parse exception is the result; a complete run prints one value per printing statement |
| Pipeline.PrintedProgramRuns | src/EvalMain.java:12-14 | interpreting the text of a printed program gives that program, no diagnostics, and its run |
| Pipeline.StrayTokenIsLogged | src/parser/MFLParser.java:59-62 | the text `1 2` logs the stray `2`, and with the corrected run still runs `1`, printing `1` |
| Reflection.DeclaredFields | src/parser/MFLParser.java:181-263 | only the leaf class declares `token`; the fields are those of the parser's node classes |
| Reflection.RunAsWritten | src/Evaluator.java:24 | a run completes only if the root's class declares `statements` |
| Reflection.NoStatementsField | src/parser/MFLParser.java:181-195 | no node class of the parser declares `statements` |
| Reflection.ParsedTreesNeverRun | src/Evaluator.java:24 | as written, every parsed tree fails at its root with "Reflection failed for ProgNode.statements", printing nothing |
| Reflection.EmptyTextParses | src/parser/MFLParser.java:70-72 | the empty text parses to the empty program with no diagnostics |
| Reflection.EmptyTextRuns | src/Evaluator.java:23-33 | as written the empty program fails; the corrected run completes, printing and binding nothing |

## Left out

- CharacterStream.CurrentClass: ASCII stand-ins replace `Character.isWhitespace`, `isLetter` and `isDigit`. Whitespace is space, tab, newline, vertical tab, form feed and carriage return, plus the separators U+001C to U+001F. Letters are `A`-`Z` and `a`-`z`, and digits are `0`-`9`. Java also counts non-ASCII letters and digits, so `é` is a LETTER there and an UNKNOWN token here.
- CharacterStream.CurrentChar: a Dafny `char` is a Unicode scalar value, while a Java `char` is a UTF-16 code unit. A supplementary character is one character here and a surrogate pair, read as two UNKNOWN tokens, in Java.
- Parser.Parse: the nodes carry no line number. `getCurrLine`, `getLineNumber` and `SyntaxNode`'s line field are informational. The cursor's own line count is modelled.
- Parser.Parse: the "Unexpected token after end of program" `logError` is recorded as a diagnostic next to the tree. The tree is still returned, as in the source. The `logError` just before the throw in `parseFactor` is not recorded separately: the thrown exception becomes the `Err`, and that carries the same token.
- Parser.Match: the `Parser` base class is not part of this model. `match`, `checkMatch`, `tokenIs`, `nextToken` and `getCurrToken` are modelled as consuming the expected token or failing with an error that names the expected kind and the token found. The message text of `ParseException` is not modelled.
- Parser.ParseVal: the `stmt != null` test is not modelled because no parse function returns null.
- Evaluator.ApplyBinary: doubles are exact reals, so there is no IEEE rounding, and a long converts to a double exactly. A `/` by zero is the `NotFinite` failure, and this changes what a run does:
  - In the model the run stops at that statement. The source computes Infinity or NaN and goes on with the statements after it.
  - The source prints such a value through `stringify`: `1/0` as `9223372036854775807`, because the `(long)` cast saturates, and `0/0` as `NaN`.
  - In the source, `mod` of such a value is defined: the `(long)` cast gives the largest long for infinity and 0 for NaN. `Evaluator.ToLong` models the cast of finite values only.
- Evaluator.Num: the `Float` and `Integer` branches are not modelled, because no evaluation produces those types.
- Numerals.ParseDouble: only decimal text (optional sign, digits, optional fraction) is accepted, which covers every REAL token the lexer produces. Exponents, `NaN`, `Infinity`, hexadecimal forms, type suffixes and surrounding whitespace are not modelled. The value is the exact decimal number.
- Numerals.ParseLong: only ASCII digits are read, which covers every INT token the lexer produces. Java also accepts other Unicode decimal digits.
- Evaluator.Run: the printed output is the sequence of values. The `stringify` formatting and `System.out.println` are I/O and are not modelled. The null-root check is not modelled either, because `parse` always returns a root.
- Evaluator.Run: the reflective `get` is replaced by matching on the tree. As written, every run fails, because the field names differ between the two node hierarchies; see Findings. The `LinkedList` cast of the parser's `ArrayList` would fail too.
- Evaluator.RunStatements: after a failure the run keeps the bindings made so far. In the source the `Evaluator` object is discarded when the exception leaves `main`.
- Pipeline.Interpret: `EvalMain`'s usage message, the file constructors of `CharacterStream`, `Lexer` and `MFLParser`, and reading the file are I/O. The model takes the text itself. An exception escaping `main` becomes the `Err` or the recorded failure.
- The `displaySubtree` printers of the node classes, and `SyntaxTree` beyond holding the root, are output only and are not modelled.
- Promotion.PromotedBinary: the evaluator keeps `binOp` as written, so every run in this model computes `+ - * /` in doubles. The corrected arithmetic stands beside it and is not used by `Evaluator.Eval`.
- Promotion.EvalComparing: only the relational node itself is corrected. Its operands, and every other node, are evaluated by `eval` as written, so a comparison below another node, as in `1 < 2 and 3 < 4`, still fails with "Unknown node: RelOpNode". `Evaluator.RunStatements` keeps using `eval` as written.
- src/lexer/MFLParser.java is an older copy of the parser and is not part of this model.

## Findings

| source | as written | input that shows it | evidently intended | confidence | as-written member | corrected member |
|---|---|---|---|---|---|---|
| src/Evaluator.java:24 | `evalProg` reads the field `statements` by reflection, and `eval` reads `rhs`, `child` and a `Token` `name`. These are the fields of the `ast.nodes` classes. The parser builds its own nested classes, whose fields are `children`, `expr`, a `String` `name` and a `String` `op` (src/parser/MFLParser.java:181-263). So `get` throws "Reflection failed for ProgNode.statements" on every parsed tree | the empty text, or `1;` | the evaluator walks the tree the parser built: it runs the statements in order and prints each expression's value. `Reflection.ParsedTreesNeverRun` shows the as-written failure for every parsed tree. `Reflection.EmptyTextRuns` and `Pipeline.PrintedProgramRuns` state the intended run | not executed | Reflection.RunAsWritten | Evaluator.Run |
| src/Evaluator.java:67-70, src/Evaluator.java:101 | The comment on `num` promises numeric promotion: a double operand makes the result a double, and otherwise it is a long. But `binOp` converts both operands with `num`, which returns a Java `double`, and computes `+ - * /` on the doubles. So two longs always give a `Double`: `1 + 1` is the double 2.0 and `7 / 2` is 3.5 | `7 / 2;` | `+ - * /` of two longs are computed in long arithmetic: `7 / 2` is 3, rounded toward zero, and a zero divisor throws. `Promotion.PromotionRoundsAsWritten` relates the two: on two longs the corrected result is the as-written double rounded toward zero and wrapped into a long. `EvaluatorProperties.LongsMakeDoubles` and `EvaluatorProperties.DivisionIsReal` state the as-written results | not executed | Promotion.SevenOverTwo | Promotion.PromotedBinary |
| src/Evaluator.java:37-61, src/parser/MFLParser.java:113-123 | `parseRexpr` builds a `RelOpNode` for each of `< > <= >= = !=`, but `eval`'s switch has no `RelOpNode` case. So every comparison fails with "Unknown node: RelOpNode" before its operands are evaluated | `1 < 2;` | a relational node evaluates its operands left then right, reads both as numbers, and gives the Boolean result of the comparison. `Promotion.ComparisonsAgree` shows the six operators order numbers consistently, and `Promotion.SampleComparison` shows the comparison that stops the sample program holding | not executed | EvaluatorProperties.RelOpFails | Promotion.EvalComparing |

=== FILE: character_stream.dfy ===
/**
 * The character cursor of the lexer: an index into a fixed source string,
 * a line counter and a one-shot "deferred advance" flag.
 */
module CharacterStream {
  import opened Results

  /** The classes `getCurrentClass` distinguishes. */
  datatype CharClass = WhiteSpace | Letter | Digit | Other | End

  /** The sentinel returned at or past the end of the input. */
  const EndChar: char := '\0'

  // ASCII stand-ins for Character.isWhitespace, isLetter and isDigit.

  predicate IsWhitespace(ch: char) {
    ch == ' ' || ch == '\t' || ch == '\n' || ch == '\U{000B}' || ch == '\U{000C}' || ch == '\r'
    || ('\U{001C}' <= ch <= '\U{001F}')
  }

  predicate IsLetter(ch: char) {
    ('a' <= ch <= 'z') || ('A' <= ch <= 'Z')
  }

  predicate IsDigit(ch: char) {
    '0' <= ch <= '9'
  }

  /** The cursor state: `skip` is the deferred-advance flag, `line` the line counter. */
  datatype Cursor = Cursor(src: string, idx: nat, skip: bool, line: nat)

  /** Number of newline characters in `s`. */
  function Newlines(s: string): nat {
    if |s| == 0 then 0 else Newlines(s[..|s| - 1]) + (if s[|s| - 1] == '\n' then 1 else 0)
  }

  /**
   * The representation invariant the stream keeps: the index never passes the
   * end of the input and the line counter is one more than the number of
   * newlines stepped over so far.
   */
  predicate Valid(c: Cursor) {
    c.idx <= |c.src| && c.line == 1 + Newlines(c.src[..c.idx])
  }

  /** The in-memory constructor; a null input (None) is read as the empty string. */
  function Open(input: Option<string>): (c: Cursor)
    ensures Valid(c) && c.idx == 0 && !c.skip
  {
    Cursor(if input.Some? then input.value else "", 0, false, 1)
  }

  function CurrentChar(c: Cursor): (ch: char)
    ensures c.idx >= |c.src| ==> ch == EndChar
  {
    if c.idx >= |c.src| then EndChar else c.src[c.idx]
  }

  /** The class of the current character; END exactly when the input is used up. */
  function CurrentClass(c: Cursor): (k: CharClass)
    ensures k == End <==> c.idx >= |c.src|
  {
    if c.idx >= |c.src| then End
    else
      var ch := c.src[c.idx];
      if IsWhitespace(ch) then WhiteSpace
      else if IsLetter(ch) then Letter
      else if IsDigit(ch) then Digit
      else Other
  }

  /**
   * Steps over one character, unless an advance was deferred, in which case
   * only the flag is cleared.  At the end of the input nothing moves.
   */
  function Advance(c: Cursor): (d: Cursor)
    ensures d.src == c.src && !d.skip
    ensures c.line <= d.line
    ensures c.skip ==> d.idx == c.idx && d.line == c.line
    ensures c.idx >= |c.src| ==> d.idx == c.idx && d.line == c.line
    ensures !c.skip && c.idx < |c.src| ==>
              d.idx == c.idx + 1 && (d.line == c.line + 1 <==> c.src[c.idx] == '\n')
  {
    if c.skip then c.(skip := false)
    else if c.idx >= |c.src| then c
    else c.(idx := c.idx + 1, line := if c.src[c.idx] == '\n' then c.line + 1 else c.line)
  }

  /** Defers the next advance; index and line are untouched. */
  function SkipNextAdvance(c: Cursor): (d: Cursor)
    ensures d.skip && d.src == c.src && d.idx == c.idx && d.line == c.line
  {
    c.(skip := true)
  }

  /** Clears the deferred-advance flag without moving. */
  function ConsumeDeferredAdvance(c: Cursor): (d: Cursor)
    ensures !d.skip && d.src == c.src && d.idx == c.idx && d.line == c.line
  {
    if c.skip then c.(skip := false) else c
  }

  /** The whitespace loop of `advanceToNonBlank`, entered with the flag clear. */
  function SkipBlanks(c: Cursor): (d: Cursor)
    requires !c.skip
    ensures !d.skip && d.src == c.src && c.idx <= d.idx
    ensures CurrentClass(d) != WhiteSpace
    ensures c.idx < d.idx ==> d.idx <= |c.src|  // it only moves across input characters
    ensures forall k :: c.idx <= k < d.idx ==> IsWhitespace(c.src[k])
    ensures Valid(c) ==> Valid(d)
    decreases |c.src| - c.idx
  {
    if CurrentClass(c) == WhiteSpace then
      AdvancePreservesValid(c);
      SkipBlanks(Advance(c))
    else c
  }

  /** Clears the deferred flag, then moves to the first non-blank character or the end. */
  function AdvanceToNonBlank(c: Cursor): (d: Cursor)
    ensures !d.skip && d.src == c.src && c.idx <= d.idx
    ensures CurrentClass(d) != WhiteSpace
    ensures c.idx < d.idx ==> d.idx <= |c.src|  // it only moves across input characters
    ensures forall k :: c.idx <= k < d.idx ==> IsWhitespace(c.src[k])
    ensures Valid(c) ==> Valid(d)
  {
    SkipBlanks(ConsumeDeferredAdvance(c))
  }

  // ----- properties -----

  lemma NewlinesSnoc(s: string, i: nat)
    requires i < |s|
    ensures Newlines(s[..i + 1]) == Newlines(s[..i]) + (if s[i] == '\n' then 1 else 0)
  {
    assert s[..i + 1][..i] == s[..i];
  }

  /** `advance` keeps the index within the input and the line counter exact. */
  lemma AdvancePreservesValid(c: Cursor)
    ensures Valid(c) ==> Valid(Advance(c))
  {
    if Valid(c) && !c.skip && c.idx < |c.src| {
      NewlinesSnoc(c.src, c.idx);
    }
  }

  /** At or past the end the stream reports the sentinel and END. */
  lemma AtEndIsSentinel(c: Cursor)
    requires c.idx >= |c.src|
    ensures CurrentChar(c) == EndChar && CurrentClass(c) == End
  {
  }

  /** After `skipNextAdvance` the next `advance` only clears the flag. */
  lemma SkipThenAdvance(c: Cursor)
    ensures Advance(SkipNextAdvance(c)) == c.(skip := false)
  {
  }

  /** A null input behaves exactly like the empty string. */
  lemma NullIsEmpty()
    ensures Open(None) == Open(Some(""))
  {
  }
}

=== FILE: evaluator.dfy ===
/**
 * The tree-walking evaluator.  Statements run in order against one
 * environment of `val` bindings; the value of every statement that is not
 * a `val` is printed, and the first exception ends the run.
 */
module Evaluator {
  import opened Results
  import opened Tokens
  import opened Syntax
  import opened Numerals

  /** The Java objects evaluation produces: a `Long`, a `Double` or a `Boolean`. */
  datatype Value = LongV(i: int) | DoubleV(r: real) | BoolV(b: bool)

  /** The names bound so far by `val` statements. */
  type Env = map<string, Value>

  /** The exceptions evaluation throws, one per message. */
  datatype RuntimeError =
    | UnknownNode(kind: string)                    // a node class `eval` has no case for
    | UnsupportedBinOp(op: TokenKind)
    | UnsupportedUnaryOp(op: TokenKind)
    | UnsupportedLiteral(tok: Token)
    | UndefinedVariable(name: string)
    | ExpectedNumber(got: Value)
    | ExpectedBoolean(got: Value)
    | NumberFormat(text: string)                   // `parseLong` or `parseDouble` rejected the text
    | DivisionByZero                               // `%` on longs with a zero divisor
    | NotFinite                                    // `/` by zero, whose double result is infinite or NaN
    | ReflectionFailed(kind: string, field: string) // the node has no field of that name

  /** The simple class name `eval` switches on. */
  function NodeKind(n: Ast): string {
    match n
    case Prog(_) => "ProgNode"
    case Val(_, _) => "ValNode"
    case BinOp(_, _, _) => "BinOpNode"
    case RelOp(_, _, _) => "RelOpNode"
    case UnOp(_, _) => "UnaryOpNode"
    case Leaf(_) => "TokenNode"
  }

  /** `num`: a long or a double as a double; anything else is not a number. */
  function Num(v: Value): (r: Result<real, RuntimeError>)
    ensures r.Ok? <==> !v.BoolV?
    ensures v.LongV? ==> r == Ok(v.i as real)
    ensures v.DoubleV? ==> r == Ok(v.r)
    ensures r.Err? ==> r.error == ExpectedNumber(v)
  {
    match v
    case LongV(i) => Ok(i as real)
    case DoubleV(x) => Ok(x)
    case BoolV(_) => Err(ExpectedNumber(v))
  }

  /** `bool`: a Boolean's truth value; anything else is not a Boolean. */
  function Bool(v: Value): (r: Result<bool, RuntimeError>)
    ensures r.Ok? <==> v.BoolV?
    ensures r.Ok? ==> r.value == v.b
    ensures r.Err? ==> r.error == ExpectedBoolean(v)
  {
    if v.BoolV? then Ok(v.b) else Err(ExpectedBoolean(v))
  }

  /** Rounding toward zero: the integer part of `x`. */
  function Truncate(x: real): (n: int)
    ensures x >= 0.0 ==> n as real <= x < n as real + 1.0
    ensures x < 0.0 ==> n as real - 1.0 < x <= n as real
  {
    if x >= 0.0 then x.Floor else -((-x).Floor)
  }

  /** The `(long)` cast of a finite double: truncation, saturating at the ends of the range. */
  function ToLong(x: real): (n: int)
    ensures InLongRange(n)
    ensures InLongRange(Truncate(x)) ==> n == Truncate(x)
    ensures Truncate(x) > MaxLong ==> n == MaxLong
    ensures Truncate(x) < MinLong ==> n == MinLong
  {
    var t := Truncate(x);
    if t > MaxLong then MaxLong else if t < MinLong then MinLong else t
  }

  function Abs(a: int): nat {
    if a < 0 then -a else a
  }

  /** The quotient of Java's integer `/`: rounded toward zero. */
  function TruncQuot(a: int, b: int): int
    requires b != 0
  {
    var q := Abs(a) / Abs(b);
    if (a < 0) != (b < 0) then -q else q
  }

  /** Java's `%` on longs: the remainder of the quotient rounded toward zero, with the dividend's sign. */
  function JavaRem(a: int, b: int): (r: int)
    requires b != 0
    ensures Abs(r) < Abs(b)
  {
    if a >= 0 then a % Abs(b) else -((-a) % Abs(b))
  }

  /** `binOp`: both operands already evaluated, left first. */
  function ApplyBinary(op: TokenKind, l: Value, r: Value): (res: Result<Value, RuntimeError>)
    ensures res.Ok? && (op == ADD || op == SUB || op == MULT || op == DIV) ==> res.value.DoubleV?
    ensures res.Ok? && op == MOD ==> res.value.LongV? && InLongRange(res.value.i)
    ensures res.Ok? && IsBoolOp(op) ==> res.value.BoolV?
  {
    match op
    case ADD => var x :- Num(l); var y :- Num(r); Ok(DoubleV(x + y))
    case SUB => var x :- Num(l); var y :- Num(r); Ok(DoubleV(x - y))
    case MULT => var x :- Num(l); var y :- Num(r); Ok(DoubleV(x * y))
    case DIV =>
      var x :- Num(l);
      var y :- Num(r);
      if y == 0.0 then Err(NotFinite) else Ok(DoubleV(x / y))
    case MOD =>
      var x :- Num(l);
      var y :- Num(r);
      var a := ToLong(x);
      var b := ToLong(y);
      if b == 0 then Err(DivisionByZero) else Ok(LongV(JavaRem(a, b)))
    case AND =>
      var x :- Bool(l);
      if !x then Ok(BoolV(false)) else var y :- Bool(r); Ok(BoolV(y))
    case OR =>
      var x :- Bool(l);
      if x then Ok(BoolV(true)) else var y :- Bool(r); Ok(BoolV(y))
    case _ => Err(UnsupportedBinOp(op))
  }

  /** `unaryOp`: only `not`, on a Boolean. */
  function ApplyUnary(op: TokenKind, v: Value): (res: Result<Value, RuntimeError>)
    ensures res.Ok? <==> op == NOT && v.BoolV?
    ensures res.Ok? ==> res.value == BoolV(!v.b)
    ensures op != NOT ==> res == Err(UnsupportedUnaryOp(op))
  {
    if op != NOT then Err(UnsupportedUnaryOp(op))
    else var b :- Bool(v); Ok(BoolV(!b))
  }

  /** `literal`: the value a leaf token denotes in `env`. */
  function Literal(t: Token, env: Env): (res: Result<Value, RuntimeError>)
    ensures t.kind == ID ==> (res.Ok? <==> t.text in env)
    ensures t.kind == ID && res.Ok? ==> res.value == env[t.text]
    ensures t.kind == ID && res.Err? ==> res.error == UndefinedVariable(t.text)
    ensures !IsLiteral(t.kind) ==> res == Err(UnsupportedLiteral(t))
  {
    match t.kind
    case INT => (match ParseLong(t.text) case Some(n) => Ok(LongV(n)) case None => Err(NumberFormat(t.text)))
    case REAL => (match ParseDouble(t.text) case Some(x) => Ok(DoubleV(x)) case None => Err(NumberFormat(t.text)))
    case TRUE => Ok(BoolV(true))
    case FALSE => Ok(BoolV(false))
    case ID => if t.text in env then Ok(env[t.text]) else Err(UndefinedVariable(t.text))
    case _ => Err(UnsupportedLiteral(t))
  }

  /**
   * `eval`: the value of a node and the environment after it; only a
   * `val` node changes the environment.
   */
  function Eval(n: Ast, env: Env): (res: Result<(Value, Env), RuntimeError>)
    ensures res.Ok? ==> env.Keys <= res.value.1.Keys
    ensures res.Ok? && IsExpr(n) ==> res.value.1 == env
    ensures n.Prog? || n.RelOp? ==> res == Err(UnknownNode(NodeKind(n)))
    decreases n
  {
    match n
    case Val(x, rhs) =>
      var p :- Eval(rhs, env);
      Ok((p.0, p.1[x := p.0]))
    case BinOp(op, l, r) =>
      var a :- Eval(l, env);
      var b :- Eval(r, a.1);
      var v :- ApplyBinary(op, a.0, b.0);
      Ok((v, b.1))
    case UnOp(op, c) =>
      var a :- Eval(c, env);
      var v :- ApplyUnary(op, a.0);
      Ok((v, a.1))
    case Leaf(t) =>
      var v :- Literal(t, env);
      Ok((v, env))
    case _ => Err(UnknownNode(NodeKind(n)))
  }

  /** What a run comes to: the printed values, the final bindings, and the exception that ended it, if any. */
  datatype Execution = Execution(out: seq<Value>, env: Env, failure: Option<RuntimeError>)

  /** Whether a statement's value is printed: every statement but a `val`. */
  predicate Prints(s: Ast) {
    !s.Val?
  }

  /** The statements printing a value. */
  function CountPrinting(ss: seq<Ast>): (n: nat)
    ensures n <= |ss|
    decreases |ss|
  {
    if |ss| == 0 then 0 else (if Prints(ss[0]) then 1 else 0) + CountPrinting(ss[1..])
  }

  /**
   * The loop of `evalProg`: each statement in turn, printing the value of
   * those that are not `val`; an exception stops the loop and the run.
   */
  function RunStatements(ss: seq<Ast>, env: Env): (x: Execution)
    ensures |x.out| <= CountPrinting(ss)
    ensures x.failure.None? ==> |x.out| == CountPrinting(ss)
    ensures x.failure.None? ==> env.Keys <= x.env.Keys
    decreases |ss|
  {
    if |ss| == 0 then Execution([], env, None)
    else
      match Eval(ss[0], env)
      case Err(e) => Execution([], env, Some(e))
      case Ok(p) =>
        var rest := RunStatements(ss[1..], p.1);
        rest.(out := (if Prints(ss[0]) then [p.0] else []) + rest.out)
  }

  /** `run` of a tree: the root's `statements` from an empty environment. */
  function Run(root: Ast): (x: Execution)
    ensures root.Prog? ==> |x.out| <= CountPrinting(root.stmts)
    ensures root.Prog? && x.failure.None? ==> |x.out| == CountPrinting(root.stmts)
    ensures !root.Prog? ==> x == Execution([], map[], Some(ReflectionFailed(NodeKind(root), "statements")))
  {
    if root.Prog? then RunStatements(root.stmts, map[])
    else Execution([], map[], Some(ReflectionFailed(NodeKind(root), "statements")))
  }
}

=== FILE: evaluator_properties.dfy ===
/**
 * What evaluation promises: how `val` binds and names read back, the
 * left-then-right order of operands, the operand types each operator
 * checks and the ones `and`/`or` skip, the truncating remainder of `mod`,
 * the nodes and operators that fail, and how the statement loop prints
 * and stops.
 */
module EvaluatorProperties {
  import opened Results
  import opened Tokens
  import opened Syntax
  import opened Numerals
  import opened Evaluator

  // ----- bindings -----

  /** `val x := e` returns the value of `e` and binds `x` to it, every other binding kept. */
  lemma ValBinds(x: string, e: Ast, env: Env)
    requires IsExpr(e)
    ensures Eval(e, env).Ok? ==>
              var v := Eval(e, env).value.0;
              Eval(Val(x, e), env) == Ok((v, env[x := v]))
    ensures Eval(e, env).Err? ==> Eval(Val(x, e), env) == Err(Eval(e, env).error)
  {
  }

  /** A name reads back the value last bound to it, and the other names read as before. */
  lemma LookupAfterBind(x: string, y: string, v: Value, env: Env)
    ensures Eval(Leaf(Token(ID, x)), env[x := v]) == Ok((v, env[x := v]))
    ensures y != x ==> Literal(Token(ID, y), env[x := v]) == Literal(Token(ID, y), env)
  {
  }

  /** A name evaluates exactly when it is bound, and fails naming itself otherwise. */
  lemma LookupIff(x: string, env: Env)
    ensures Eval(Leaf(Token(ID, x)), env).Ok? <==> x in env
    ensures x in env ==> Eval(Leaf(Token(ID, x)), env) == Ok((env[x], env))
    ensures x !in env ==> Eval(Leaf(Token(ID, x)), env) == Err(UndefinedVariable(x))
  {
  }

  // ----- order of evaluation -----

  /** The left operand is evaluated first: its exception is the node's. */
  lemma LeftErrorFirst(op: TokenKind, l: Ast, r: Ast, env: Env)
    requires Eval(l, env).Err?
    ensures Eval(BinOp(op, l, r), env) == Err(Eval(l, env).error)
  {
  }

  /**
   * The right operand is evaluated, in the environment the left one left,
   * before the operator is applied: its exception aborts the node, even
   * for an operator `binOp` does not support.
   */
  lemma RightErrorAborts(op: TokenKind, l: Ast, r: Ast, env: Env)
    requires Eval(l, env).Ok? && Eval(r, Eval(l, env).value.1).Err?
    ensures Eval(BinOp(op, l, r), env) == Err(Eval(r, Eval(l, env).value.1).error)
  {
  }

  /** With both operands evaluated, the node's value is the operator applied to them. */
  lemma OperandsThenOperator(op: TokenKind, l: Ast, r: Ast, env: Env)
    requires IsExpr(l) && IsExpr(r) && Eval(l, env).Ok? && Eval(r, env).Ok?
    ensures ApplyBinary(op, Eval(l, env).value.0, Eval(r, env).value.0).Ok? ==>
              Eval(BinOp(op, l, r), env) == Ok((ApplyBinary(op, Eval(l, env).value.0, Eval(r, env).value.0).value, env))
    ensures ApplyBinary(op, Eval(l, env).value.0, Eval(r, env).value.0).Err? ==>
              Eval(BinOp(op, l, r), env) == Err(ApplyBinary(op, Eval(l, env).value.0, Eval(r, env).value.0).error)
  {
  }

  // ----- operand types -----

  predicate IsArithmetic(op: TokenKind) {
    IsAddOp(op) || IsMulOp(op)
  }

  /** Arithmetic takes numbers, and the left operand is checked first. */
  lemma ArithmeticNeedsNumbers(op: TokenKind, l: Value, r: Value)
    requires IsArithmetic(op)
    ensures l.BoolV? ==> ApplyBinary(op, l, r) == Err(ExpectedNumber(l))
    ensures !l.BoolV? && r.BoolV? ==> ApplyBinary(op, l, r) == Err(ExpectedNumber(r))
  {
  }

  /** `+`, `-` and `*` go through doubles, so even two longs give a double. */
  lemma LongsMakeDoubles(a: int, b: int)
    ensures ApplyBinary(ADD, LongV(a), LongV(b)) == Ok(DoubleV((a + b) as real))
    ensures ApplyBinary(SUB, LongV(a), LongV(b)) == Ok(DoubleV((a - b) as real))
    ensures ApplyBinary(MULT, LongV(a), LongV(b)) == Ok(DoubleV((a * b) as real))
  {
    var m := ApplyBinary(MULT, LongV(a), LongV(b));
    assert m.Ok? && m.value.DoubleV?;
    assert m.value.r == a as real * b as real;
    assert (a * b) as real == a as real * b as real;
  }

  /** `/` is the real quotient, and a zero divisor has no finite result. */
  lemma DivisionIsReal(l: Value, r: Value)
    requires !l.BoolV? && !r.BoolV?
    ensures Num(r).value == 0.0 ==> ApplyBinary(DIV, l, r) == Err(NotFinite)
    ensures Num(r).value != 0.0 ==> ApplyBinary(DIV, l, r) == Ok(DoubleV(Num(l).value / Num(r).value))
  {
  }

  /** `and` and `or` take Booleans, the left operand checked first. */
  lemma ConnectiveNeedsBooleans(op: TokenKind, l: Value, r: Value)
    requires IsBoolOp(op)
    ensures !l.BoolV? ==> ApplyBinary(op, l, r) == Err(ExpectedBoolean(l))
  {
  }

  /** On Booleans, `and` and `or` are conjunction and disjunction. */
  lemma ConnectivesAreLogic(a: bool, b: bool)
    ensures ApplyBinary(AND, BoolV(a), BoolV(b)) == Ok(BoolV(a && b))
    ensures ApplyBinary(OR, BoolV(a), BoolV(b)) == Ok(BoolV(a || b))
  {
  }

  /**
   * When the left operand decides, the right operand's type is never
   * checked: `false and 5` is `false` and `true or 5` is `true`.
   */
  lemma DecidedByLeft(r: Value)
    ensures ApplyBinary(AND, BoolV(false), r) == Ok(BoolV(false))
    ensures ApplyBinary(OR, BoolV(true), r) == Ok(BoolV(true))
  {
  }

  /** When the left operand does not decide, the right one must be a Boolean. */
  lemma UndecidedChecksRight(r: Value)
    requires !r.BoolV?
    ensures ApplyBinary(AND, BoolV(true), r) == Err(ExpectedBoolean(r))
    ensures ApplyBinary(OR, BoolV(false), r) == Err(ExpectedBoolean(r))
  {
  }

  /** The program text `false and 5`, as a tree, evaluates to `false`. */
  lemma FalseAndFive(env: Env)
    ensures Eval(BinOp(AND, Leaf(Fixed(FALSE)), Leaf(Token(INT, "5"))), env) == Ok((BoolV(false), env))
  {
    assert Literal(Token(INT, "5"), env) == Ok(LongV(5)) by {
      DigitsAsLong("5");
    }
  }

  // ----- the remainder of `mod` -----

  /**
   * `q` and `r` are the quotient and remainder of dividing `a` by `b`
   * with the quotient rounded toward zero: the remainder is smaller than
   * the divisor and never has the opposite sign of the dividend.
   */
  predicate IsTruncDivision(a: int, b: int, q: int, r: int) {
    b != 0 && a == q * b + r && Abs(r) < Abs(b) && (a > 0 ==> r >= 0) && (a < 0 ==> r <= 0)
  }

  /** Java's `%` is the remainder of truncating division. */
  lemma RemainderTruncates(a: int, b: int)
    requires b != 0
    ensures IsTruncDivision(a, b, TruncQuot(a, b), JavaRem(a, b))
  {
    var m := Abs(b);
    var q := Abs(a) / m;
    assert Abs(a) == q * m + Abs(a) % m;
    if a >= 0 {
      if b > 0 {
        assert a == q * b + JavaRem(a, b);
      } else {
        assert a == (-q) * b + JavaRem(a, b);
      }
    } else {
      if b > 0 {
        assert a == (-q) * b + JavaRem(a, b);
      } else {
        assert a == q * b + JavaRem(a, b);
      }
    }
  }

  /** And it is the only one: truncating division has one quotient and one remainder. */
  lemma TruncDivisionUnique(a: int, b: int, q: int, r: int)
    requires IsTruncDivision(a, b, q, r)
    ensures q == TruncQuot(a, b) && r == JavaRem(a, b)
  {
    RemainderTruncates(a, b);
    var q0, r0 := TruncQuot(a, b), JavaRem(a, b);
    assert (q - q0) * b == r0 - r;
    SmallMultiple(q - q0, b, r0 - r);
  }

  /** A multiple of `b` smaller than `b` is zero. */
  lemma SmallMultiple(k: int, b: int, d: int)
    requires b != 0 && k * b == d && Abs(d) < Abs(b)
    ensures k == 0 && d == 0
  {
    if k != 0 {
      AbsProduct(k, b);
      AtLeastOnce(Abs(k), Abs(b));
    }
  }

  lemma AbsProduct(k: int, b: int)
    ensures Abs(k * b) == Abs(k) * Abs(b)
  {
    if k < 0 && b < 0 {
      assert k * b == (-k) * (-b);
    } else if k < 0 {
      assert k * b == -((-k) * b);
    } else if b < 0 {
      assert k * b == -(k * (-b));
    }
  }

  lemma AtLeastOnce(x: nat, y: nat)
    requires x >= 1
    ensures x * y >= y
  {
    assert x * y == (x - 1) * y + y;
  }

  /** Unlike Dafny's Euclidean `%`, the remainder keeps the dividend's sign. */
  lemma RemainderNotEuclidean()
    ensures JavaRem(-7, 2) == -1 && (-7) % 2 == 1
    ensures JavaRem(7, -2) == 1 && JavaRem(-7, -2) == -1
  {
  }

  /** `mod` on two longs is Java's `%` on them. */
  lemma ModOfLongs(a: int, b: int)
    requires InLongRange(a) && InLongRange(b) && b != 0
    ensures ApplyBinary(MOD, LongV(a), LongV(b)) == Ok(LongV(JavaRem(a, b)))
  {
    WholeTruncates(a);
    WholeTruncates(b);
  }

  lemma WholeTruncates(a: int)
    ensures Truncate(a as real) == a
  {
  }

  /**
   * `mod` truncates double operands to longs first: `7.5 mod 2.0` is
   * `1`, and `5 mod 0.5` divides by the zero that `0.5` truncates to.
   */
  lemma ModTruncatesDoubles()
    ensures ApplyBinary(MOD, DoubleV(7.5), DoubleV(2.0)) == Ok(LongV(1))
    ensures ApplyBinary(MOD, LongV(5), DoubleV(0.5)) == Err(DivisionByZero)
  {
    assert Truncate(7.5) == 7;
    assert Truncate(2.0) == 2;
    assert Truncate(0.5) == 0;
    WholeTruncates(5);
  }

  // ----- what fails -----

  /** Comparisons have no case in `eval`: a relational node fails before its operands are evaluated. */
  lemma RelOpFails(op: TokenKind, l: Ast, r: Ast, env: Env)
    ensures Eval(RelOp(op, l, r), env) == Err(UnknownNode("RelOpNode"))
  {
  }

  /** An operator that is neither arithmetic nor a connective fails whatever its operands. */
  lemma UnsupportedOperator(op: TokenKind, l: Value, r: Value)
    requires !IsArithmetic(op) && !IsBoolOp(op)
    ensures ApplyBinary(op, l, r) == Err(UnsupportedBinOp(op))
  {
  }

  /** A leaf whose token no factor consists of fails, naming the token. */
  lemma UnsupportedLeaf(t: Token, env: Env)
    requires !IsLiteral(t.kind)
    ensures Eval(Leaf(t), env) == Err(UnsupportedLiteral(t))
  {
  }

  // ----- the statement loop -----

  /** Continuing a run with more statements, unless it has already stopped. */
  function Then(x: Execution, more: seq<Ast>): Execution {
    if x.failure.Some? then x
    else
      var y := RunStatements(more, x.env);
      Execution(x.out + y.out, y.env, y.failure)
  }

  /** The values a statement adds to the output. */
  function Shown(s: Ast, v: Value): seq<Value> {
    if Prints(s) then [v] else []
  }

  /** A first statement that evaluates adds its value, if printed, to the run of the rest. */
  lemma RunsOn(ss: seq<Ast>, env: Env, p: (Value, Env))
    requires |ss| > 0 && Eval(ss[0], env) == Ok(p)
    ensures RunStatements(ss, env) ==
              RunStatements(ss[1..], p.1).(out := Shown(ss[0], p.0) + RunStatements(ss[1..], p.1).out)
  {
  }

  /** A first statement that fails ends the run with nothing printed. */
  lemma StopsAt(ss: seq<Ast>, env: Env)
    requires |ss| > 0 && Eval(ss[0], env).Err?
    ensures RunStatements(ss, env) == Execution([], env, Some(Eval(ss[0], env).error))
  {
  }

  /** Running two lists of statements one after the other is running the first, then the second. */
  lemma {:induction false} RunAppend(ss: seq<Ast>, more: seq<Ast>, env: Env)
    ensures RunStatements(ss + more, env) == Then(RunStatements(ss, env), more)
    decreases |ss|
  {
    if |ss| == 0 {
      assert ss + more == more;
    } else {
      match Eval(ss[0], env)
      case Err(_) =>
        assert (ss + more)[0] == ss[0];
        StopsAt(ss, env);
        StopsAt(ss + more, env);
      case Ok(p) =>
        RunAppend(ss[1..], more, p.1);
        AppendStep(ss, more, env, p);
    }
  }

  /** The step of `RunAppend` past a first statement that evaluates. */
  lemma AppendStep(ss: seq<Ast>, more: seq<Ast>, env: Env, p: (Value, Env))
    requires |ss| > 0 && Eval(ss[0], env) == Ok(p)
    requires RunStatements(ss[1..] + more, p.1) == Then(RunStatements(ss[1..], p.1), more)
    ensures RunStatements(ss + more, env) == Then(RunStatements(ss, env), more)
  {
    var all := ss + more;
    assert all[0] == ss[0] && all[1..] == ss[1..] + more;
    RunsOn(ss, env, p);
    RunsOn(all, env, p);
    ThenShift(Shown(ss[0], p.0), RunStatements(ss[1..], p.1), more, RunStatements(ss[1..] + more, p.1));
  }

  /** Output printed before a run stays in front when the run continues. */
  lemma ThenShift(h: seq<Value>, x: Execution, more: seq<Ast>, z: Execution)
    requires z == Then(x, more)
    ensures Then(x.(out := h + x.out), more) == z.(out := h + z.out)
  {
    if x.failure.None? {
      var y := RunStatements(more, x.env);
      assert h + (x.out + y.out) == (h + x.out) + y.out;
    }
  }

  /** Once a statement has failed, nothing after it runs or prints. */
  lemma ErrorIgnoresRest(ss: seq<Ast>, more: seq<Ast>, env: Env)
    requires RunStatements(ss, env).failure.Some?
    ensures RunStatements(ss + more, env) == RunStatements(ss, env)
  {
    RunAppend(ss, more, env);
  }

  /**
   * A failed run stopped at one statement: those before it ran without
   * failing, their printed values are the run's whole output, and the
   * statement's exception is the run's.
   */
  lemma {:induction false} FailurePoint(ss: seq<Ast>, env: Env) returns (k: nat)
    requires RunStatements(ss, env).failure.Some?
    ensures k < |ss|
    ensures RunStatements(ss[..k], env).failure.None?
    ensures Eval(ss[k], RunStatements(ss[..k], env).env).Err?
    ensures RunStatements(ss, env) ==
              Execution(RunStatements(ss[..k], env).out, RunStatements(ss[..k], env).env,
                        Some(Eval(ss[k], RunStatements(ss[..k], env).env).error))
    decreases |ss|
  {
    match Eval(ss[0], env)
    case Err(_) =>
      k := 0;
      assert ss[..0] == [];
      StopsAt(ss, env);
    case Ok(p) =>
      var j := FailurePoint(ss[1..], p.1);
      k := j + 1;
      PrefixStep(ss, env, p, j);
      assert ss[1..][j] == ss[k];
      StopsAfter(ss, env, k);
  }

  /** The run of a prefix continues the run of its first statement. */
  lemma PrefixStep(ss: seq<Ast>, env: Env, p: (Value, Env), j: nat)
    requires |ss| > 0 && Eval(ss[0], env) == Ok(p) && j < |ss| - 1
    ensures RunStatements(ss[..j + 1], env).failure == RunStatements(ss[1..][..j], p.1).failure
    ensures RunStatements(ss[..j + 1], env).env == RunStatements(ss[1..][..j], p.1).env
  {
    var pre := ss[..j + 1];
    assert pre[0] == ss[0] && pre[1..] == ss[1..][..j];
    RunsOn(pre, env, p);
  }

  /** A statement that fails after a prefix that ran ends the run there. */
  lemma StopsAfter(ss: seq<Ast>, env: Env, k: nat)
    requires k < |ss| && RunStatements(ss[..k], env).failure.None?
    requires Eval(ss[k], RunStatements(ss[..k], env).env).Err?
    ensures RunStatements(ss, env) ==
              Execution(RunStatements(ss[..k], env).out, RunStatements(ss[..k], env).env,
                        Some(Eval(ss[k], RunStatements(ss[..k], env).env).error))
  {
    var x := RunStatements(ss[..k], env);
    assert ss[..k] + ss[k..] == ss;
    RunAppend(ss[..k], ss[k..], env);
    assert ss[k..][0] == ss[k];
    StopsAt(ss[k..], x.env);
    assert x.out + [] == x.out;
  }

  /**
   * A program whose run fails prints what its statements before the first
   * failing one print, run from no bindings, and fails with that statement's error.
   */
  lemma ProgramFailurePoint(root: Ast) returns (k: nat)
    requires root.Prog? && Run(root).failure.Some?
    ensures k < |root.stmts|
    ensures RunStatements(root.stmts[..k], map[]).failure.None?
    ensures Eval(root.stmts[k], RunStatements(root.stmts[..k], map[]).env).Err?
    ensures Run(root) ==
              Execution(RunStatements(root.stmts[..k], map[]).out, RunStatements(root.stmts[..k], map[]).env,
                        Some(Eval(root.stmts[k], RunStatements(root.stmts[..k], map[]).env).error))
  {
    k := FailurePoint(root.stmts, map[]);
  }

  /** The positions of the statements whose value is printed. */
  function PrintingPositions(ss: seq<Ast>): set<int> {
    set i | 0 <= i < |ss| && Prints(ss[i])
  }

  /** `CountPrinting` counts exactly the positions of the statements that are not `val`. */
  lemma {:induction false} CountsPrintingStatements(ss: seq<Ast>)
    ensures CountPrinting(ss) == |PrintingPositions(ss)|
    decreases |ss|
  {
    if |ss| > 0 {
      var n := |ss| - 1;
      var init := ss[..n];
      CountsPrintingStatements(init);
      CountPrintingLast(ss);
      PositionsOfLast(ss);
      AddMaybe(PrintingPositions(init), n, Prints(ss[n]));
    }
  }

  /** The printing positions of a sequence are those of all but its last statement, and maybe the last. */
  lemma PositionsOfLast(ss: seq<Ast>)
    requires |ss| > 0
    ensures PrintingPositions(ss) ==
              PrintingPositions(ss[..|ss| - 1]) + (if Prints(ss[|ss| - 1]) then {|ss| - 1} else {})
    ensures |ss| - 1 !in PrintingPositions(ss[..|ss| - 1])
  {
    var n := |ss| - 1;
    forall i | 0 <= i < n
      ensures ss[..n][i] == ss[i]
    {
    }
  }

  /** Adding an element a set lacks, or nothing, grows it by one or by nothing. */
  lemma AddMaybe(s: set<int>, n: int, add: bool)
    requires n !in s
    ensures |s + (if add then {n} else {})| == |s| + (if add then 1 else 0)
  {
    if !add {
      assert s + {} == s;
    }
  }

  /** The last statement adds one to the count when it prints. */
  lemma {:induction false} CountPrintingLast(ss: seq<Ast>)
    requires |ss| > 0
    ensures CountPrinting(ss) == CountPrinting(ss[..|ss| - 1]) + (if Prints(ss[|ss| - 1]) then 1 else 0)
    decreases |ss|
  {
    if |ss| > 1 {
      CountPrintingLast(ss[1..]);
      assert ss[1..][..|ss| - 2] == ss[..|ss| - 1][1..];
    }
  }

  /** Statements that are all expressions leave the bindings as they were. */
  lemma {:induction false} ExpressionsKeepBindings(ss: seq<Ast>, env: Env)
    requires forall i :: 0 <= i < |ss| ==> IsExpr(ss[i])
    ensures RunStatements(ss, env).failure.None? ==> RunStatements(ss, env).env == env
    decreases |ss|
  {
    if |ss| > 0 {
      match Eval(ss[0], env)
      case Err(_) =>
      case Ok(p) =>
        ExpressionsKeepBindings(ss[1..], p.1);
    }
  }

  /**
   * `val x := 3; x + 4; x < 5` binds `x`, prints `7` (a double) and then
   * fails at the comparison.
   */
  lemma SampleProgram()
    ensures Run(Prog([Val("x", Leaf(Token(INT, "3"))),
                      BinOp(ADD, Leaf(Token(ID, "x")), Leaf(Token(INT, "4"))),
                      RelOp(LT, Leaf(Token(ID, "x")), Leaf(Token(INT, "5")))]))
            == Execution([DoubleV(7.0)], map["x" := LongV(3)], Some(UnknownNode("RelOpNode")))
  {
    var x := Token(ID, "x");
    var s1 := Val("x", Leaf(Token(INT, "3")));
    var s2 := BinOp(ADD, Leaf(x), Leaf(Token(INT, "4")));
    var s3 := RelOp(LT, Leaf(x), Leaf(Token(INT, "5")));
    var env := map["x" := LongV(3)];
    var ss := [s1, s2, s3];
    SampleBinding();
    SampleSum();
    assert ss[0] == s1 && ss[1..] == [s2, s3];
    RunsOn(ss, map[], (LongV(3), env));
    assert [s2, s3][0] == s2 && [s2, s3][1..] == [s3];
    RunsOn([s2, s3], env, (DoubleV(7.0), env));
    StopsAt([s3], env);
  }

  lemma SampleBinding()
    ensures Eval(Val("x", Leaf(Token(INT, "3"))), map[]) == Ok((LongV(3), map["x" := LongV(3)]))
  {
    DigitsAsLong("3");
  }

  lemma SampleSum()
    ensures Eval(BinOp(ADD, Leaf(Token(ID, "x")), Leaf(Token(INT, "4"))), map["x" := LongV(3)])
            == Ok((DoubleV(7.0), map["x" := LongV(3)]))
  {
    DigitsAsLong("4");
  }
}

=== FILE: lexer.dfy ===
/**
 * The maximal-munch lexer: turns the characters of a cursor into tokens, one
 * per call of NextToken, and the whole input into a token sequence ending in EOF.
 */
module Lexer {
  import opened Results
  import opened CharacterStream
  import opened Tokens

  /** The keyword table built by `loadKeywords`. */
  const Keywords: map<string, TokenKind> :=
    map["val" := VAL, "not" := NOT, "and" := AND, "or" := OR,
        "mod" := MOD, "true" := TRUE, "false" := FALSE]

  /** Characters that continue a run: digits, and letters too when `word` holds. */
  predicate InRun(ch: char, word: bool) {
    IsDigit(ch) || (word && IsLetter(ch))
  }

  /** The token for a scanned run of letters and digits: a keyword or an identifier. */
  function WordToken(w: string): (t: Token)
    ensures t.text == w
    ensures t.kind == ID <==> w !in Keywords
    ensures w in Keywords ==> t.kind == Keywords[w] && IsKeywordKind(t.kind)
  {
    if w in Keywords then Token(Keywords[w], w) else Token(ID, w)
  }

  /**
   * The scanning loops of `nextToken` and `lookup`: appends the current
   * character and advances while it continues the run.
   */
  function ScanWhile(c: Cursor, acc: string, word: bool): (r: (string, Cursor))
    requires !c.skip && c.idx <= |c.src|
    ensures r.1.src == c.src && !r.1.skip && c.idx <= r.1.idx <= |c.src|
    ensures Valid(c) ==> Valid(r.1)
    decreases |c.src| - c.idx
  {
    if CurrentClass(c) == Digit || (word && CurrentClass(c) == Letter) then
      AdvancePreservesValid(c);
      ScanWhile(Advance(c), acc + [CurrentChar(c)], word)
    else
      (acc, c)
  }

  /** The symbol dispatch of `lookup`, entered on a character of class OTHER. */
  function Lookup(d: Cursor): (r: (Token, Cursor))
    requires !d.skip && d.idx < |d.src|
    ensures r.1.src == d.src && d.idx < r.1.idx <= |d.src|
    ensures r.0.kind != EOF
    ensures Valid(d) ==> Valid(r.1)
  {
    AdvancePreservesValid(d);
    var e := Advance(d);
    AdvancePreservesValid(e);
    match CurrentChar(d)
    case '.' =>
      var s := ScanWhile(e, ".", false);
      (Token(REAL, s.0), SkipNextAdvance(s.1))
    case '+' => (Token(ADD, "+"), e)
    case '-' => (Token(SUB, "-"), e)
    case '*' => (Token(MULT, "*"), e)
    case '/' => (Token(DIV, "/"), e)
    case '(' => (Token(LPAREN, "("), e)
    case ')' => (Token(RPAREN, ")"), e)
    case ':' =>
      if CurrentChar(e) == '=' then (Token(ASSIGN, ":="), Advance(e))
      else (Token(UNKNOWN, ""), SkipNextAdvance(e))
    case ';' => (Token(SEMI, ";"), e)
    case '=' => (Token(EQ, "="), e)
    case '!' =>
      if CurrentChar(e) == '=' then (Token(NEQ, "!="), Advance(e))
      else (Token(UNKNOWN, ""), SkipNextAdvance(e))
    case '>' =>
      if CurrentChar(e) == '=' then (Token(GTE, ">="), Advance(e))
      else (Token(GT, ">"), SkipNextAdvance(e))
    case '<' =>
      if CurrentChar(e) == '=' then (Token(LTE, "<="), Advance(e))
      else (Token(LT, "<"), SkipNextAdvance(e))
    case ch => (Token(UNKNOWN, [ch]), e)
  }

  /** The LETTER case of `nextToken`: an identifier or a keyword. */
  function WordAt(d: Cursor): (r: (Token, Cursor))
    requires !d.skip && d.idx < |d.src|
    ensures r.1.src == d.src && d.idx < r.1.idx <= |d.src| && r.0.kind != EOF
    ensures Valid(d) ==> Valid(r.1)
  {
    AdvancePreservesValid(d);
    var s := ScanWhile(Advance(d), [CurrentChar(d)], true);
    (WordToken(s.0), SkipNextAdvance(s.1))
  }

  /** The DIGIT case of `nextToken`: an INT, or a REAL when a `.` follows the digits. */
  function NumberAt(d: Cursor): (r: (Token, Cursor))
    requires !d.skip && d.idx < |d.src|
    ensures r.1.src == d.src && d.idx < r.1.idx <= |d.src|
    ensures r.0.kind == INT || r.0.kind == REAL
    ensures Valid(d) ==> Valid(r.1)
  {
    AdvancePreservesValid(d);
    var s := ScanWhile(Advance(d), [CurrentChar(d)], false);
    if CurrentChar(s.1) == '.' then FractionAt(s.0, s.1)
    else (Token(INT, s.0), SkipNextAdvance(s.1))
  }

  /** The fraction part of the DIGIT case: the `.` under the cursor and the digits after it. */
  function FractionAt(digits: string, c: Cursor): (r: (Token, Cursor))
    requires !c.skip && c.idx < |c.src|
    ensures r.1.src == c.src && c.idx < r.1.idx <= |c.src| && r.0.kind == REAL
    ensures Valid(c) ==> Valid(r.1)
  {
    AdvancePreservesValid(c);
    var f := ScanWhile(Advance(c), digits + ['.'], false);
    (Token(REAL, f.0), SkipNextAdvance(f.1))
  }

  /**
   * The class switch of `nextToken`, entered once blanks have been skipped;
   * its default branch (a blank, which cannot be current there) gives an
   * UNKNOWN token with empty text and does not move.
   */
  function TokenAt(d: Cursor): (r: (Token, Cursor))
    requires !d.skip
    ensures r.1.src == d.src
    ensures r.0.kind == EOF <==> d.idx >= |d.src|
    ensures r.0.kind == EOF ==> r == (EofToken, d)
    ensures CurrentClass(d) == WhiteSpace ==> r == (Token(UNKNOWN, ""), d)
    ensures r.0.kind != EOF && CurrentClass(d) != WhiteSpace ==> d.idx < r.1.idx <= |d.src|
    ensures Valid(d) ==> Valid(r.1)
  {
    match CurrentClass(d)
    case Letter => WordAt(d)
    case Digit => NumberAt(d)
    case Other => Lookup(d)
    case End => (EofToken, d)
    case WhiteSpace => (Token(UNKNOWN, ""), d)
  }

  /** One call of `nextToken`: skip blanks, then scan one token. */
  function NextToken(c: Cursor): (r: (Token, Cursor))
    ensures r.1.src == c.src
    ensures r.0.kind != EOF ==> c.idx < r.1.idx <= |c.src|
    ensures Valid(c) ==> Valid(r.1)
  {
    TokenAt(AdvanceToNonBlank(c))
  }

  /** Repeated calls of `nextToken` up to and including the first EOF. */
  function TokenizeFrom(c: Cursor): (ts: seq<Token>)
    ensures |ts| > 0 && ts[|ts| - 1] == EofToken
    decreases |c.src| - c.idx
  {
    var r := NextToken(c);
    if r.0.kind == EOF then [EofToken]
    else [r.0] + TokenizeFrom(r.1)
  }

  /** The token stream of an in-memory input; None stands for a null string. */
  function Tokenize(input: Option<string>): (ts: seq<Token>)
    ensures |ts| > 0 && ts[|ts| - 1] == EofToken
  {
    TokenizeFrom(Open(input))
  }
}

=== FILE: lexer_properties.dfy ===
/**
 * What one call of the lexer produces, stated against an independent
 * description of the longest run of letters and digits.
 */
module LexerProperties {
  import opened CharacterStream
  import opened Tokens
  import opened Lexer

  /** The end of the longest run of run characters starting at `i`. */
  function RunEnd(s: string, i: nat, word: bool): (j: nat)
    requires i <= |s|
    ensures i <= j <= |s|
    ensures forall k :: i <= k < j ==> InRun(s[k], word)
    ensures j == |s| || !InRun(s[j], word)
    decreases |s| - i
  {
    if i < |s| && InRun(s[i], word) then RunEnd(s, i + 1, word) else i
  }

  lemma SliceAround(s: string, i: nat, j: nat, m: nat)
    requires i <= j < m <= |s|
    ensures s[i..j] + [s[j]] + s[j + 1..m] == s[i..m]
  {
  }

  lemma ConsSlice(s: string, i: nat, j: nat)
    requires i < j <= |s|
    ensures [s[i]] + s[i + 1..j] == s[i..j]
  {
  }

  /** A run boundary is unique: any stopping point of a run is RunEnd. */
  lemma {:induction false} RunEndUnique(s: string, i: nat, j: nat, word: bool)
    requires i <= j <= |s|
    requires forall k :: i <= k < j ==> InRun(s[k], word)
    requires j == |s| || !InRun(s[j], word)
    ensures RunEnd(s, i, word) == j
    decreases j - i
  {
    if i < j {
      RunEndUnique(s, i + 1, j, word);
    }
  }

  lemma AppendSlice(acc: string, s: string, i: nat, j: nat)
    requires i < j <= |s|
    ensures acc + [s[i]] + s[i + 1..j] == acc + s[i..j]
  {
    assert s[i..j] == [s[i]] + s[i + 1..j];
  }

  /**
   * The scanning loop stops exactly at the end of the run, and what it
   * accumulates is the run itself, appended to what was there before.
   */
  lemma {:induction false} ScanStopsAtRunEnd(c: Cursor, acc: string, word: bool)
    requires !c.skip && c.idx <= |c.src|
    ensures ScanWhile(c, acc, word).1.idx == RunEnd(c.src, c.idx, word)
    ensures ScanWhile(c, acc, word).0 == acc + c.src[c.idx..RunEnd(c.src, c.idx, word)]
    decreases |c.src| - c.idx
  {
    if c.idx < |c.src| && InRun(c.src[c.idx], word) {
      ScanStopsAtRunEnd(Advance(c), acc + [c.src[c.idx]], word);
      AppendSlice(acc, c.src, c.idx, RunEnd(c.src, c.idx, word));
    }
  }

  /** The scan that starts after the first character of a run takes the whole run. */
  lemma ScanAfterFirst(d: Cursor, word: bool)
    requires !d.skip && d.idx < |d.src|
    ensures var s := ScanWhile(Advance(d), [CurrentChar(d)], word);
            && s.1.idx == RunEnd(d.src, d.idx + 1, word)
            && s.0 == d.src[d.idx..s.1.idx]
  {
    var e := Advance(d);
    ScanStopsAtRunEnd(e, [CurrentChar(d)], word);
    ConsSlice(d.src, d.idx, RunEnd(d.src, d.idx + 1, word));
  }

  /** The class switch sends a letter to the LETTER case. */
  lemma WordDispatch(d: Cursor)
    requires !d.skip && d.idx < |d.src| && IsLetter(d.src[d.idx])
    ensures TokenAt(d) == WordAt(d)
  {
  }

  /** The class switch sends a digit to the DIGIT case. */
  lemma NumberDispatch(d: Cursor)
    requires !d.skip && d.idx < |d.src| && IsDigit(d.src[d.idx])
    ensures TokenAt(d) == NumberAt(d)
  {
  }

  /** The class switch sends any other non-blank character to `lookup`. */
  lemma LookupDispatch(d: Cursor)
    requires !d.skip && d.idx < |d.src|
    requires !IsWhitespace(d.src[d.idx]) && !IsLetter(d.src[d.idx]) && !IsDigit(d.src[d.idx])
    ensures TokenAt(d) == Lookup(d)
  {
  }

  /** The LETTER case: the maximal run of letters and digits, looked up in the keyword table. */
  lemma WordScan(d: Cursor, j: nat)
    requires !d.skip && d.idx < |d.src| && j == RunEnd(d.src, d.idx + 1, true)
    ensures var r := WordAt(d);
            && r.0.text == d.src[d.idx..j]
            && (r.0.kind == ID <==> d.src[d.idx..j] !in Keywords)
            && (d.src[d.idx..j] in Keywords ==> r.0.kind == Keywords[d.src[d.idx..j]])
            && r.1.idx == j && r.1.skip
  {
    ScanAfterFirst(d, true);
  }

  /**
   * A token that starts with a letter takes the maximal run of letters and
   * digits; the run is a keyword token when it is in the table, an ID token
   * carrying the run otherwise; the next token starts right after the run.
   */
  lemma LexWord(d: Cursor)
    requires !d.skip && d.idx < |d.src| && IsLetter(d.src[d.idx])
    ensures var j := RunEnd(d.src, d.idx + 1, true);
            var r := TokenAt(d);
            && r.0.text == d.src[d.idx..j]
            && (r.0.kind == ID <==> d.src[d.idx..j] !in Keywords)
            && (d.src[d.idx..j] in Keywords ==> r.0.kind == Keywords[d.src[d.idx..j]])
            && r.1.idx == j && r.1.skip
  {
    WordDispatch(d);
    WordScan(d, RunEnd(d.src, d.idx + 1, true));
  }

  /** The digits, `.` and digits of a REAL token are one slice of the input. */
  lemma FractionText(src: string, i: nat, p: nat, m: nat, a: string, b: string)
    requires i <= p < m <= |src| && src[p] == '.'
    requires a == src[i..p] && b == a + ['.'] + src[p + 1..m]
    ensures b == src[i..m]
  {
    SliceAround(src, i, p, m);
  }

  /** The DIGIT case without a `.` after the digits: an INT token. */
  lemma IntScan(d: Cursor, j: nat)
    requires !d.skip && d.idx < |d.src| && j == RunEnd(d.src, d.idx + 1, false)
    requires !(j < |d.src| && d.src[j] == '.')
    ensures NumberAt(d).0 == Token(INT, d.src[d.idx..j]) && NumberAt(d).1.idx == j && NumberAt(d).1.skip
  {
    ScanAfterFirst(d, false);
  }

  /** The fraction part takes the `.` and the digit run after it, and appends them to the digits. */
  lemma FractionScan(digits: string, c: Cursor, i: nat)
    requires !c.skip && i <= c.idx < |c.src| && c.src[c.idx] == '.'
    requires digits == c.src[i..c.idx]
    ensures var m := RunEnd(c.src, c.idx + 1, false);
            FractionAt(digits, c) == (Token(REAL, c.src[i..m]), FractionAt(digits, c).1)
            && FractionAt(digits, c).1.idx == m && FractionAt(digits, c).1.skip
  {
    var e := Advance(c);
    ScanStopsAtRunEnd(e, digits + ['.'], false);
    var f := ScanWhile(e, digits + ['.'], false);
    FractionText(c.src, i, c.idx, f.1.idx, digits, f.0);
  }

  /** The DIGIT case with a `.` after the digits: a REAL token. */
  lemma RealScan(d: Cursor, j: nat, m: nat)
    requires !d.skip && d.idx < |d.src| && j == RunEnd(d.src, d.idx + 1, false)
    requires j < |d.src| && d.src[j] == '.' && m == RunEnd(d.src, j + 1, false)
    ensures NumberAt(d).0 == Token(REAL, d.src[d.idx..m]) && NumberAt(d).1.idx == m && NumberAt(d).1.skip
  {
    var s := ScanWhile(Advance(d), [CurrentChar(d)], false);
    ScanAfterFirst(d, false);
    assert NumberAt(d) == FractionAt(s.0, s.1);
    FractionScan(s.0, s.1, d.idx);
  }

  /** A digit run not followed by `.` is an INT token with the verbatim digits. */
  lemma LexInt(d: Cursor, j: nat)
    requires !d.skip && d.idx < |d.src| && IsDigit(d.src[d.idx])
    requires j == RunEnd(d.src, d.idx + 1, false) && !(j < |d.src| && d.src[j] == '.')
    ensures TokenAt(d).0 == Token(INT, d.src[d.idx..j]) && TokenAt(d).1.idx == j && TokenAt(d).1.skip
  {
    NumberDispatch(d);
    IntScan(d, j);
  }

  /**
   * When a `.` follows the digit run, the `.` and the digits after it are
   * taken too and the token is REAL with the verbatim text.
   */
  lemma LexReal(d: Cursor, j: nat, m: nat)
    requires !d.skip && d.idx < |d.src| && IsDigit(d.src[d.idx]) && j == RunEnd(d.src, d.idx + 1, false)
    requires j < |d.src| && d.src[j] == '.' && m == RunEnd(d.src, j + 1, false)
    ensures TokenAt(d).0 == Token(REAL, d.src[d.idx..m]) && TokenAt(d).1.idx == m && TokenAt(d).1.skip
  {
    NumberDispatch(d);
    RealScan(d, j, m);
  }

  /** `lookup` on a `.`: the `.` and the digits after it form a REAL token. */
  lemma LookupDot(d: Cursor, m: nat)
    requires !d.skip && d.idx < |d.src| && d.src[d.idx] == '.' && m == RunEnd(d.src, d.idx + 1, false)
    ensures var r := Lookup(d);
            r.0 == Token(REAL, d.src[d.idx..m]) && r.1.idx == m && r.1.skip
  {
    ScanAfterFirst(d, false);
  }

  /** A leading `.` and the digits after it form a REAL token starting with `.`. */
  lemma LexLeadingDot(d: Cursor)
    requires !d.skip && d.idx < |d.src| && d.src[d.idx] == '.'
    ensures var m := RunEnd(d.src, d.idx + 1, false);
            var r := TokenAt(d);
            && r.0 == Token(REAL, d.src[d.idx..m]) && r.0.text[0] == '.'
            && r.1.idx == m && r.1.skip
  {
    LookupDispatch(d);
    LookupDot(d, RunEnd(d.src, d.idx + 1, false));
  }

  /** `lookup` on `:` or `!`: ASSIGN or NEQ when `=` follows, UNKNOWN with empty text otherwise. */
  lemma LookupAssignOrUnknown(d: Cursor)
    requires !d.skip && d.idx < |d.src| && (d.src[d.idx] == ':' || d.src[d.idx] == '!')
    ensures var r := Lookup(d);
            var k := if d.src[d.idx] == ':' then ASSIGN else NEQ;
            if d.idx + 1 < |d.src| && d.src[d.idx + 1] == '=' then
              r.0 == Token(k, [d.src[d.idx], '=']) && r.1.idx == d.idx + 2 && !r.1.skip
            else
              r.0 == Token(UNKNOWN, "") && r.1.idx == d.idx + 1 && r.1.skip
  {
  }

  /**
   * `:` and `!` need a following `=`: `:=` is ASSIGN and `!=` is NEQ, two
   * characters long; otherwise the token is UNKNOWN with empty text and only
   * the first character is consumed.
   */
  lemma LexAssignOrUnknown(d: Cursor)
    requires !d.skip && d.idx < |d.src| && (d.src[d.idx] == ':' || d.src[d.idx] == '!')
    ensures var r := TokenAt(d);
            var k := if d.src[d.idx] == ':' then ASSIGN else NEQ;
            if d.idx + 1 < |d.src| && d.src[d.idx + 1] == '=' then
              r.0 == Token(k, [d.src[d.idx], '=']) && r.1.idx == d.idx + 2 && !r.1.skip
            else
              r.0 == Token(UNKNOWN, "") && r.1.idx == d.idx + 1 && r.1.skip
  {
    LookupDispatch(d);
    LookupAssignOrUnknown(d);
  }

  /** `lookup` on `<` or `>`: LTE or GTE when `=` follows, LT or GT otherwise. */
  lemma LookupComparison(d: Cursor)
    requires !d.skip && d.idx < |d.src| && (d.src[d.idx] == '<' || d.src[d.idx] == '>')
    ensures var r := Lookup(d);
            var lt := d.src[d.idx] == '<';
            if d.idx + 1 < |d.src| && d.src[d.idx + 1] == '=' then
              r.0 == Token(if lt then LTE else GTE, [d.src[d.idx], '=']) && r.1.idx == d.idx + 2
            else
              r.0 == Token(if lt then LT else GT, [d.src[d.idx]]) && r.1.idx == d.idx + 1 && r.1.skip
  {
  }

  /**
   * `<=` and `>=` are two-character tokens; a lone `<` or `>` is LT or GT and
   * does not consume the character after it.
   */
  lemma LexComparison(d: Cursor)
    requires !d.skip && d.idx < |d.src| && (d.src[d.idx] == '<' || d.src[d.idx] == '>')
    ensures var r := TokenAt(d);
            var lt := d.src[d.idx] == '<';
            if d.idx + 1 < |d.src| && d.src[d.idx + 1] == '=' then
              r.0 == Token(if lt then LTE else GTE, [d.src[d.idx], '=']) && r.1.idx == d.idx + 2
            else
              r.0 == Token(if lt then LT else GT, [d.src[d.idx]]) && r.1.idx == d.idx + 1 && r.1.skip
  {
    LookupDispatch(d);
    LookupComparison(d);
  }

  /** The kind of a one-character operator or punctuation symbol. */
  function SingleKind(ch: char): (k: TokenKind)
    requires ch in "+-*/();="
    ensures HasFixedText(k) && Spelling(k) == [ch]
  {
    match ch
    case '+' => ADD
    case '-' => SUB
    case '*' => MULT
    case '/' => DIV
    case '(' => LPAREN
    case ')' => RPAREN
    case ';' => SEMI
    case '=' => EQ
  }

  /** `lookup` on a one-character symbol: its token, consuming exactly itself. */
  lemma LookupSingle(d: Cursor)
    requires !d.skip && d.idx < |d.src| && d.src[d.idx] in "+-*/();="
    ensures Lookup(d) == (Fixed(SingleKind(d.src[d.idx])), Advance(d))
  {
  }

  /** A one-character symbol becomes its token and consumes exactly itself. */
  lemma LexSingle(d: Cursor)
    requires !d.skip && d.idx < |d.src| && d.src[d.idx] in "+-*/();="
    ensures TokenAt(d) == (Fixed(SingleKind(d.src[d.idx])), Advance(d))
  {
    LookupDispatch(d);
    LookupSingle(d);
  }

  /** Characters that start no token. */
  predicate IsUnknownChar(ch: char) {
    !IsWhitespace(ch) && !IsLetter(ch) && !IsDigit(ch) && ch !in ".+-*/():;=!<>"
  }

  /** `lookup` on an unrecognised symbol: an UNKNOWN token carrying it. */
  lemma LookupUnknown(d: Cursor)
    requires !d.skip && d.idx < |d.src| && IsUnknownChar(d.src[d.idx])
    ensures Lookup(d) == (Token(UNKNOWN, [d.src[d.idx]]), Advance(d))
  {
  }

  /** An unrecognised symbol is an UNKNOWN token carrying it, and it is consumed. */
  lemma LexUnknown(d: Cursor)
    requires !d.skip && d.idx < |d.src| && IsUnknownChar(d.src[d.idx])
    ensures TokenAt(d) == (Token(UNKNOWN, [d.src[d.idx]]), Advance(d))
  {
    LookupDispatch(d);
    LookupUnknown(d);
  }

  /** Once the input is used up the lexer returns EOF, and keeps doing so. */
  lemma EofForever(c: Cursor)
    requires NextToken(c).0.kind == EOF
    ensures NextToken(NextToken(c).1) == NextToken(c)
    ensures NextToken(c).1.idx >= |c.src|
  {
  }

  /** The token stream has exactly one EOF token, and it is the last one. */
  lemma {:induction false} EofOnlyAtEnd(c: Cursor)
    ensures forall k :: 0 <= k < |TokenizeFrom(c)| - 1 ==> TokenizeFrom(c)[k].kind != EOF
    decreases |c.src| - c.idx
  {
    var r := NextToken(c);
    if r.0.kind != EOF {
      EofOnlyAtEnd(r.1);
      ConsIndex(r.0, TokenizeFrom(r.1));
    }
  }

  lemma ConsIndex(t: Token, ts: seq<Token>)
    ensures forall k :: 1 <= k < |ts| + 1 ==> ([t] + ts)[k] == ts[k - 1]
  {
  }
}

=== FILE: numerals.dfy ===
/**
 * The number texts the evaluator converts: `Long.parseLong` for the text
 * of an INT literal and `Double.parseDouble` for the text of a REAL
 * literal, both on plain decimal notation.
 */
module Numerals {
  import opened Results
  import opened CharacterStream

  /** The range of a Java `long`. */
  const MinLong: int := -0x8000_0000_0000_0000
  const MaxLong: int := 0x7FFF_FFFF_FFFF_FFFF

  predicate InLongRange(i: int) {
    MinLong <= i <= MaxLong
  }

  predicate AllDigits(s: string) {
    forall k :: 0 <= k < |s| ==> IsDigit(s[k])
  }

  function DigitValue(ch: char): (d: nat)
    requires IsDigit(ch)
    ensures d < 10
  {
    ch as int - '0' as int
  }

  function DigitChar(d: nat): (ch: char)
    requires d < 10
    ensures IsDigit(ch) && DigitValue(ch) == d
  {
    ('0' as int + d) as char
  }

  /** The value of a run of decimal digits, most significant first. */
  function DigitsValue(s: string): nat
    requires AllDigits(s)
    decreases |s|
  {
    if |s| == 0 then 0 else DigitsValue(s[..|s| - 1]) * 10 + DigitValue(s[|s| - 1])
  }

  function Pow10(k: nat): (p: nat)
    ensures p >= 1
  {
    if k == 0 then 1 else 10 * Pow10(k - 1)
  }

  /** The decimal text of a natural number, without leading zeros. */
  function NatText(n: nat): (s: string)
    ensures |s| > 0 && AllDigits(s)
    ensures |s| > 1 ==> s[0] != '0'
    decreases n
  {
    if n < 10 then [DigitChar(n)] else NatText(n / 10) + [DigitChar(n % 10)]
  }

  /** A leading `-` or `+`, as a negation flag, and the text after it. */
  function SplitSign(s: string): (r: (bool, string))
    ensures r.1 == s || (|s| > 0 && r.1 == s[1..] && (s[0] == '-' || s[0] == '+'))
    ensures r.0 <==> |s| > 0 && s[0] == '-'
  {
    if |s| > 0 && (s[0] == '-' || s[0] == '+') then (s[0] == '-', s[1..]) else (false, s)
  }

  /**
   * `Long.parseLong`: an optional sign, then at least one decimal digit,
   * denoting a value within the range of a long; anything else is a
   * `NumberFormatException`, here `None`.
   */
  function ParseLong(s: string): (r: Option<int>)
    ensures r.Some? ==> InLongRange(r.value)
  {
    var (neg, body) := SplitSign(s);
    if |body| == 0 || !AllDigits(body) then None
    else
      var n: int := DigitsValue(body);
      var v := if neg then -n else n;
      if InLongRange(v) then Some(v) else None
  }

  /** The position of the first `.`, or the length when there is none. */
  function DotIndex(s: string): (p: nat)
    ensures p <= |s| && (p < |s| ==> s[p] == '.')
    ensures forall k :: 0 <= k < p ==> s[k] != '.'
    decreases |s|
  {
    if |s| == 0 || s[0] == '.' then 0 else 1 + DotIndex(s[1..])
  }

  /**
   * `Double.parseDouble` on decimal text: an optional sign, digits, and
   * optionally a `.` followed by digits, with at least one digit in all.
   * The value is the exact decimal number; rounding to the nearest double
   * is not modelled.
   */
  function ParseDouble(s: string): (r: Option<real>)
  {
    var (neg, body) := SplitSign(s);
    var p := DotIndex(body);
    var whole := body[..p];
    var frac := if p < |body| then body[p + 1..] else "";
    if |whole| + |frac| == 0 || !AllDigits(whole) || !AllDigits(frac) then None
    else
      var v := DigitsValue(whole) as real + DigitsValue(frac) as real / Pow10(|frac|) as real;
      Some(if neg then -v else v)
  }

  // ----- properties -----

  /** Appending digits shifts the value of the front part left by their count. */
  lemma {:induction false} DigitsAppend(a: string, b: string)
    requires AllDigits(a) && AllDigits(b)
    ensures AllDigits(a + b)
    ensures DigitsValue(a + b) == DigitsValue(a) * Pow10(|b|) + DigitsValue(b)
    decreases |b|
  {
    assert AllDigits(a + b) by {
      forall k | 0 <= k < |a + b| ensures IsDigit((a + b)[k]) {
        if k < |a| { assert (a + b)[k] == a[k]; } else { assert (a + b)[k] == b[k - |a|]; }
      }
    }
    if |b| > 0 {
      var b' := b[..|b| - 1];
      var d := DigitValue(b[|b| - 1]);
      assert (a + b)[..|a + b| - 1] == a + b';
      assert (a + b)[|a + b| - 1] == b[|b| - 1];
      assert b == b' + [b[|b| - 1]];
      DigitsAppend(a, b');
      assert DigitsValue(b) == DigitsValue(b') * 10 + d;
      assert DigitsValue(a + b) == DigitsValue(a + b') * 10 + d;
      ShiftStep(DigitsValue(a), Pow10(|b'|), DigitsValue(b'), d);
    } else {
      assert a + b == a;
    }
  }

  /** `(x·p + y)·10 + d = x·(10·p) + (y·10 + d)`. */
  lemma ShiftStep(x: nat, p: nat, y: nat, d: nat)
    ensures (x * p + y) * 10 + d == x * (10 * p) + (y * 10 + d)
  {
  }

  /** Reading back the decimal text of a number gives the number. */
  lemma {:induction false} NatTextValue(n: nat)
    ensures DigitsValue(NatText(n)) == n
    decreases n
  {
    if n >= 10 {
      var s := NatText(n / 10) + [DigitChar(n % 10)];
      assert s[..|s| - 1] == NatText(n / 10);
      NatTextValue(n / 10);
    }
  }

  /** The text `Long.toString` gives a long. */
  function LongText(n: int): string {
    if n < 0 then "-" + NatText(-n) else NatText(n)
  }

  /** `parseLong` reads back every long from its decimal text. */
  lemma LongTextRoundTrip(n: int)
    requires InLongRange(n)
    ensures ParseLong(LongText(n)) == Some(n)
  {
    NatTextValue(if n < 0 then -n else n);
    if n < 0 {
      assert SplitSign(LongText(n)) == (true, NatText(-n));
    } else {
      assert NatText(n)[0] != '-' && NatText(n)[0] != '+';
    }
  }

  /**
   * The text of an INT token, digits only, parses to its digits' value
   * exactly when that value fits a long.
   */
  lemma DigitsAsLong(s: string)
    requires |s| > 0 && AllDigits(s)
    ensures ParseLong(s) == if DigitsValue(s) <= MaxLong then Some(DigitsValue(s)) else None
  {
    assert s[0] != '-' && s[0] != '+';
  }

  /**
   * The `.` of a decimal text divides the value of all its digits by ten
   * to the number of digits after it.
   */
  lemma PointShift(a: string, b: string)
    requires AllDigits(a) && AllDigits(b) && |a| + |b| > 0
    ensures AllDigits(a + b)
    ensures ParseDouble(a + "." + b) == Some(DigitsValue(a + b) as real / Pow10(|b|) as real)
  {
    var s := a + "." + b;
    PointLayout(a, b);
    DigitsAppend(a, b);
    PointValue(DigitsValue(a), DigitsValue(b), Pow10(|b|));
  }

  /** Where the sign, the `.` and the two digit runs of `a.b` lie. */
  lemma PointLayout(a: string, b: string)
    requires AllDigits(a) && AllDigits(b)
    ensures SplitSign(a + "." + b) == (false, a + "." + b)
    ensures DotIndex(a + "." + b) == |a|
    ensures (a + "." + b)[..|a|] == a && (a + "." + b)[|a| + 1..] == b
  {
    var s := a + "." + b;
    if |a| > 0 {
      assert s[0] == a[0];
    } else {
      assert s[0] == '.';
    }
    DotAfterDigits(a, "." + b);
    assert s == a + ("." + b);
  }

  /** `(x·p + y) / p = x + y / p` for a positive `p`. */
  lemma PointValue(x: nat, y: nat, p: nat)
    requires p >= 1
    ensures (x * p + y) as real / p as real == x as real + y as real / p as real
  {
    assert (x * p + y) as real == x as real * p as real + y as real;
  }

  lemma {:induction false} DotAfterDigits(a: string, rest: string)
    requires AllDigits(a) && |rest| > 0 && rest[0] == '.'
    ensures DotIndex(a + rest) == |a|
    decreases |a|
  {
    if |a| > 0 {
      assert (a + rest)[1..] == a[1..] + rest;
      DotAfterDigits(a[1..], rest);
    } else {
      assert a + rest == rest;
    }
  }

  /** Text without a `.` is read as a whole number. */
  lemma WholeDouble(n: nat)
    ensures ParseDouble(NatText(n)) == Some(n as real)
  {
    var s := NatText(n);
    NatTextValue(n);
    assert s[0] != '-' && s[0] != '+';
    assert DotIndex(s) == |s| by {
      assert forall k :: 0 <= k < |s| ==> s[k] != '.';
    }
    assert s[..|s|] == s;
  }
}

=== FILE: parser.dfy ===
/**
 * The recursive-descent parser with one token of lookahead.  Each function
 * takes the tokens not yet consumed (the first one is the lookahead) and
 * returns the node it built together with the tokens still unconsumed.
 */
module Parser {
  import opened Results
  import opened Tokens
  import opened Syntax

  datatype SyntaxError =
    | Expected(kind: TokenKind, found: Token)  // `match` met the wrong token
    | BadFactor(found: Token)                  // no factor starts with this token
    | TrailingInput(found: Token)              // tokens left after the program

  type Parsed<T> = Result<(T, seq<Token>), SyntaxError>

  /** The lookahead token; past the end the lexer keeps returning EOF. */
  function Peek(ts: seq<Token>): Token {
    if |ts| == 0 then EofToken else ts[0]
  }

  /** `nextToken`: drops the lookahead. */
  function Next(ts: seq<Token>): (rest: seq<Token>)
    ensures |ts| > 0 ==> rest == ts[1..]
    ensures |ts| == 0 ==> rest == ts
  {
    if |ts| == 0 then ts else ts[1..]
  }

  /** `rest` is what is left of `ts` after consuming some of its tokens. */
  predicate Suffix(rest: seq<Token>, ts: seq<Token>) {
    |rest| <= |ts| && rest == ts[|ts| - |rest|..]
  }

  /** `match`: consume a token of kind `k`, or fail naming the token found. */
  function Match(ts: seq<Token>, k: TokenKind): (r: Result<seq<Token>, SyntaxError>)
    ensures r.Ok? <==> Peek(ts).kind == k
    ensures r.Ok? ==> r.value == Next(ts)
    ensures r.Err? ==> r.error == Expected(k, Peek(ts))
  {
    if Peek(ts).kind == k then Ok(Next(ts)) else Err(Expected(k, Peek(ts)))
  }

  lemma SuffixNext(ts: seq<Token>)
    ensures Suffix(Next(ts), ts)
  {
  }

  lemma SuffixTrans(a: seq<Token>, b: seq<Token>, c: seq<Token>)
    requires Suffix(a, b) && Suffix(b, c)
    ensures Suffix(a, c)
  {
    assert c[|c| - |b|..][|b| - |a|..] == c[|c| - |a|..];
  }

  /** The tokens an expression can start with: a literal, `(` or `not`. */
  predicate StartsExpr(k: TokenKind) {
    IsLiteral(k) || k == LPAREN || k == NOT
  }

  /** `<expr> → <rexpr> { (and | or) <rexpr> }` */
  function ParseExpr(ts: seq<Token>): (r: Parsed<Ast>)
    ensures r.Ok? ==> |r.value.1| < |ts| && Suffix(r.value.1, ts) && IsExpr(r.value.0)
    ensures r.Ok? ==> StartsExpr(Peek(ts).kind)
    decreases |ts|, 4
  {
    var p :- ParseRexpr(ts);
    var q := ExprTail(p.0, p.1);
    if q.Ok? then SuffixTrans(q.value.1, p.1, ts); q else q
  }

  /** The `and`/`or` loop of parseExpr, folding to the left. */
  function ExprTail(left: Ast, ts: seq<Token>): (r: Parsed<Ast>)
    ensures r.Ok? ==> Suffix(r.value.1, ts)
    ensures r.Ok? && IsExpr(left) ==> IsExpr(r.value.0)
    decreases |ts|, 0
  {
    if IsBoolOp(Peek(ts).kind) then
      var op := Peek(ts).kind;
      var p :- ParseRexpr(Next(ts));
      var q := ExprTail(BinOp(op, left, p.0), p.1);
      if q.Ok? then SuffixNext(ts); SuffixTrans(p.1, Next(ts), ts); SuffixTrans(q.value.1, p.1, ts); q else q
    else
      Ok((left, ts))
  }

  /** `<rexpr> → <mexpr> [ relop <mexpr> ]`: at most one relational operator. */
  function ParseRexpr(ts: seq<Token>): (r: Parsed<Ast>)
    ensures r.Ok? ==> |r.value.1| < |ts| && Suffix(r.value.1, ts) && IsExpr(r.value.0)
    ensures r.Ok? ==> StartsExpr(Peek(ts).kind)
    decreases |ts|, 3
  {
    var p :- ParseMexpr(ts);
    if IsRelOp(Peek(p.1).kind) then
      var op := Peek(p.1).kind;
      var q :- ParseMexpr(Next(p.1));
      SuffixNext(p.1); SuffixTrans(q.1, Next(p.1), p.1); SuffixTrans(q.1, p.1, ts);
      Ok((RelOp(op, p.0, q.0), q.1))
    else
      Ok(p)
  }

  /** `<mexpr> → <term> { (+ | -) <term> }` */
  function ParseMexpr(ts: seq<Token>): (r: Parsed<Ast>)
    ensures r.Ok? ==> |r.value.1| < |ts| && Suffix(r.value.1, ts) && IsExpr(r.value.0)
    ensures r.Ok? ==> StartsExpr(Peek(ts).kind)
    decreases |ts|, 2
  {
    var p :- ParseTerm(ts);
    var q := MexprTail(p.0, p.1);
    if q.Ok? then SuffixTrans(q.value.1, p.1, ts); q else q
  }

  /** The `+`/`-` loop of parseMexpr, folding to the left. */
  function MexprTail(left: Ast, ts: seq<Token>): (r: Parsed<Ast>)
    ensures r.Ok? ==> Suffix(r.value.1, ts)
    ensures r.Ok? && IsExpr(left) ==> IsExpr(r.value.0)
    decreases |ts|, 0
  {
    if IsAddOp(Peek(ts).kind) then
      var op := Peek(ts).kind;
      var p :- ParseTerm(Next(ts));
      var q := MexprTail(BinOp(op, left, p.0), p.1);
      if q.Ok? then SuffixNext(ts); SuffixTrans(p.1, Next(ts), ts); SuffixTrans(q.value.1, p.1, ts); q else q
    else
      Ok((left, ts))
  }

  /** `<term> → not <rexpr> | <factor> { (* | / | mod) <factor> }` */
  function ParseTerm(ts: seq<Token>): (r: Parsed<Ast>)
    ensures r.Ok? ==> |r.value.1| < |ts| && Suffix(r.value.1, ts) && IsExpr(r.value.0)
    ensures r.Ok? ==> StartsExpr(Peek(ts).kind)
    decreases |ts|, 1
  {
    if Peek(ts).kind == NOT then
      var p :- ParseRexpr(Next(ts));
      SuffixNext(ts); SuffixTrans(p.1, Next(ts), ts);
      Ok((UnOp(NOT, p.0), p.1))
    else
      var p :- ParseFactor(ts);
      var q := TermTail(p.0, p.1);
      if q.Ok? then SuffixTrans(q.value.1, p.1, ts); q else q
  }

  /** The `*`/`/`/`mod` loop of parseTerm, folding to the left. */
  function TermTail(left: Ast, ts: seq<Token>): (r: Parsed<Ast>)
    ensures r.Ok? ==> Suffix(r.value.1, ts)
    ensures r.Ok? && IsExpr(left) ==> IsExpr(r.value.0)
    decreases |ts|, 0
  {
    if IsMulOp(Peek(ts).kind) then
      var op := Peek(ts).kind;
      var p :- ParseFactor(Next(ts));
      var q := TermTail(BinOp(op, left, p.0), p.1);
      if q.Ok? then SuffixNext(ts); SuffixTrans(p.1, Next(ts), ts); SuffixTrans(q.value.1, p.1, ts); q else q
    else
      Ok((left, ts))
  }

  /** `<factor> → <id> | <int> | <real> | true | false | ( <expr> )` */
  function ParseFactor(ts: seq<Token>): (r: Parsed<Ast>)
    ensures r.Ok? ==> |r.value.1| < |ts| && Suffix(r.value.1, ts) && IsExpr(r.value.0)
    ensures r.Ok? ==> IsLiteral(Peek(ts).kind) || Peek(ts).kind == LPAREN
    ensures r.Err? && Peek(ts).kind != LPAREN ==> r.error == BadFactor(Peek(ts))
    decreases |ts|, 0
  {
    var t := Peek(ts);
    if IsLiteral(t.kind) then
      SuffixNext(ts);
      Ok((Leaf(t), Next(ts)))
    else if t.kind == LPAREN then
      var p :- ParseExpr(Next(ts));
      var rest :- Match(p.1, RPAREN);
      SuffixNext(ts); SuffixNext(p.1);
      SuffixTrans(p.1, Next(ts), ts); SuffixTrans(rest, p.1, ts);
      Ok((p.0, rest))
    else
      Err(BadFactor(t))
  }

  /** `<val> → val <id> := <expr> | <expr>` */
  function ParseVal(ts: seq<Token>): (r: Parsed<Ast>)
    ensures r.Ok? ==> |r.value.1| < |ts| && Suffix(r.value.1, ts) && IsStatement(r.value.0)
  {
    if Peek(ts).kind == VAL then
      var ts1 := Next(ts);
      var idTok := Peek(ts1);
      var ts2 :- Match(ts1, ID);
      var ts3 :- Match(ts2, ASSIGN);
      var p :- ParseExpr(ts3);
      SuffixNext(ts); SuffixNext(ts1); SuffixNext(ts2);
      SuffixTrans(ts2, ts1, ts); SuffixTrans(ts3, ts2, ts); SuffixTrans(p.1, ts3, ts);
      Ok((Val(idTok.text, p.0), p.1))
    else
      ParseExpr(ts)
  }

  /**
   * The statement loop of parseProg: a statement, and another one after each
   * `;`, until EOF.  It stops at EOF or at the first statement not followed
   * by `;`, so the lookahead it leaves is never `;`.
   */
  function ParseStmts(ts: seq<Token>): (r: Parsed<seq<Ast>>)
    ensures r.Ok? ==> Suffix(r.value.1, ts) && AllStatements(r.value.0)
    ensures r.Ok? ==> Peek(r.value.1).kind != SEMI
    ensures r.Ok? && Peek(ts).kind != EOF ==> |r.value.0| > 0
    decreases |ts|
  {
    if Peek(ts).kind == EOF then
      Ok(([], ts))
    else
      var p :- ParseVal(ts);
      if Peek(p.1).kind == SEMI then
        var q :- ParseStmts(Next(p.1));
        SuffixNext(p.1); SuffixTrans(q.1, Next(p.1), p.1); SuffixTrans(q.1, p.1, ts);
        Ok(([p.0] + q.0, q.1))
      else
        Ok(([p.0], p.1))
  }

  /** `<prog> → <val> ; { <val> ; }`, with an empty input giving an empty program. */
  function ParseProg(ts: seq<Token>): (r: Parsed<Ast>)
    ensures r.Ok? ==> Suffix(r.value.1, ts) && IsProgram(r.value.0)
    ensures Peek(ts).kind == EOF ==> r == Ok((Prog([]), ts))
  {
    if Peek(ts).kind == EOF then
      Ok((Prog([]), ts))
    else
      var p :- ParseStmts(ts);
      Ok((Prog(p.0), p.1))
  }

  /**
   * What `parse` hands back: the tree, and the errors it logged without
   * stopping.  Tokens left after the program are such an error: they are
   * reported and the tree built so far is still returned.
   */
  datatype Outcome = Outcome(tree: Ast, diagnostics: seq<SyntaxError>)

  /** The diagnostic logged for what follows the program: none when it is EOF. */
  function Leftover(rest: seq<Token>): (ds: seq<SyntaxError>)
    ensures ds == [] <==> Peek(rest).kind == EOF
  {
    if Peek(rest).kind != EOF then [TrailingInput(Peek(rest))] else []
  }

  /** `parse`: the program, then a diagnostic unless only EOF is left. */
  function Parse(ts: seq<Token>): (r: Result<Outcome, SyntaxError>)
    ensures r.Ok? ==> IsProgram(r.value.tree)
    ensures r.Ok? ==> |r.value.diagnostics| <= 1
    ensures r.Ok? ==> forall d :: d in r.value.diagnostics ==> d.TrailingInput? && d.found.kind != EOF
  {
    var p :- ParseProg(ts);
    Ok(Outcome(p.0, Leftover(p.1)))
  }
}

=== FILE: parser_properties.dfy ===
/**
 * What the grammar promises about the trees it builds: the three operator
 * levels fold to the left over operands of the next tighter stage, the
 * relational level takes at most one operator, `not` applies to a whole
 * relational phrase, the trailing `;` is optional, input left after the
 * program is reported, and the ways a parse fails.
 */
module ParserProperties {
  import opened Results
  import opened Tokens
  import opened Syntax
  import opened Parser
  import opened ParserSteps
  import opened Printer

  /** The grammar's expression nonterminals, from the tightest to the loosest. */
  datatype Stage = AtFactor | AtTerm | AtMexpr | AtRexpr | AtExpr

  /** The parse function of a stage. */
  function ParseAt(st: Stage, ts: seq<Token>): Parsed<Ast> {
    match st
    case AtFactor => ParseFactor(ts)
    case AtTerm => ParseTerm(ts)
    case AtMexpr => ParseMexpr(ts)
    case AtRexpr => ParseRexpr(ts)
    case AtExpr => ParseExpr(ts)
  }

  /** The lookaheads that do not continue a phrase of the stage. */
  predicate Ends(st: Stage, k: TokenKind) {
    match st
    case AtFactor => true
    case AtTerm => !IsMulOp(k)
    case AtMexpr => !IsMulOp(k) && !IsAddOp(k)
    case AtRexpr => !IsMulOp(k) && !IsAddOp(k) && !IsRelOp(k)
    case AtExpr => Stops(k)
  }

  /**
   * `c` is a phrase of stage `st` denoting `e`: followed by anything that
   * does not continue it, the stage's function consumes exactly `c`.
   */
  ghost predicate Chunk(st: Stage, c: seq<Token>, e: Ast) {
    forall x {:trigger ParseAt(st, c + x)} :: Ends(st, Peek(x).kind) ==> ParseAt(st, c + x) == Ok((e, x))
  }

  lemma Operand(st: Stage, c: seq<Token>, e: Ast, x: seq<Token>)
    requires Chunk(st, c, e) && Ends(st, Peek(x).kind)
    ensures ParseAt(st, c + x) == Ok((e, x))
  {
  }

  /** A phrase is not empty and starts with a token an expression can start with. */
  lemma ChunkStart(st: Stage, c: seq<Token>, e: Ast)
    requires Chunk(st, c, e)
    ensures |c| > 0 && StartsExpr(c[0].kind)
    ensures st == AtFactor ==> c[0].kind != NOT
  {
    var x := [EofToken];
    Operand(st, c, e, x);
    assert (c + x)[0] == if |c| > 0 then c[0] else EofToken;
  }

  /** What follows a phrase does not change the lookahead. */
  lemma ChunkFront(st: Stage, c: seq<Token>, e: Ast, x: seq<Token>)
    requires Chunk(st, c, e)
    ensures StartsExpr(Peek(c + x).kind)
  {
    ChunkStart(st, c, e);
    assert (c + x)[0] == c[0];
  }

  /** A printed expression is a phrase of every stage. */
  lemma PrintedChunk(e: Ast, st: Stage)
    requires IsExpr(e)
    ensures Chunk(st, PrintExpr(e), e)
  {
    forall x | Ends(st, Peek(x).kind) ensures ParseAt(st, PrintExpr(e) + x) == Ok((e, x)) {
      match st
      case AtFactor => FactorRoundTrip(e, x);
      case AtTerm => FactorAtTerm(e, x);
      case AtMexpr => FactorAtMexpr(e, x);
      case AtRexpr => FactorAtRexpr(e, x);
      case AtExpr => ExprRoundTrip(e, x);
    }
  }

  /** A literal token is a phrase of every stage. */
  lemma LiteralChunk(t: Token, st: Stage)
    requires IsLiteral(t.kind)
    ensures Chunk(st, [t], Leaf(t))
  {
    PrintedChunk(Leaf(t), st);
  }

  /** The next looser stage. */
  function Up(st: Stage): Stage
    requires st != AtExpr
  {
    match st
    case AtFactor => AtTerm
    case AtTerm => AtMexpr
    case AtMexpr => AtRexpr
    case AtRexpr => AtExpr
  }

  /** A phrase of one stage is, unchanged, a phrase of the next looser one. */
  lemma Lift(st: Stage, c: seq<Token>, e: Ast)
    requires st != AtExpr && Chunk(st, c, e)
    ensures Chunk(Up(st), c, e)
  {
    ChunkStart(st, c, e);
    forall x | Ends(Up(st), Peek(x).kind) ensures ParseAt(Up(st), c + x) == Ok((e, x)) {
      Operand(st, c, e, x);
      assert Peek(c + x) == c[0];
      match st
      case AtFactor =>
        TermFactor(c + x, e, x);
        TermTailStop(e, x);
      case AtTerm =>
        MexprTerm(c + x, e, x);
        MexprTailStop(e, x);
      case AtMexpr =>
        RexprSingle(c + x, e, x);
      case AtRexpr =>
        RexprToExpr(c + x, e, x);
    }
  }

  /** The left-associative levels of the grammar. */
  datatype Level = MulLevel | AddLevel | BoolLevel

  predicate InLevel(k: TokenKind, lv: Level) {
    match lv
    case MulLevel => IsMulOp(k)
    case AddLevel => IsAddOp(k)
    case BoolLevel => IsBoolOp(k)
  }

  /** The stage of a level's operands. */
  function Operands(lv: Level): Stage {
    match lv
    case MulLevel => AtFactor
    case AddLevel => AtTerm
    case BoolLevel => AtRexpr
  }

  /** The stage whose phrases are the level's chains. */
  function Whole(lv: Level): Stage {
    match lv
    case MulLevel => AtTerm
    case AddLevel => AtMexpr
    case BoolLevel => AtExpr
  }

  /** One `op operand` link of a chain: the operator, the operand's tokens and its tree. */
  datatype Link = Link(op: Token, chunk: seq<Token>, tree: Ast)

  /** A run `op₁ c₁ op₂ c₂ …` of operators of one level, each followed by an operand. */
  ghost predicate Chain(links: seq<Link>, lv: Level)
    decreases |links|
  {
    |links| == 0 ||
    (InLevel(links[0].op.kind, lv) && Chunk(Operands(lv), links[0].chunk, links[0].tree) && Chain(links[1..], lv))
  }

  function ChainTokens(links: seq<Link>): seq<Token>
    decreases |links|
  {
    if |links| == 0 then [] else [links[0].op] + (links[0].chunk + ChainTokens(links[1..]))
  }

  /** The left-leaning tree `((acc op₁ e₁) op₂ e₂) …`. */
  function FoldLeft(acc: Ast, links: seq<Link>): Ast
    decreases |links|
  {
    if |links| == 0 then acc else FoldLeft(BinOp(links[0].op.kind, acc, links[0].tree), links[1..])
  }

  /** After a chain comes its first operator or, for an empty chain, what follows it. */
  lemma ChainFront(links: seq<Link>, lv: Level, rest: seq<Token>)
    requires Chain(links, lv) && Ends(Whole(lv), Peek(rest).kind)
    ensures Ends(Operands(lv), Peek(ChainTokens(links) + rest).kind)
  {
    if |links| > 0 {
      assert InLevel(links[0].op.kind, lv);
    }
  }

  /** The first link of a chain, and the chain after it. */
  lemma ChainHead(links: seq<Link>, lv: Level)
    requires |links| > 0 && Chain(links, lv)
    ensures InLevel(links[0].op.kind, lv) && Chunk(Operands(lv), links[0].chunk, links[0].tree)
    ensures Chain(links[1..], lv)
  {
  }

  /** The tokens of a chain: its first operator, the first operand, then the rest of the chain. */
  lemma ChainSplit(links: seq<Link>, rest: seq<Token>) returns (after: seq<Token>)
    requires |links| > 0
    ensures after == ChainTokens(links[1..]) + rest
    ensures Peek(ChainTokens(links) + rest) == links[0].op && Next(ChainTokens(links) + rest) == links[0].chunk + after
  {
    after := ChainTokens(links[1..]) + rest;
    var l := links[0];
    assert ChainTokens(links) == [l.op] + (l.chunk + ChainTokens(links[1..]));
    Nest([l.op], l.chunk, ChainTokens(links[1..]), rest);
    Front(l.op, l.chunk + after);
  }

  /** One link of a chain consumed by `TermTail`. */
  lemma TermTailLink(left: Ast, links: seq<Link>, rest: seq<Token>) returns (next: Ast)
    requires |links| > 0 && Chain(links, MulLevel) && !IsMulOp(Peek(rest).kind)
    ensures next == BinOp(links[0].op.kind, left, links[0].tree) && Chain(links[1..], MulLevel)
    ensures TermTail(left, ChainTokens(links) + rest) == TermTail(next, ChainTokens(links[1..]) + rest)
  {
    var l := links[0];
    next := BinOp(l.op.kind, left, l.tree);
    var after := ChainSplit(links, rest);
    ChainHead(links, MulLevel);
    ChainFront(links[1..], MulLevel, rest);
    Operand(AtFactor, l.chunk, l.tree, after);
    TermTailStep(left, ChainTokens(links) + rest, l.tree, after);
  }

  /** `a * b / c` parses as `(a * b) / c`. */
  lemma {:induction false} TermTailFolds(left: Ast, links: seq<Link>, rest: seq<Token>)
    requires Chain(links, MulLevel) && !IsMulOp(Peek(rest).kind)
    ensures TermTail(left, ChainTokens(links) + rest) == Ok((FoldLeft(left, links), rest))
    decreases |links|
  {
    if |links| == 0 {
      assert ChainTokens(links) + rest == rest;
      TermTailStop(left, rest);
    } else {
      var next := TermTailLink(left, links, rest);
      TermTailFolds(next, links[1..], rest);
    }
  }

  /** One link of a chain consumed by `MexprTail`. */
  lemma MexprTailLink(left: Ast, links: seq<Link>, rest: seq<Token>) returns (next: Ast)
    requires |links| > 0 && Chain(links, AddLevel) && !IsMulOp(Peek(rest).kind) && !IsAddOp(Peek(rest).kind)
    ensures next == BinOp(links[0].op.kind, left, links[0].tree) && Chain(links[1..], AddLevel)
    ensures MexprTail(left, ChainTokens(links) + rest) == MexprTail(next, ChainTokens(links[1..]) + rest)
  {
    var l := links[0];
    next := BinOp(l.op.kind, left, l.tree);
    var after := ChainSplit(links, rest);
    ChainHead(links, AddLevel);
    ChainFront(links[1..], AddLevel, rest);
    Operand(AtTerm, l.chunk, l.tree, after);
    MexprTailStep(left, ChainTokens(links) + rest, l.tree, after);
  }

  /** `a - b - c` parses as `(a - b) - c`. */
  lemma {:induction false} MexprTailFolds(left: Ast, links: seq<Link>, rest: seq<Token>)
    requires Chain(links, AddLevel) && !IsMulOp(Peek(rest).kind) && !IsAddOp(Peek(rest).kind)
    ensures MexprTail(left, ChainTokens(links) + rest) == Ok((FoldLeft(left, links), rest))
    decreases |links|
  {
    if |links| == 0 {
      assert ChainTokens(links) + rest == rest;
      MexprTailStop(left, rest);
    } else {
      var next := MexprTailLink(left, links, rest);
      MexprTailFolds(next, links[1..], rest);
    }
  }

  /** One link of a chain consumed by `ExprTail`. */
  lemma ExprTailLink(left: Ast, links: seq<Link>, rest: seq<Token>) returns (next: Ast)
    requires |links| > 0 && Chain(links, BoolLevel) && Stops(Peek(rest).kind)
    ensures next == BinOp(links[0].op.kind, left, links[0].tree) && Chain(links[1..], BoolLevel)
    ensures ExprTail(left, ChainTokens(links) + rest) == ExprTail(next, ChainTokens(links[1..]) + rest)
  {
    var l := links[0];
    next := BinOp(l.op.kind, left, l.tree);
    var after := ChainSplit(links, rest);
    ChainHead(links, BoolLevel);
    ChainFront(links[1..], BoolLevel, rest);
    Operand(AtRexpr, l.chunk, l.tree, after);
    ExprTailStep(left, ChainTokens(links) + rest, l.tree, after);
  }

  /** `a and b or c` parses as `(a and b) or c`. */
  lemma {:induction false} ExprTailFolds(left: Ast, links: seq<Link>, rest: seq<Token>)
    requires Chain(links, BoolLevel) && Stops(Peek(rest).kind)
    ensures ExprTail(left, ChainTokens(links) + rest) == Ok((FoldLeft(left, links), rest))
    decreases |links|
  {
    if |links| == 0 {
      assert ChainTokens(links) + rest == rest;
      ExprTailStop(left, rest);
    } else {
      var next := ExprTailLink(left, links, rest);
      ExprTailFolds(next, links[1..], rest);
    }
  }

  /**
   * An operand followed by a chain of one level is parsed, at the level's
   * own stage, to the left fold of the chain.
   */
  lemma ChainFoldsLeft(c: seq<Token>, e: Ast, links: seq<Link>, lv: Level, rest: seq<Token>)
    requires Chunk(Operands(lv), c, e) && Chain(links, lv) && Ends(Whole(lv), Peek(rest).kind)
    ensures ParseAt(Whole(lv), c + ChainTokens(links) + rest) == Ok((FoldLeft(e, links), rest))
  {
    var after := ChainTokens(links) + rest;
    var ts := c + after;
    Regroup3(c, ChainTokens(links), rest);
    ChainFront(links, lv, rest);
    Operand(Operands(lv), c, e, after);
    match lv
    case MulLevel =>
      ChunkStart(AtFactor, c, e);
      assert Peek(ts) == c[0];
      TermFactor(ts, e, after);
      TermTailFolds(e, links, rest);
    case AddLevel =>
      MexprTerm(ts, e, after);
      MexprTailFolds(e, links, rest);
    case BoolLevel =>
      ExprRexpr(ts, e, after);
      ExprTailFolds(e, links, rest);
  }

  /** So a chain is itself a phrase of the level's stage, ready to be an operand one level up. */
  lemma ChainChunk(c: seq<Token>, e: Ast, links: seq<Link>, lv: Level)
    requires Chunk(Operands(lv), c, e) && Chain(links, lv)
    ensures Chunk(Whole(lv), c + ChainTokens(links), FoldLeft(e, links))
  {
    forall x | Ends(Whole(lv), Peek(x).kind)
      ensures ParseAt(Whole(lv), c + ChainTokens(links) + x) == Ok((FoldLeft(e, links), x))
    {
      ChainFoldsLeft(c, e, links, lv, x);
    }
  }

  /** The instance the grammar comment gives: `a - b - c` is `(a - b) - c`. */
  lemma SubtractionFoldsLeft(a: Token, b: Token, c: Token, ts: seq<Token>)
    requires IsLiteral(a.kind) && IsLiteral(b.kind) && IsLiteral(c.kind)
    requires ts == [a, Fixed(SUB), b, Fixed(SUB), c, EofToken]
    ensures ParseExpr(ts) == Ok((BinOp(SUB, BinOp(SUB, Leaf(a), Leaf(b)), Leaf(c)), [EofToken]))
  {
    var links := SubtractionLinks(b, c);
    var tree := BinOp(SUB, BinOp(SUB, Leaf(a), Leaf(b)), Leaf(c));
    SubtractionTokens(a, b, c);
    LiteralChunk(a, AtTerm);
    SumIsExpression([a], Leaf(a), links, [EofToken]);
  }

  lemma SubtractionTokens(a: Token, b: Token, c: Token)
    ensures [a] + [Fixed(SUB), b, Fixed(SUB), c] + [EofToken] == [a, Fixed(SUB), b, Fixed(SUB), c, EofToken]
  {
  }

  /** A sum or difference, followed by what ends an expression, is a whole expression. */
  lemma SumIsExpression(c: seq<Token>, e: Ast, links: seq<Link>, rest: seq<Token>)
    requires Chunk(AtTerm, c, e) && Chain(links, AddLevel) && Stops(Peek(rest).kind)
    ensures ParseExpr(c + ChainTokens(links) + rest) == Ok((FoldLeft(e, links), rest))
  {
    ChainFoldsLeft(c, e, links, AddLevel, rest);
    MexprToExpr(c + ChainTokens(links) + rest, FoldLeft(e, links), rest);
  }

  /** The chain `- b - c` of two literal operands. */
  lemma SubtractionLinks(b: Token, c: Token) returns (links: seq<Link>)
    requires IsLiteral(b.kind) && IsLiteral(c.kind)
    ensures Chain(links, AddLevel)
    ensures ChainTokens(links) == [Fixed(SUB), b, Fixed(SUB), c]
    ensures forall a :: FoldLeft(a, links) == BinOp(SUB, BinOp(SUB, a, Leaf(b)), Leaf(c))
  {
    var sub := Fixed(SUB);
    var last := [Link(sub, [c], Leaf(c))];
    links := [Link(sub, [b], Leaf(b))] + last;
    assert links[1..] == last && last[1..] == [];
    assert Chain(links, AddLevel) by {
      LiteralChunk(b, AtTerm);
      LiteralChunk(c, AtTerm);
      assert Chain(last, AddLevel) by {
        assert Chain(last[1..], AddLevel);
      }
    }
    assert ChainTokens(links) == [sub, b, sub, c] by {
      assert ChainTokens(last) == [sub] + ([c] + []);
      assert ChainTokens(links) == [sub] + ([b] + [sub, c]);
    }
    forall a ensures FoldLeft(a, links) == BinOp(SUB, BinOp(SUB, a, Leaf(b)), Leaf(c)) {
      var ab := BinOp(SUB, a, Leaf(b));
      assert FoldLeft(BinOp(SUB, ab, Leaf(c)), []) == BinOp(SUB, ab, Leaf(c));
      assert FoldLeft(ab, last) == BinOp(SUB, ab, Leaf(c));
    }
  }

  /** `l p r`, with `p` relational, parses at the relational stage to one comparison node. */
  lemma RelationalPair(cl: seq<Token>, el: Ast, p: Token, cr: seq<Token>, er: Ast, x: seq<Token>)
    requires Chunk(AtMexpr, cl, el) && IsRelOp(p.kind) && Chunk(AtMexpr, cr, er)
    requires Ends(AtMexpr, Peek(x).kind)
    ensures ParseRexpr(cl + [p] + cr + x) == Ok((RelOp(p.kind, el, er), x))
  {
    var y := [p] + (cr + x);
    var ts := cl + y;
    assert cl + [p] + cr + x == ts by {
      Regroup(cl, [p], cr, x);
    }
    Front(p, cr + x);
    Operand(AtMexpr, cl, el, y);
    Operand(AtMexpr, cr, er, x);
    RexprPair(ts, el, y, er, x);
  }

  /** A comparison is a phrase of the relational stage. */
  lemma RelationalChunk(cl: seq<Token>, el: Ast, p: Token, cr: seq<Token>, er: Ast)
    requires Chunk(AtMexpr, cl, el) && IsRelOp(p.kind) && Chunk(AtMexpr, cr, er)
    ensures Chunk(AtRexpr, cl + [p] + cr, RelOp(p.kind, el, er))
  {
    forall x | Ends(AtRexpr, Peek(x).kind)
      ensures ParseAt(AtRexpr, cl + [p] + cr + x) == Ok((RelOp(p.kind, el, er), x))
    {
      RelationalPair(cl, el, p, cr, er, x);
    }
  }

  /**
   * The relational level takes one operator: `l < r < s` parses `l < r`
   * and stops before the second operator.
   */
  lemma RelationalStopsAtSecond(cl: seq<Token>, el: Ast, p: Token, cr: seq<Token>, er: Ast, q: Token, rest: seq<Token>)
    requires Chunk(AtMexpr, cl, el) && IsRelOp(p.kind) && Chunk(AtMexpr, cr, er) && IsRelOp(q.kind)
    ensures ParseExpr(cl + [p] + cr + ([q] + rest)) == Ok((RelOp(p.kind, el, er), [q] + rest))
  {
    var x := [q] + rest;
    var e := RelOp(p.kind, el, er);
    Front(q, rest);
    RelationalPair(cl, el, p, cr, er, x);
    ExprRexpr(cl + [p] + cr + x, e, x);
    ExprTailStop(e, x);
  }

  /** So a program consisting of `l < r < s` reports the second operator as left over. */
  lemma RelationalNotAssociative(cl: seq<Token>, el: Ast, p: Token, cr: seq<Token>, er: Ast, q: Token, rest: seq<Token>)
    requires Chunk(AtMexpr, cl, el) && IsRelOp(p.kind) && Chunk(AtMexpr, cr, er) && IsRelOp(q.kind)
    ensures Parse(cl + [p] + cr + ([q] + rest)) == Ok(Outcome(Prog([RelOp(p.kind, el, er)]), [TrailingInput(q)]))
  {
    var x := [q] + rest;
    var ts := cl + [p] + cr + x;
    var e := RelOp(p.kind, el, er);
    Front(q, rest);
    ChunkFront(AtMexpr, cl, el, [p] + cr + x);
    assert ts == cl + ([p] + cr + x);
    RelationalStopsAtSecond(cl, el, p, cr, er, q, rest);
    SingleExpression(ts, e, x);
  }

  /** `not` takes a whole relational phrase: `not l = r` is `not (l = r)`. */
  lemma NotTakesRelational(n: Token, c: seq<Token>, e: Ast, x: seq<Token>)
    requires n.kind == NOT && Chunk(AtRexpr, c, e) && Ends(AtRexpr, Peek(x).kind)
    ensures ParseTerm([n] + c + x) == Ok((UnOp(NOT, e), x))
  {
    var ts := [n] + (c + x);
    assert [n] + c + x == ts;
    Front(n, c + x);
    Operand(AtRexpr, c, e, x);
    TermNot(ts, e, x);
  }

  /** So `not` and a relational phrase form a phrase of the relational stage. */
  lemma NotChunk(n: Token, c: seq<Token>, e: Ast)
    requires n.kind == NOT && Chunk(AtRexpr, c, e)
    ensures Chunk(AtRexpr, [n] + c, UnOp(NOT, e))
  {
    forall x | Ends(AtRexpr, Peek(x).kind) ensures ParseAt(AtRexpr, [n] + c + x) == Ok((UnOp(NOT, e), x)) {
      NotTakesRelational(n, c, e, x);
      MexprTerm([n] + c + x, UnOp(NOT, e), x);
      MexprTailStop(UnOp(NOT, e), x);
      RexprSingle([n] + c + x, UnOp(NOT, e), x);
    }
  }

  /** The instance: `not a = b` is `not (a = b)` as a whole expression. */
  lemma NotOfComparison(n: Token, a: Token, p: Token, b: Token, rest: seq<Token>)
    requires n.kind == NOT && IsLiteral(a.kind) && IsLiteral(b.kind) && IsRelOp(p.kind) && Stops(Peek(rest).kind)
    ensures ParseExpr([n, a, p, b] + rest) == Ok((UnOp(NOT, RelOp(p.kind, Leaf(a), Leaf(b))), rest))
  {
    var cmp := RelOp(p.kind, Leaf(a), Leaf(b));
    var c := [a] + [p] + [b];
    LiteralChunk(a, AtMexpr);
    LiteralChunk(b, AtMexpr);
    RelationalChunk([a], Leaf(a), p, [b], Leaf(b));
    NotChunk(n, c, cmp);
    Lift(AtRexpr, [n] + c, UnOp(NOT, cmp));
    Operand(AtExpr, [n] + c, UnOp(NOT, cmp), rest);
    assert [n, a, p, b] + rest == [n] + c + rest;
  }

  /** Empty input, or input that is only EOF, is the empty program. */
  lemma EmptyProgram(ts: seq<Token>)
    requires Peek(ts).kind == EOF
    ensures Parse(ts) == Ok(Outcome(Prog([]), []))
  {
    ParseEnd(ts, Prog([]), ts);
  }

  /** A single statement needs no `;` before EOF. */
  lemma OptionalSemicolon(s: Ast)
    requires IsStatement(s)
    ensures Parse(PrintStmt(s) + [EofToken]) == Ok(Outcome(Prog([s]), []))
  {
    var ts := PrintStmt(s) + [EofToken];
    StmtRoundTrip(s, [EofToken]);
    StmtsLast(ts, s, [EofToken]);
    ProgStmts(ts, [s], [EofToken]);
    ParseEnd(ts, Prog([s]), [EofToken]);
  }

  /** The same statement with its `;` parses to the same program. */
  lemma WithSemicolon(s: Ast)
    requires IsStatement(s)
    ensures Parse(PrintStmt(s) + [Fixed(SEMI), EofToken]) == Ok(Outcome(Prog([s]), []))
  {
    var p := Prog([s]);
    var ts := PrintProgram(p) + [EofToken];
    assert ts == PrintStmt(s) + [Fixed(SEMI), EofToken] by {
      assert PrintStmts([s][1..]) == [];
      assert PrintProgram(p) == PrintStmt(s) + [Fixed(SEMI)] + [];
    }
    assert Parse(ts) == Ok(Outcome(p, [])) by {
      assert AllStatements(p.stmts);
      ProgramRoundTrip(p);
    }
  }

  /**
   * A statement followed by a token that neither continues it nor
   * separates it ends the program; the token is reported as left over and
   * the program parsed so far is still the result.
   */
  lemma StrayAfterStatement(s: Ast, t: Token, rest: seq<Token>)
    requires IsStatement(s) && Stops(t.kind) && t.kind != SEMI && t.kind != EOF
    ensures Parse(PrintStmt(s) + ([t] + rest)) == Ok(Outcome(Prog([s]), [TrailingInput(t)]))
  {
    var ts := PrintStmt(s) + ([t] + rest);
    Front(t, rest);
    StmtRoundTrip(s, [t] + rest);
    StmtsLast(ts, s, [t] + rest);
    ProgStmts(ts, [s], [t] + rest);
    ParseEnd(ts, Prog([s]), [t] + rest);
  }

  /** When the first statement fails, the whole parse fails with its error. */
  lemma FirstStatementFails(ts: seq<Token>)
    requires Peek(ts).kind != EOF && ParseVal(ts).Err?
    ensures Parse(ts) == Err(ParseVal(ts).error)
  {
    StmtsErr(ts);
    ProgErr(ts);
    ParseErr(ts);
  }

  /** A token that cannot start a statement fails the parse at the factor. */
  lemma BadStart(ts: seq<Token>)
    requires var k := Peek(ts).kind; !IsLiteral(k) && k != LPAREN && k != NOT && k != VAL && k != EOF
    ensures Parse(ts) == Err(BadFactor(Peek(ts)))
  {
    TermErr(ts);
    MexprErr(ts);
    RexprErr(ts);
    ExprErr(ts);
    ValExpr(ts);
    FirstStatementFails(ts);
  }

  /** `val` must be followed by an identifier. */
  lemma ValNeedsName(v: Token, t: Token, rest: seq<Token>)
    requires v.kind == VAL && t.kind != ID
    ensures Parse([v, t] + rest) == Err(Expected(ID, t))
  {
    var ts := [v] + ([t] + rest);
    assert [v, t] + rest == ts;
    Front(v, [t] + rest);
    Front(t, rest);
    FirstStatementFails(ts);
  }

  /** The name in a `val` must be followed by `:=`. */
  lemma ValNeedsAssign(v: Token, x: Token, t: Token, rest: seq<Token>)
    requires v.kind == VAL && x.kind == ID && t.kind != ASSIGN
    ensures Parse([v, x, t] + rest) == Err(Expected(ASSIGN, t))
  {
    var ts := [v] + ([x] + ([t] + rest));
    assert [v, x, t] + rest == ts by {
      Cons3(v, x, t, [], rest);
    }
    Front(v, [x] + ([t] + rest));
    Front(x, [t] + rest);
    Front(t, rest);
    FirstStatementFails(ts);
  }

  /** A parenthesis opened before an expression must be closed right after it. */
  lemma UnclosedParen(e: Ast, t: Token, rest: seq<Token>)
    requires IsExpr(e) && Stops(t.kind) && t.kind != RPAREN
    ensures ParseFactor([Fixed(LPAREN)] + PrintExpr(e) + ([t] + rest)) == Err(Expected(RPAREN, t))
  {
    var inner := PrintExpr(e) + ([t] + rest);
    Regroup3([Fixed(LPAREN)], PrintExpr(e), [t] + rest);
    Front(Fixed(LPAREN), inner);
    Front(t, rest);
    ExprRoundTrip(e, [t] + rest);
    FactorUnclosed([Fixed(LPAREN)] + inner, e, [t] + rest);
  }
}

=== FILE: parser_steps.dfy ===
/**
 * One unfolding of each parsing function, stated as an equation between the
 * function and the calls it makes on the given input.
 */
module ParserSteps {
  import opened Results
  import opened Tokens
  import opened Syntax
  import opened Parser

  lemma FactorLeaf(ts: seq<Token>)
    requires IsLiteral(Peek(ts).kind)
    ensures ParseFactor(ts) == Ok((Leaf(Peek(ts)), Next(ts)))
  {
  }

  lemma FactorParen(ts: seq<Token>, e: Ast, rest: seq<Token>)
    requires Peek(ts).kind == LPAREN && ParseExpr(Next(ts)) == Ok((e, rest)) && Peek(rest).kind == RPAREN
    ensures ParseFactor(ts) == Ok((e, Next(rest)))
  {
  }

  lemma TermNot(ts: seq<Token>, e: Ast, rest: seq<Token>)
    requires Peek(ts).kind == NOT && ParseRexpr(Next(ts)) == Ok((e, rest))
    ensures ParseTerm(ts) == Ok((UnOp(NOT, e), rest))
  {
  }

  lemma TermFactor(ts: seq<Token>, f: Ast, rest: seq<Token>)
    requires Peek(ts).kind != NOT && ParseFactor(ts) == Ok((f, rest))
    ensures ParseTerm(ts) == TermTail(f, rest)
  {
  }

  lemma TermTailStep(left: Ast, ts: seq<Token>, f: Ast, rest: seq<Token>)
    requires IsMulOp(Peek(ts).kind) && ParseFactor(Next(ts)) == Ok((f, rest))
    ensures TermTail(left, ts) == TermTail(BinOp(Peek(ts).kind, left, f), rest)
  {
  }

  lemma TermTailStop(left: Ast, ts: seq<Token>)
    requires !IsMulOp(Peek(ts).kind)
    ensures TermTail(left, ts) == Ok((left, ts))
  {
  }

  lemma MexprTerm(ts: seq<Token>, t: Ast, rest: seq<Token>)
    requires ParseTerm(ts) == Ok((t, rest))
    ensures ParseMexpr(ts) == MexprTail(t, rest)
  {
  }

  lemma MexprTailStep(left: Ast, ts: seq<Token>, t: Ast, rest: seq<Token>)
    requires IsAddOp(Peek(ts).kind) && ParseTerm(Next(ts)) == Ok((t, rest))
    ensures MexprTail(left, ts) == MexprTail(BinOp(Peek(ts).kind, left, t), rest)
  {
  }

  lemma MexprTailStop(left: Ast, ts: seq<Token>)
    requires !IsAddOp(Peek(ts).kind)
    ensures MexprTail(left, ts) == Ok((left, ts))
  {
  }

  lemma RexprSingle(ts: seq<Token>, m: Ast, rest: seq<Token>)
    requires ParseMexpr(ts) == Ok((m, rest)) && !IsRelOp(Peek(rest).kind)
    ensures ParseRexpr(ts) == Ok((m, rest))
  {
  }

  lemma RexprPair(ts: seq<Token>, m: Ast, rest: seq<Token>, m2: Ast, rest2: seq<Token>)
    requires ParseMexpr(ts) == Ok((m, rest)) && IsRelOp(Peek(rest).kind)
    requires ParseMexpr(Next(rest)) == Ok((m2, rest2))
    ensures ParseRexpr(ts) == Ok((RelOp(Peek(rest).kind, m, m2), rest2))
  {
  }

  lemma ExprRexpr(ts: seq<Token>, r: Ast, rest: seq<Token>)
    requires ParseRexpr(ts) == Ok((r, rest))
    ensures ParseExpr(ts) == ExprTail(r, rest)
  {
  }

  lemma ExprTailStep(left: Ast, ts: seq<Token>, r: Ast, rest: seq<Token>)
    requires IsBoolOp(Peek(ts).kind) && ParseRexpr(Next(ts)) == Ok((r, rest))
    ensures ExprTail(left, ts) == ExprTail(BinOp(Peek(ts).kind, left, r), rest)
  {
  }

  lemma ExprTailStop(left: Ast, ts: seq<Token>)
    requires !IsBoolOp(Peek(ts).kind)
    ensures ExprTail(left, ts) == Ok((left, ts))
  {
  }

  lemma ValBinding(ts: seq<Token>, e: Ast, rest: seq<Token>)
    requires Peek(ts).kind == VAL && Peek(Next(ts)).kind == ID && Peek(Next(Next(ts))).kind == ASSIGN
    requires ParseExpr(Next(Next(Next(ts)))) == Ok((e, rest))
    ensures ParseVal(ts) == Ok((Val(Peek(Next(ts)).text, e), rest))
  {
  }

  lemma ValExpr(ts: seq<Token>)
    requires Peek(ts).kind != VAL
    ensures ParseVal(ts) == ParseExpr(ts)
  {
  }

  lemma StmtsEnd(ts: seq<Token>)
    requires Peek(ts).kind == EOF
    ensures ParseStmts(ts) == Ok(([], ts))
  {
  }

  lemma StmtsMore(ts: seq<Token>, s: Ast, rest: seq<Token>, ss: seq<Ast>, rest2: seq<Token>)
    requires Peek(ts).kind != EOF && ParseVal(ts) == Ok((s, rest)) && Peek(rest).kind == SEMI
    requires ParseStmts(Next(rest)) == Ok((ss, rest2))
    ensures ParseStmts(ts) == Ok(([s] + ss, rest2))
  {
  }

  lemma StmtsLast(ts: seq<Token>, s: Ast, rest: seq<Token>)
    requires Peek(ts).kind != EOF && ParseVal(ts) == Ok((s, rest)) && Peek(rest).kind != SEMI
    ensures ParseStmts(ts) == Ok(([s], rest))
  {
  }

  lemma ProgStmts(ts: seq<Token>, ss: seq<Ast>, rest: seq<Token>)
    requires Peek(ts).kind != EOF && ParseStmts(ts) == Ok((ss, rest))
    ensures ParseProg(ts) == Ok((Prog(ss), rest))
  {
  }

  lemma ParseEnd(ts: seq<Token>, p: Ast, rest: seq<Token>)
    requires ParseProg(ts) == Ok((p, rest))
    ensures Parse(ts) == Ok(Outcome(p, Leftover(rest)))
  {
  }

  /** A program of one expression statement with no `;` after it. */
  lemma SingleExpression(ts: seq<Token>, e: Ast, rest: seq<Token>)
    requires Peek(ts).kind != VAL && Peek(ts).kind != EOF && Peek(rest).kind != SEMI
    requires ParseExpr(ts) == Ok((e, rest))
    ensures Parse(ts) == Ok(Outcome(Prog([e]), Leftover(rest)))
  {
    ValExpr(ts);
    StmtsLast(ts, e, rest);
    ProgStmts(ts, [e], rest);
    ParseEnd(ts, Prog([e]), rest);
  }

  // ----- errors travel up unchanged -----

  lemma FactorUnclosed(ts: seq<Token>, e: Ast, rest: seq<Token>)
    requires Peek(ts).kind == LPAREN && ParseExpr(Next(ts)) == Ok((e, rest)) && Peek(rest).kind != RPAREN
    ensures ParseFactor(ts) == Err(Expected(RPAREN, Peek(rest)))
  {
  }

  lemma TermErr(ts: seq<Token>)
    requires Peek(ts).kind != NOT && ParseFactor(ts).Err?
    ensures ParseTerm(ts) == Err(ParseFactor(ts).error)
  {
  }

  lemma MexprErr(ts: seq<Token>)
    requires ParseTerm(ts).Err?
    ensures ParseMexpr(ts) == Err(ParseTerm(ts).error)
  {
  }

  lemma RexprErr(ts: seq<Token>)
    requires ParseMexpr(ts).Err?
    ensures ParseRexpr(ts) == Err(ParseMexpr(ts).error)
  {
  }

  lemma ExprErr(ts: seq<Token>)
    requires ParseRexpr(ts).Err?
    ensures ParseExpr(ts) == Err(ParseRexpr(ts).error)
  {
  }

  lemma StmtsErr(ts: seq<Token>)
    requires Peek(ts).kind != EOF && ParseVal(ts).Err?
    ensures ParseStmts(ts) == Err(ParseVal(ts).error)
  {
  }

  lemma ProgErr(ts: seq<Token>)
    requires Peek(ts).kind != EOF && ParseStmts(ts).Err?
    ensures ParseProg(ts) == Err(ParseStmts(ts).error)
  {
  }

  lemma ParseErr(ts: seq<Token>)
    requires ParseProg(ts).Err?
    ensures Parse(ts) == Err(ParseProg(ts).error)
  {
  }

  /** The lookahead and the rest of a sequence that starts with a known token. */
  lemma Front(t: Token, ts: seq<Token>)
    ensures Peek([t] + ts) == t && Next([t] + ts) == ts
  {
  }

  lemma Regroup<T>(a: seq<T>, b: seq<T>, c: seq<T>, d: seq<T>)
    ensures a + b + c + d == a + (b + (c + d))
  {
  }

  lemma Cons3<T>(a: T, b: T, c: T, d: seq<T>, e: seq<T>)
    ensures [a, b, c] + d + e == [a] + ([b] + ([c] + (d + e)))
  {
  }

  lemma HeadTail<T>(s: seq<T>)
    requires |s| > 0
    ensures [s[0]] + s[1..] == s
  {
  }

  lemma Nest<T>(a: seq<T>, b: seq<T>, c: seq<T>, d: seq<T>)
    ensures a + (b + c) + d == a + (b + (c + d))
  {
  }

  lemma Regroup3<T>(a: seq<T>, b: seq<T>, c: seq<T>)
    ensures a + b + c == a + (b + c)
  {
  }
}

=== FILE: pipeline.dfy ===
/**
 * The whole interpreter on one input text: lex, parse, and run the tree,
 * keeping the parser's diagnostics next to what the run printed.
 */
module Pipeline {
  import opened Results
  import opened Tokens
  import opened Syntax
  import opened Lexer
  import opened TokenText
  import opened Parser
  import opened Printer
  import opened Evaluator
  import ParserProperties
  import Numerals

  /** What one interpretation comes to: the logged syntax errors and the run of the tree. */
  datatype Session = Session(diagnostics: seq<SyntaxError>, run: Execution)

  /** The parser over the lexer over the text; None stands for a null string. */
  function ParseText(input: Option<string>): (r: Result<Outcome, SyntaxError>)
    ensures r.Ok? ==> IsProgram(r.value.tree)
  {
    Parse(Tokenize(input))
  }

  /**
   * Running the tree of a text that parses; a syntax error that aborts
   * parsing means nothing runs.
   */
  function Interpret(input: Option<string>): (r: Result<Session, SyntaxError>)
    ensures r.Ok? <==> ParseText(input).Ok?
    ensures r.Err? ==> r.error == ParseText(input).error
    ensures r.Ok? && r.value.run.failure.None? ==>
              |r.value.run.out| == CountPrinting(ParseText(input).value.tree.stmts)
  {
    var o :- ParseText(input);
    Ok(Session(o.diagnostics, Run(o.tree)))
  }

  // ----- trees that can be written as text -----

  /**
   * Every leaf token is one the lexer produces with its whole text, and
   * every bound name is an identifier.
   */
  predicate Spellable(n: Ast) {
    match n
    case Prog(ss) => forall i :: 0 <= i < |ss| ==> Spellable(ss[i])
    case Val(x, rhs) => IsIdentifier(x) && Spellable(rhs)
    case BinOp(_, l, r) => Spellable(l) && Spellable(r)
    case RelOp(_, l, r) => Spellable(l) && Spellable(r)
    case UnOp(_, c) => Spellable(c)
    case Leaf(t) => WellFormedToken(t)
  }

  lemma FixedWellFormed(k: TokenKind)
    requires HasFixedText(k)
    ensures WellFormedToken(Fixed(k))
  {
  }

  lemma WellFormedConcat(a: seq<Token>, b: seq<Token>)
    requires AllWellFormed(a) && AllWellFormed(b)
    ensures AllWellFormed(a + b)
  {
    forall i | 0 <= i < |a + b| ensures WellFormedToken((a + b)[i]) {
      if i < |a| { assert (a + b)[i] == a[i]; } else { assert (a + b)[i] == b[i - |a|]; }
    }
  }

  /** The printed tokens of a spellable expression are all well formed. */
  lemma {:induction false} PrintedExprWellFormed(e: Ast)
    requires IsExpr(e) && Spellable(e)
    ensures AllWellFormed(PrintExpr(e))
    decreases e
  {
    match e
    case Leaf(t) =>
    case UnOp(op, c) =>
      PrintedExprWellFormed(c);
      NegationWellFormed(e);
    case BinOp(op, l, r) =>
      PrintedExprWellFormed(l);
      PrintedExprWellFormed(r);
      OperatorWellFormed(e);
    case RelOp(op, l, r) =>
      PrintedExprWellFormed(l);
      PrintedExprWellFormed(r);
      OperatorWellFormed(e);
  }

  lemma NegationWellFormed(e: Ast)
    requires IsExpr(e) && e.UnOp? && AllWellFormed(PrintExpr(e.child))
    ensures AllWellFormed(PrintExpr(e))
  {
    FixedWellFormed(NOT);
    Bracketed(Inner(e), [Fixed(NOT)], PrintExpr(e.child), []);
  }

  lemma OperatorWellFormed(e: Ast)
    requires IsExpr(e) && (e.BinOp? || e.RelOp?)
    requires AllWellFormed(PrintExpr(e.left)) && AllWellFormed(PrintExpr(e.right))
    ensures AllWellFormed(PrintExpr(e))
  {
    var l, o, r := PrintExpr(e.left), [Fixed(e.op)], PrintExpr(e.right);
    assert Inner(e) == l + o + r;
    assert PrintExpr(e) == [Fixed(LPAREN)] + Inner(e) + [Fixed(RPAREN)];
    FixedWellFormed(e.op);
    Bracketed(Inner(e), l, o, r);
  }

  /** Wrapping well-formed pieces in parentheses keeps them well formed. */
  lemma Bracketed(inner: seq<Token>, a: seq<Token>, b: seq<Token>, c: seq<Token>)
    requires inner == a + b + c && AllWellFormed(a) && AllWellFormed(b) && AllWellFormed(c)
    ensures AllWellFormed(inner)
    ensures AllWellFormed([Fixed(LPAREN)] + inner + [Fixed(RPAREN)])
  {
    WellFormedConcat(a, b);
    WellFormedConcat(a + b, c);
    FixedWellFormed(LPAREN);
    FixedWellFormed(RPAREN);
    WellFormedConcat([Fixed(LPAREN)], inner);
    WellFormedConcat([Fixed(LPAREN)] + inner, [Fixed(RPAREN)]);
  }

  lemma PrintedStmtWellFormed(s: Ast)
    requires IsStatement(s) && Spellable(s)
    ensures AllWellFormed(PrintStmt(s))
  {
    if s.Val? {
      PrintedExprWellFormed(s.rhs);
      FixedWellFormed(VAL);
      FixedWellFormed(ASSIGN);
      WellFormedConcat([Fixed(VAL), Token(ID, s.name), Fixed(ASSIGN)], PrintExpr(s.rhs));
    } else {
      PrintedExprWellFormed(s);
    }
  }

  lemma {:induction false} PrintedStmtsWellFormed(ss: seq<Ast>)
    requires AllStatements(ss) && forall i :: 0 <= i < |ss| ==> Spellable(ss[i])
    ensures AllWellFormed(PrintStmts(ss))
    decreases |ss|
  {
    if |ss| > 0 {
      PrintedStmtWellFormed(ss[0]);
      FixedWellFormed(SEMI);
      assert AllStatements(ss[1..]) && forall i :: 0 <= i < |ss[1..]| ==> Spellable(ss[1..][i]) by {
        forall i | 0 <= i < |ss[1..]| ensures IsStatement(ss[1..][i]) && Spellable(ss[1..][i]) {
          assert ss[1..][i] == ss[i + 1];
        }
      }
      PrintedStmtsWellFormed(ss[1..]);
      WellFormedConcat(PrintStmt(ss[0]), [Fixed(SEMI)]);
      WellFormedConcat(PrintStmt(ss[0]) + [Fixed(SEMI)], PrintStmts(ss[1..]));
    }
  }

  // ----- the pipeline end to end -----

  /**
   * Writing a spellable program out as text and interpreting the text
   * runs the program itself, with no diagnostics.
   */
  lemma PrintedProgramRuns(p: Ast)
    requires IsProgram(p) && Spellable(p)
    ensures ParseText(Some(Render(PrintProgram(p)))) == Ok(Outcome(p, []))
    ensures Interpret(Some(Render(PrintProgram(p)))) == Ok(Session([], Run(p)))
  {
    PrintedStmtsWellFormed(p.stmts);
    TokenizeRender(PrintProgram(p));
    ProgramRoundTrip(p);
  }

  /**
   * `1 2`: the stray `2` is logged, not fatal, so the tree of `1` still
   * runs and prints `1`.
   */
  lemma StrayTokenIsLogged()
    ensures Interpret(Some("1 2 ")) ==
            Ok(Session([TrailingInput(Token(INT, "2"))], Execution([LongV(1)], map[], None)))
  {
    StrayTokenParses();
    OneRuns();
  }

  lemma StrayTokenParses()
    ensures ParseText(Some("1 2 ")) == Ok(Outcome(Prog([Leaf(Token(INT, "1"))]), [TrailingInput(Token(INT, "2"))]))
  {
    TwoIntegersLexed();
    TwoIntegersParsed([Token(INT, "1"), Token(INT, "2"), EofToken]);
  }

  lemma TwoIntegersLexed()
    ensures Tokenize(Some("1 2 ")) == [Token(INT, "1"), Token(INT, "2"), EofToken]
  {
    var one, two := Token(INT, "1"), Token(INT, "2");
    assert Render([one, two]) == "1 2 " by {
      assert [one, two][1..] == [two] && [two][1..] == [];
      assert Render([two]) == "2 ";
      assert Render([one, two]) == "1" + " " + "2 ";
    }
    TokenizeRender([one, two]);
  }

  lemma TwoIntegersParsed(ts: seq<Token>)
    requires ts == [Token(INT, "1"), Token(INT, "2"), EofToken]
    ensures Parse(ts) == Ok(Outcome(Prog([Leaf(Token(INT, "1"))]), [TrailingInput(Token(INT, "2"))]))
  {
    var one, two := Token(INT, "1"), Token(INT, "2");
    assert PrintStmt(Leaf(one)) + ([two] + [EofToken]) == ts;
    ParserProperties.StrayAfterStatement(Leaf(one), two, [EofToken]);
  }

  lemma OneRuns()
    ensures Run(Prog([Leaf(Token(INT, "1"))])) == Execution([LongV(1)], map[], None)
  {
    var one := Token(INT, "1");
    Numerals.DigitsAsLong("1");
    assert Eval(Leaf(one), map[]) == Ok((LongV(1), map[]));
    assert [Leaf(one)][1..] == [];
  }
}

=== FILE: printer.dfy ===
/**
 * A printer from trees back to tokens, fully parenthesised, and the parser
 * as its inverse: parsing a printed program gives back the program.
 */
module Printer {
  import opened Results
  import opened Tokens
  import opened Syntax
  import opened Parser
  import opened ParserSteps

  /**
   * The tokens of an expression: a leaf is its token, an operator node is
   * written between parentheses, so every printed expression is a factor.
   */
  function PrintExpr(e: Ast): (ts: seq<Token>)
    requires IsExpr(e)
    ensures |ts| > 0 && (ts[0].kind == LPAREN || IsLiteral(ts[0].kind))
    decreases e, 1
  {
    if e.Leaf? then [e.tok] else [Fixed(LPAREN)] + Inner(e) + [Fixed(RPAREN)]
  }

  /** The tokens between the parentheses of a printed operator node. */
  function Inner(e: Ast): seq<Token>
    requires IsExpr(e) && !e.Leaf?
    decreases e, 0
  {
    match e
    case BinOp(op, l, r) => PrintExpr(l) + [Fixed(op)] + PrintExpr(r)
    case RelOp(op, l, r) => PrintExpr(l) + [Fixed(op)] + PrintExpr(r)
    case UnOp(_, c) => [Fixed(NOT)] + PrintExpr(c)
  }

  /** A statement: `val x := e` for a binding, the expression otherwise. */
  function PrintStmt(s: Ast): (ts: seq<Token>)
    requires IsStatement(s)
    ensures |ts| > 0 && ts[0].kind != EOF && ts[0].kind != SEMI
  {
    if s.Val? then [Fixed(VAL), Token(ID, s.name), Fixed(ASSIGN)] + PrintExpr(s.rhs)
    else PrintExpr(s)
  }

  /** Each statement followed by `;`. */
  function PrintStmts(ss: seq<Ast>): (ts: seq<Token>)
    requires AllStatements(ss)
    ensures |ss| > 0 ==> |ts| > 0 && ts[0].kind != EOF
  {
    if |ss| == 0 then [] else PrintStmt(ss[0]) + [Fixed(SEMI)] + PrintStmts(ss[1..])
  }

  function PrintProgram(p: Ast): seq<Token>
    requires IsProgram(p)
  {
    PrintStmts(p.stmts)
  }

  /** Token kinds that end every expression: no operator of any level. */
  predicate Stops(k: TokenKind) {
    !IsMulOp(k) && !IsAddOp(k) && !IsRelOp(k) && !IsBoolOp(k)
  }

  // ----- climbing the levels once no operator follows -----

  lemma RexprToExpr(ts: seq<Token>, e: Ast, rest: seq<Token>)
    requires ParseRexpr(ts) == Ok((e, rest)) && !IsBoolOp(Peek(rest).kind)
    ensures ParseExpr(ts) == Ok((e, rest))
  {
    ExprRexpr(ts, e, rest);
    ExprTailStop(e, rest);
  }

  lemma MexprToExpr(ts: seq<Token>, e: Ast, rest: seq<Token>)
    requires ParseMexpr(ts) == Ok((e, rest)) && !IsRelOp(Peek(rest).kind) && !IsBoolOp(Peek(rest).kind)
    ensures ParseExpr(ts) == Ok((e, rest))
  {
    RexprSingle(ts, e, rest);
    RexprToExpr(ts, e, rest);
  }

  lemma TermToExpr(ts: seq<Token>, e: Ast, rest: seq<Token>)
    requires ParseTerm(ts) == Ok((e, rest)) && Stops(Peek(rest).kind)
    ensures ParseExpr(ts) == Ok((e, rest))
  {
    MexprTerm(ts, e, rest);
    MexprTailStop(e, rest);
    MexprToExpr(ts, e, rest);
  }

  // ----- the round trip, expression by expression -----

  /** A printed expression followed by `rest` parses as a factor, leaving `rest`. */
  lemma {:induction false} FactorRoundTrip(e: Ast, rest: seq<Token>)
    requires IsExpr(e)
    ensures ParseFactor(PrintExpr(e) + rest) == Ok((e, rest))
    decreases e, 2
  {
    if e.Leaf? {
      Front(e.tok, rest);
      FactorLeaf([e.tok] + rest);
    } else {
      var close := [Fixed(RPAREN)] + rest;
      var ts := [Fixed(LPAREN)] + (Inner(e) + close);
      Regroup([Fixed(LPAREN)], Inner(e), [Fixed(RPAREN)], rest);
      InnerRoundTrip(e, close);
      Front(Fixed(LPAREN), Inner(e) + close);
      Front(Fixed(RPAREN), rest);
      FactorParen(ts, e, close);
    }
  }

  lemma FactorAtTerm(e: Ast, rest: seq<Token>)
    requires IsExpr(e) && !IsMulOp(Peek(rest).kind)
    ensures ParseTerm(PrintExpr(e) + rest) == Ok((e, rest))
    decreases e, 3
  {
    FactorRoundTrip(e, rest);
    TermFactor(PrintExpr(e) + rest, e, rest);
    TermTailStop(e, rest);
  }

  lemma FactorAtMexpr(e: Ast, rest: seq<Token>)
    requires IsExpr(e) && !IsMulOp(Peek(rest).kind) && !IsAddOp(Peek(rest).kind)
    ensures ParseMexpr(PrintExpr(e) + rest) == Ok((e, rest))
    decreases e, 4
  {
    FactorAtTerm(e, rest);
    MexprTerm(PrintExpr(e) + rest, e, rest);
    MexprTailStop(e, rest);
  }

  lemma FactorAtRexpr(e: Ast, rest: seq<Token>)
    requires IsExpr(e) && !IsMulOp(Peek(rest).kind) && !IsAddOp(Peek(rest).kind) && !IsRelOp(Peek(rest).kind)
    ensures ParseRexpr(PrintExpr(e) + rest) == Ok((e, rest))
    decreases e, 5
  {
    FactorAtMexpr(e, rest);
    RexprSingle(PrintExpr(e) + rest, e, rest);
  }

  /** A printed expression followed by a token that no operator level takes parses back whole. */
  lemma ExprRoundTrip(e: Ast, rest: seq<Token>)
    requires IsExpr(e) && Stops(Peek(rest).kind)
    ensures ParseExpr(PrintExpr(e) + rest) == Ok((e, rest))
    decreases e, 6
  {
    FactorAtRexpr(e, rest);
    RexprToExpr(PrintExpr(e) + rest, e, rest);
  }

  /** The tokens inside the parentheses parse back to the operator node. */
  lemma {:induction false} InnerRoundTrip(e: Ast, rest: seq<Token>)
    requires IsExpr(e) && !e.Leaf? && Stops(Peek(rest).kind)
    ensures ParseExpr(Inner(e) + rest) == Ok((e, rest))
    decreases e, 1
  {
    match e
    case UnOp(_, _) => NotRoundTrip(e, rest);
    case RelOp(_, _, _) => RelRoundTrip(e, rest);
    case BinOp(op, _, _) =>
      if IsMulOp(op) {
        MulRoundTrip(e, rest);
      } else if IsAddOp(op) {
        AddRoundTrip(e, rest);
      } else {
        BoolRoundTrip(e, rest);
      }
  }

  lemma {:induction false} NotRoundTrip(e: Ast, rest: seq<Token>)
    requires IsExpr(e) && e.UnOp? && Stops(Peek(rest).kind)
    ensures ParseExpr(Inner(e) + rest) == Ok((e, rest))
    decreases e, 0
  {
    var ts := [Fixed(NOT)] + (PrintExpr(e.child) + rest);
    Regroup3([Fixed(NOT)], PrintExpr(e.child), rest);
    Front(Fixed(NOT), PrintExpr(e.child) + rest);
    FactorAtRexpr(e.child, rest);
    TermNot(ts, e.child, rest);
    TermToExpr(ts, e, rest);
  }

  lemma {:induction false} RelRoundTrip(e: Ast, rest: seq<Token>)
    requires IsExpr(e) && e.RelOp? && Stops(Peek(rest).kind)
    ensures ParseExpr(Inner(e) + rest) == Ok((e, rest))
    decreases e, 0
  {
    var tail := [Fixed(e.op)] + (PrintExpr(e.right) + rest);
    var ts := PrintExpr(e.left) + tail;
    Regroup(PrintExpr(e.left), [Fixed(e.op)], PrintExpr(e.right), rest);
    Front(Fixed(e.op), PrintExpr(e.right) + rest);
    FactorAtMexpr(e.left, tail);
    FactorAtMexpr(e.right, rest);
    RexprPair(ts, e.left, tail, e.right, rest);
    RexprToExpr(ts, e, rest);
  }

  lemma {:induction false} MulRoundTrip(e: Ast, rest: seq<Token>)
    requires IsExpr(e) && e.BinOp? && IsMulOp(e.op) && Stops(Peek(rest).kind)
    ensures ParseExpr(Inner(e) + rest) == Ok((e, rest))
    decreases e, 0
  {
    var tail := [Fixed(e.op)] + (PrintExpr(e.right) + rest);
    var ts := PrintExpr(e.left) + tail;
    Regroup(PrintExpr(e.left), [Fixed(e.op)], PrintExpr(e.right), rest);
    Front(Fixed(e.op), PrintExpr(e.right) + rest);
    FactorRoundTrip(e.left, tail);
    FactorRoundTrip(e.right, rest);
    TermFactor(ts, e.left, tail);
    TermTailStep(e.left, tail, e.right, rest);
    TermTailStop(e, rest);
    TermToExpr(ts, e, rest);
  }

  lemma {:induction false} AddRoundTrip(e: Ast, rest: seq<Token>)
    requires IsExpr(e) && e.BinOp? && IsAddOp(e.op) && Stops(Peek(rest).kind)
    ensures ParseExpr(Inner(e) + rest) == Ok((e, rest))
    decreases e, 0
  {
    var tail := [Fixed(e.op)] + (PrintExpr(e.right) + rest);
    var ts := PrintExpr(e.left) + tail;
    Regroup(PrintExpr(e.left), [Fixed(e.op)], PrintExpr(e.right), rest);
    Front(Fixed(e.op), PrintExpr(e.right) + rest);
    FactorAtTerm(e.left, tail);
    FactorAtTerm(e.right, rest);
    MexprTerm(ts, e.left, tail);
    MexprTailStep(e.left, tail, e.right, rest);
    MexprTailStop(e, rest);
    MexprToExpr(ts, e, rest);
  }

  lemma {:induction false} BoolRoundTrip(e: Ast, rest: seq<Token>)
    requires IsExpr(e) && e.BinOp? && IsBoolOp(e.op) && Stops(Peek(rest).kind)
    ensures ParseExpr(Inner(e) + rest) == Ok((e, rest))
    decreases e, 0
  {
    var tail := [Fixed(e.op)] + (PrintExpr(e.right) + rest);
    var ts := PrintExpr(e.left) + tail;
    Regroup(PrintExpr(e.left), [Fixed(e.op)], PrintExpr(e.right), rest);
    Front(Fixed(e.op), PrintExpr(e.right) + rest);
    FactorAtRexpr(e.left, tail);
    FactorAtRexpr(e.right, rest);
    ExprRexpr(ts, e.left, tail);
    ExprTailStep(e.left, tail, e.right, rest);
    ExprTailStop(e, rest);
  }

  // ----- statements and programs -----

  lemma StmtRoundTrip(s: Ast, rest: seq<Token>)
    requires IsStatement(s) && Stops(Peek(rest).kind)
    ensures ParseVal(PrintStmt(s) + rest) == Ok((s, rest))
  {
    if s.Val? {
      var t3 := PrintExpr(s.rhs) + rest;
      var t2 := [Fixed(ASSIGN)] + t3;
      var t1 := [Token(ID, s.name)] + t2;
      var ts := [Fixed(VAL)] + t1;
      Cons3(Fixed(VAL), Token(ID, s.name), Fixed(ASSIGN), PrintExpr(s.rhs), rest);
      Front(Fixed(VAL), t1);
      Front(Token(ID, s.name), t2);
      Front(Fixed(ASSIGN), t3);
      ExprRoundTrip(s.rhs, rest);
      ValBinding(ts, s.rhs, rest);
    } else {
      ValExpr(PrintStmt(s) + rest);
      ExprRoundTrip(s, rest);
    }
  }

  lemma {:induction false} StmtsRoundTrip(ss: seq<Ast>, rest: seq<Token>, ts: seq<Token>)
    requires AllStatements(ss) && Peek(rest).kind == EOF && ts == PrintStmts(ss) + rest
    ensures ParseStmts(ts) == Ok((ss, rest))
  {
    if |ss| == 0 {
      StmtsEnd(rest);
    } else {
      var after := StmtHead(ss, rest, ts);
      StmtsRoundTrip(ss[1..], rest, after);
      StmtsCons(ts, ss[0], after, ss[1..], rest);
      HeadTail(ss);
    }
  }

  /** The first printed statement parses back, leaving `;` and the rest. */
  lemma StmtHead(ss: seq<Ast>, rest: seq<Token>, ts: seq<Token>) returns (after: seq<Token>)
    requires |ss| > 0 && AllStatements(ss) && ts == PrintStmts(ss) + rest
    ensures after == PrintStmts(ss[1..]) + rest && AllStatements(ss[1..])
    ensures Peek(ts).kind != EOF && ParseVal(ts) == Ok((ss[0], [Fixed(SEMI)] + after))
  {
    var s, more := ss[0], ss[1..];
    assert IsStatement(s) && AllStatements(more);
    after := PrintStmts(more) + rest;
    var tail := [Fixed(SEMI)] + after;
    Regroup(PrintStmt(s), [Fixed(SEMI)], PrintStmts(more), rest);
    Front(Fixed(SEMI), after);
    StmtRoundTrip(s, tail);
  }

  lemma StmtsCons(ts: seq<Token>, s: Ast, after: seq<Token>, ss: seq<Ast>, rest: seq<Token>)
    requires Peek(ts).kind != EOF && ParseVal(ts) == Ok((s, [Fixed(SEMI)] + after))
    requires ParseStmts(after) == Ok((ss, rest))
    ensures ParseStmts(ts) == Ok(([s] + ss, rest))
  {
    Front(Fixed(SEMI), after);
    StmtsMore(ts, s, [Fixed(SEMI)] + after, ss, rest);
  }

  /** Parsing a printed program, followed by EOF, gives back the program. */
  lemma ProgramRoundTrip(p: Ast)
    requires IsProgram(p)
    ensures Parse(PrintProgram(p) + [EofToken]) == Ok(Outcome(p, []))
  {
    StmtsRoundTrip(p.stmts, [EofToken], PrintProgram(p) + [EofToken]);
  }
}

=== FILE: promotion.dfy ===
/**
 * The evaluator as its own comment and the parser's node classes describe
 * it, where the code does otherwise.  The comment on `num` promises numeric
 * promotion, under which two longs give a long, but `binOp` computes
 * `+ - * /` in doubles whatever the operands.  The parser builds a
 * relational node for every comparison, but `eval` has no case for one.
 * The functions here are the corrected definitions; `Evaluator` keeps the
 * behaviour as written.
 */
module Promotion {
  import opened Results
  import opened Tokens
  import opened Syntax
  import opened Numerals
  import opened Evaluator
  import EvaluatorProperties

  /** The number of values a Java `long` holds. */
  const LongModulus: int := 0x1_0000_0000_0000_0000

  /** Java's `long` arithmetic: the exact result wrapped around into the 64-bit range. */
  function Wrap(x: int): (n: int)
    ensures InLongRange(n)
    ensures (x - n) % LongModulus == 0
    ensures InLongRange(x) ==> n == x
  {
    (x - MinLong) % LongModulus + MinLong
  }

  /** The operators promotion is about: `+ - * /`, which two longs should keep long. */
  predicate IsPromoting(op: TokenKind) {
    op == ADD || op == SUB || op == MULT || op == DIV
  }

  /**
   * `binOp` with the promotion its comment describes: `+ - * /` of two
   * longs is long arithmetic, `/` rounding toward zero and a zero divisor
   * throwing; with a double operand, or for any other operator, it is
   * `binOp` as written.
   */
  function PromotedBinary(op: TokenKind, l: Value, r: Value): (res: Result<Value, RuntimeError>)
    ensures !(IsPromoting(op) && l.LongV? && r.LongV?) ==> res == ApplyBinary(op, l, r)
    ensures IsPromoting(op) && l.LongV? && r.LongV? ==> (res.Err? <==> op == DIV && r.i == 0)
    ensures IsPromoting(op) && l.LongV? && r.LongV? && res.Ok? ==> res.value.LongV? && InLongRange(res.value.i)
    ensures IsPromoting(op) && l.LongV? && r.LongV? && res.Err? ==> res.error == DivisionByZero
  {
    if IsPromoting(op) && l.LongV? && r.LongV? then
      var a, b := l.i, r.i;
      if op == ADD then Ok(LongV(Wrap(a + b)))
      else if op == SUB then Ok(LongV(Wrap(a - b)))
      else if op == MULT then Ok(LongV(Wrap(a * b)))
      else if b == 0 then Err(DivisionByZero)
      else Ok(LongV(Wrap(TruncQuot(a, b))))
    else ApplyBinary(op, l, r)
  }

  /**
   * On two longs the corrected result is the as-written double rounded
   * toward zero and wrapped into a long: the two differ only in the type,
   * and for `/` in the fraction the long quotient drops.
   */
  lemma PromotionRoundsAsWritten(op: TokenKind, a: int, b: int)
    requires IsPromoting(op) && (op == DIV ==> b != 0)
    ensures ApplyBinary(op, LongV(a), LongV(b)).Ok?
    ensures PromotedBinary(op, LongV(a), LongV(b))
            == Ok(LongV(Wrap(Truncate(ApplyBinary(op, LongV(a), LongV(b)).value.r))))
  {
    if op == ADD {
      RoundsSum(a, b);
    } else if op == SUB {
      RoundsDifference(a, b);
    } else if op == MULT {
      RoundsProduct(a, b);
    } else {
      RoundsQuotient(a, b);
    }
  }

  /** `+`: the double is the exact sum, which truncation keeps. */
  lemma RoundsSum(a: int, b: int)
    ensures ApplyBinary(ADD, LongV(a), LongV(b)) == Ok(DoubleV((a + b) as real))
    ensures PromotedBinary(ADD, LongV(a), LongV(b)) == Ok(LongV(Wrap(Truncate((a + b) as real))))
  {
    TruncateWhole(a + b);
  }

  /** `-`: the double is the exact difference, which truncation keeps. */
  lemma RoundsDifference(a: int, b: int)
    ensures ApplyBinary(SUB, LongV(a), LongV(b)) == Ok(DoubleV((a - b) as real))
    ensures PromotedBinary(SUB, LongV(a), LongV(b)) == Ok(LongV(Wrap(Truncate((a - b) as real))))
  {
    TruncateWhole(a - b);
  }

  /** `*`: the double is the exact product, which truncation keeps. */
  lemma RoundsProduct(a: int, b: int)
    ensures ApplyBinary(MULT, LongV(a), LongV(b)) == Ok(DoubleV((a * b) as real))
    ensures PromotedBinary(MULT, LongV(a), LongV(b)) == Ok(LongV(Wrap(Truncate((a * b) as real))))
  {
    EvaluatorProperties.LongsMakeDoubles(a, b);
    TruncateWhole(a * b);
  }

  /** The quotient case: the long quotient is the double one rounded toward zero. */
  lemma RoundsQuotient(a: int, b: int)
    requires b != 0
    ensures ApplyBinary(DIV, LongV(a), LongV(b)) == Ok(DoubleV(a as real / b as real))
    ensures PromotedBinary(DIV, LongV(a), LongV(b)) == Ok(LongV(Wrap(Truncate(a as real / b as real))))
  {
    TruncateQuotient(a, b);
  }

  /** An integer, as a real, truncates back to itself. */
  lemma TruncateWhole(n: int)
    ensures Truncate(n as real) == n
  {
  }

  /** Truncating the real quotient gives the quotient of Java's integer `/`. */
  lemma TruncateQuotient(a: int, b: int)
    requires b != 0
    ensures Truncate(a as real / b as real) == TruncQuot(a, b)
  {
    var q, r := TruncQuot(a, b), JavaRem(a, b);
    EvaluatorProperties.RemainderTruncates(a, b);
    QuotientParts(a, b, q, r);
    FractionBounds(a, b, r);
    TruncateNear(a as real / b as real, q, r as real / b as real);
  }

  /** Dividing `q * b + r` by `b` gives `q` plus the fraction `r / b`. */
  lemma QuotientParts(a: int, b: int, q: int, r: int)
    requires b != 0 && a == q * b + r
    ensures a as real / b as real == q as real + r as real / b as real
  {
    assert a as real == q as real * b as real + r as real;
  }

  /** A real within one of an integer, on the side away from zero, truncates to it. */
  lemma TruncateNear(x: real, q: int, f: real)
    requires x == q as real + f && -1.0 < f < 1.0
    requires x >= 0.0 ==> f >= 0.0
    requires x < 0.0 ==> f <= 0.0
    ensures Truncate(x) == q
  {
    if x >= 0.0 {
      Bracket(Truncate(x), q, x);
    } else {
      Bracket(-Truncate(x), -q, -x);
    }
  }

  /** The remainder over the divisor is a fraction with the sign of the quotient. */
  lemma FractionBounds(a: int, b: int, r: int)
    requires b != 0 && EvaluatorProperties.IsTruncDivision(a, b, TruncQuot(a, b), r)
    ensures -1.0 < r as real / b as real < 1.0
    ensures a as real / b as real >= 0.0 ==> r as real / b as real >= 0.0
    ensures a as real / b as real < 0.0 ==> r as real / b as real <= 0.0
  {
    var q := TruncQuot(a, b);
    if b > 0 {
      assert -(b as real) < r as real < b as real;
      if a >= 0 {
        assert r >= 0;
      } else {
        assert a as real / b as real < 0.0;
        assert r <= 0;
      }
    } else {
      assert b as real < r as real < -(b as real);
      if a > 0 {
        assert a as real / b as real < 0.0;
        assert r >= 0;
      } else {
        assert r <= 0;
      }
    }
  }

  /** Two integers in the same unit interval `[x - 1, x]`, open at the left, are equal. */
  lemma Bracket(n: int, m: int, x: real)
    requires n as real <= x < n as real + 1.0
    requires m as real <= x < m as real + 1.0
    ensures n == m
  {
  }

  /** `7 / 2;` as written evaluates to the double 3.5; with promotion it is the long 3. */
  lemma SevenOverTwo(env: Env)
    ensures Eval(BinOp(DIV, Leaf(Token(INT, "7")), Leaf(Token(INT, "2"))), env) == Ok((DoubleV(3.5), env))
    ensures PromotedBinary(DIV, LongV(7), LongV(2)) == Ok(LongV(3))
  {
    DigitsAsLong("7");
    DigitsAsLong("2");
    assert Literal(Token(INT, "7"), env) == Ok(LongV(7));
    assert Literal(Token(INT, "2"), env) == Ok(LongV(2));
    assert TruncQuot(7, 2) == 3;
  }

  // ----- comparisons -----

  /** A relational operator on two reals. */
  predicate Holds(op: TokenKind, x: real, y: real)
    requires IsRelOp(op)
  {
    match op
    case LT => x < y
    case LTE => x <= y
    case GT => x > y
    case GTE => x >= y
    case EQ => x == y
    case _ => x != y
  }

  /**
   * A comparison as the relational node means it: both operands read as
   * numbers by `num`, the left first, and the result a Boolean.
   */
  function Compare(op: TokenKind, l: Value, r: Value): (res: Result<Value, RuntimeError>)
    ensures res.Ok? <==> IsRelOp(op) && !l.BoolV? && !r.BoolV?
    ensures res.Ok? ==> res.value.BoolV?
    ensures !IsRelOp(op) ==> res == Err(UnsupportedBinOp(op))
    ensures IsRelOp(op) && l.BoolV? ==> res == Err(ExpectedNumber(l))
    ensures IsRelOp(op) && !l.BoolV? && r.BoolV? ==> res == Err(ExpectedNumber(r))
  {
    if !IsRelOp(op) then Err(UnsupportedBinOp(op))
    else
      var x :- Num(l);
      var y :- Num(r);
      Ok(BoolV(Holds(op, x, y)))
  }

  /**
   * The six operators order numbers consistently: exactly one of `<`, `=`
   * and `>` holds, `<=`, `>=` and `!=` are the negations of `>`, `<` and
   * `=`, and `>` is `<` with the operands swapped.
   */
  lemma ComparisonsAgree(l: Value, r: Value)
    requires !l.BoolV? && !r.BoolV?
    ensures var lt, eq, gt := Compare(LT, l, r).value.b, Compare(EQ, l, r).value.b, Compare(GT, l, r).value.b;
            (lt || eq || gt) && !(lt && eq) && !(lt && gt) && !(eq && gt)
    ensures Compare(LTE, l, r).value.b == !Compare(GT, l, r).value.b
    ensures Compare(GTE, l, r).value.b == !Compare(LT, l, r).value.b
    ensures Compare(NEQ, l, r).value.b == !Compare(EQ, l, r).value.b
    ensures Compare(GT, l, r) == Compare(LT, r, l)
  {
    var x, y := Num(l).value, Num(r).value;
    CompareNumbers(LT, l, r);
    CompareNumbers(EQ, l, r);
    CompareNumbers(GT, l, r);
    CompareNumbers(LTE, l, r);
    CompareNumbers(GTE, l, r);
    CompareNumbers(NEQ, l, r);
    CompareNumbers(LT, r, l);
  }

  /** A comparison of two numbers is the relation on their values as `num` reads them. */
  lemma CompareNumbers(op: TokenKind, l: Value, r: Value)
    requires IsRelOp(op) && !l.BoolV? && !r.BoolV?
    ensures Compare(op, l, r) == Ok(BoolV(Holds(op, Num(l).value, Num(r).value)))
  {
  }

  /** On two longs the comparison is that of the integers, the conversion being exact. */
  lemma CompareLongs(a: int, b: int)
    ensures Compare(LT, LongV(a), LongV(b)) == Ok(BoolV(a < b))
    ensures Compare(EQ, LongV(a), LongV(b)) == Ok(BoolV(a == b))
  {
  }

  /**
   * `eval` with the missing relational case: the left operand, then the
   * right one, then the comparison.  Every other node, and the operands
   * themselves, are evaluated as written.
   */
  function EvalComparing(n: Ast, env: Env): (res: Result<(Value, Env), RuntimeError>)
    ensures !n.RelOp? ==> res == Eval(n, env)
    ensures n.RelOp? && res.Ok? ==> res.value.0.BoolV?
    ensures n.RelOp? && Eval(n.left, env).Err? ==> res == Err(Eval(n.left, env).error)
    ensures n.RelOp? && IsRelOp(n.op) && IsExpr(n.left) && IsExpr(n.right) && res.Ok? ==> res.value.1 == env
  {
    if n.RelOp? then
      var a :- Eval(n.left, env);
      var b :- Eval(n.right, a.1);
      var v :- Compare(n.op, a.0, b.0);
      Ok((v, b.1))
    else Eval(n, env)
  }

  /** The comparison `x < 5` that stops the sample program holds once `x` is 3. */
  lemma SampleComparison()
    ensures EvalComparing(RelOp(LT, Leaf(Token(ID, "x")), Leaf(Token(INT, "5"))), map["x" := LongV(3)])
            == Ok((BoolV(true), map["x" := LongV(3)]))
  {
    DigitsAsLong("5");
    assert Literal(Token(INT, "5"), map["x" := LongV(3)]) == Ok(LongV(5));
  }
}

=== FILE: reflection.dfy ===
/**
 * The evaluator reads node fields by name, through reflection, while the
 * parser builds trees of its own nested node classes, whose fields have
 * other names.  This module models that lookup as written, shows that it
 * stops every run of a parsed tree at its root, and states what the
 * pattern-matching evaluator does instead.
 */
module Reflection {
  import opened Results
  import opened Tokens
  import opened Syntax
  import opened Lexer
  import opened TokenText
  import opened Parser
  import opened Evaluator
  import opened Pipeline
  import ParserProperties

  /** The fields the parser's node classes declare, by node. */
  function DeclaredFields(n: Ast): (fs: set<string>)
    ensures n.Leaf? <==> "token" in fs
  {
    match n
    case Prog(_) => {"children"}
    case Val(_, _) => {"name", "expr"}
    case BinOp(_, _, _) => {"op", "left", "right"}
    case RelOp(_, _, _) => {"op", "left", "right"}
    case UnOp(_, _) => {"op", "expr"}
    case Leaf(_) => {"token"}
  }

  /**
   * `run` as written over a parser-built tree: reading `statements` off
   * the root needs the root's class to declare that field, and otherwise
   * throws before any statement runs.
   */
  function RunAsWritten(root: Ast): (x: Execution)
    ensures x.failure.None? ==> "statements" in DeclaredFields(root)
  {
    if "statements" in DeclaredFields(root) then Run(root)
    else Execution([], map[], Some(ReflectionFailed(NodeKind(root), "statements")))
  }

  /** No node class of the parser declares `statements`. */
  lemma NoStatementsField(n: Ast)
    ensures "statements" !in DeclaredFields(n)
  {
  }

  /** As written, every tree the parser returns fails at its root, printing nothing. */
  lemma ParsedTreesNeverRun(input: Option<string>)
    requires ParseText(input).Ok?
    ensures RunAsWritten(ParseText(input).value.tree) ==
            Execution([], map[], Some(ReflectionFailed("ProgNode", "statements")))
  {
    NoStatementsField(ParseText(input).value.tree);
  }

  /** The empty text parses to the empty program. */
  lemma EmptyTextParses()
    ensures ParseText(Some("")) == Ok(Outcome(Prog([]), []))
  {
    TokenizeRender([]);
    ParserProperties.EmptyProgram([EofToken]);
  }

  /**
   * The empty text shows the difference: as written its run fails, while
   * the corrected run completes, printing nothing and binding nothing.
   */
  lemma EmptyTextRuns()
    ensures RunAsWritten(ParseText(Some("")).value.tree).failure == Some(ReflectionFailed("ProgNode", "statements"))
    ensures Interpret(Some("")) == Ok(Session([], Execution([], map[], None)))
  {
    EmptyTextParses();
  }
}

=== FILE: results.dfy ===
/** Failure-compatible wrappers used by every stage of the pipeline. */
module Results {

  /** A value that may be absent; stands in for a Java reference that may be null. */
  datatype Option<+T> = None | Some(value: T)

  /** Either a value or the error that stopped the computation; usable with `:-`. */
  datatype Result<+T, +E> = Ok(value: T) | Err(error: E) {

    predicate IsFailure() {
      Err?
    }

    function PropagateFailure<U>(): Result<U, E>
      requires Err?
    {
      Err(error)
    }

    function Extract(): T
      requires Ok?
    {
      value
    }
  }
}

=== FILE: syntax.dfy ===
/**
 * The abstract syntax tree: one variant per node class of the parser, with
 * the fields the evaluator reads (statements; name and right-hand side;
 * operator and operands; the wrapped token).
 */
module Syntax {
  import opened Tokens

  datatype Ast =
    | Prog(stmts: seq<Ast>)
    | Val(name: string, rhs: Ast)
    | BinOp(op: TokenKind, left: Ast, right: Ast)
    | RelOp(op: TokenKind, left: Ast, right: Ast)
    | UnOp(op: TokenKind, child: Ast)
    | Leaf(tok: Token)

  /** The operators of the three left-associative levels. */
  predicate IsBinaryKind(k: TokenKind) {
    IsBoolOp(k) || IsAddOp(k) || IsMulOp(k)
  }

  /**
   * The expression trees the grammar can describe: every operator node has
   * all its operands, every leaf wraps a literal-bearing token.
   */
  predicate IsExpr(e: Ast) {
    match e
    case BinOp(op, l, r) => IsBinaryKind(op) && IsExpr(l) && IsExpr(r)
    case RelOp(op, l, r) => IsRelOp(op) && IsExpr(l) && IsExpr(r)
    case UnOp(op, c) => op == NOT && IsExpr(c)
    case Leaf(t) => IsLiteral(t.kind)
    case _ => false
  }

  /** A statement: a binding of an expression, or an expression. */
  predicate IsStatement(s: Ast) {
    match s
    case Val(_, e) => IsExpr(e)
    case _ => IsExpr(s)
  }

  predicate AllStatements(ss: seq<Ast>) {
    forall i :: 0 <= i < |ss| ==> IsStatement(ss[i])
  }

  /** A program: a sequence of statements under one Prog root. */
  predicate IsProgram(p: Ast) {
    p.Prog? && AllStatements(p.stmts)
  }
}

=== FILE: token_text.dfy ===
/**
 * Rendering tokens back to text, and the lexer as its inverse: for every
 * sequence of well-formed tokens, lexing the rendered text gives back the
 * tokens followed by EOF.
 */
module TokenText {
  import opened Results
  import opened CharacterStream
  import opened Tokens
  import opened Lexer
  import opened LexerProperties

  predicate AllInRun(s: string, word: bool) {
    forall k :: 0 <= k < |s| ==> InRun(s[k], word)
  }

  /** An identifier: a letter, then letters and digits, and not a keyword. */
  predicate IsIdentifier(s: string) {
    |s| > 0 && IsLetter(s[0]) && AllInRun(s, true) && s !in Keywords
  }

  /** Digits, a `.`, digits: the text of a REAL token. */
  predicate IsRealText(s: string) {
    exists p :: 0 <= p < |s| && s[p] == '.' && AllInRun(s[..p], false) && AllInRun(s[p + 1..], false)
  }

  /** Tokens the lexer can produce with their full text. */
  predicate WellFormedToken(t: Token) {
    match t.kind
    case ID => IsIdentifier(t.text)
    case INT => |t.text| > 0 && AllInRun(t.text, false)
    case REAL => IsRealText(t.text)
    case EOF => false
    case UNKNOWN => |t.text| == 1 && IsUnknownChar(t.text[0])
    case _ => t.text == Spelling(t.kind)
  }

  predicate AllWellFormed(ts: seq<Token>) {
    forall i :: 0 <= i < |ts| ==> WellFormedToken(ts[i])
  }

  /** Each token's text followed by one blank. */
  function Render(ts: seq<Token>): string {
    if |ts| == 0 then "" else ts[0].text + " " + Render(ts[1..])
  }

  /** Every keyword's spelling maps back to it in the keyword table, and only keywords are in it. */
  lemma KeywordTable(k: TokenKind)
    ensures IsKeywordKind(k) ==> Spelling(k) in Keywords && Keywords[Spelling(k)] == k
    ensures Keywords.Keys == {"val", "not", "and", "or", "mod", "true", "false"}
  {
  }

  lemma WellFormedStartsNonBlank(t: Token)
    requires WellFormedToken(t)
    ensures |t.text| > 0 && !IsWhitespace(t.text[0])
  {
    if t.kind == REAL {
      var p :| 0 <= p < |t.text| && t.text[p] == '.' && AllInRun(t.text[..p], false) && AllInRun(t.text[p + 1..], false);
      if p > 0 {
        assert t.text[..p][0] == t.text[0];
      }
    }
  }

  /** The text of `t` starts at the cursor and is followed by a blank. */
  predicate Placed(d: Cursor, t: Token) {
    && d.idx + |t.text| < |d.src|
    && d.src[d.idx..d.idx + |t.text|] == t.text
    && IsWhitespace(d.src[d.idx + |t.text|])
  }

  lemma PlacedChars(d: Cursor, t: Token)
    requires Placed(d, t)
    ensures forall k :: 0 <= k < |t.text| ==> d.src[d.idx + k] == t.text[k]
  {
    forall k | 0 <= k < |t.text| ensures d.src[d.idx + k] == t.text[k] {
      assert d.src[d.idx..d.idx + |t.text|][k] == d.src[d.idx + k];
    }
  }

  lemma KeywordSpellingIsWord(k: TokenKind)
    requires IsKeywordKind(k)
    ensures IsLetter(Spelling(k)[0]) && AllInRun(Spelling(k), true)
  {
  }

  /** Where a placed identifier or keyword sits: its first letter and the end of its run. */
  lemma WordLayout(d: Cursor, t: Token)
    requires WellFormedToken(t) && (t.kind == ID || IsKeywordKind(t.kind)) && Placed(d, t)
    ensures d.idx < |d.src| && IsLetter(d.src[d.idx])
    ensures RunEnd(d.src, d.idx + 1, true) == d.idx + |t.text|
    ensures d.src[d.idx..d.idx + |t.text|] == t.text
    ensures t.kind == ID <==> t.text !in Keywords
    ensures t.text in Keywords ==> Keywords[t.text] == t.kind
  {
    var s, i, n := d.src, d.idx, |t.text|;
    if t.kind != ID {
      KeywordSpellingIsWord(t.kind);
      KeywordTable(t.kind);
    }
    PlacedChars(d, t);
    assert !InRun(s[i + n], true);
    RunEndUnique(s, i + 1, i + n, true);
  }

  /** A placed identifier or keyword scans back to itself. */
  lemma WordRoundTrip(d: Cursor, t: Token)
    requires WellFormedToken(t) && (t.kind == ID || IsKeywordKind(t.kind))
    requires !d.skip && Placed(d, t)
    ensures TokenAt(d).0 == t && TokenAt(d).1.idx == d.idx + |t.text|
  {
    WordLayout(d, t);
    WordDispatch(d);
    WordScan(d, d.idx + |t.text|);
  }

  /** Where a placed INT token sits: its first digit, the end of its run, and no `.` after it. */
  lemma IntLayout(d: Cursor, t: Token)
    requires WellFormedToken(t) && t.kind == INT && Placed(d, t)
    ensures d.idx < |d.src| && IsDigit(d.src[d.idx])
    ensures var j := RunEnd(d.src, d.idx + 1, false);
            j == d.idx + |t.text| && j < |d.src| && d.src[j] != '.'
    ensures d.src[d.idx..d.idx + |t.text|] == t.text
  {
    var s, i, n := d.src, d.idx, |t.text|;
    PlacedChars(d, t);
    assert !InRun(s[i + n], false);
    RunEndUnique(s, i + 1, i + n, false);
  }

  /** A placed INT token scans back to itself. */
  lemma IntRoundTrip(d: Cursor, t: Token)
    requires WellFormedToken(t) && t.kind == INT
    requires !d.skip && Placed(d, t)
    ensures TokenAt(d).0 == t && TokenAt(d).1.idx == d.idx + |t.text|
  {
    IntLayout(d, t);
    NumberDispatch(d);
    IntScan(d, d.idx + |t.text|);
  }

  /** The text of `t` splits at `p` into digits, a `.` and digits. */
  predicate DotAt(t: Token, p: nat) {
    p < |t.text| && t.text[p] == '.' && AllInRun(t.text[..p], false) && AllInRun(t.text[p + 1..], false)
  }

  /** The characters of the placed text between `lo` and `hi` are digits. */
  lemma PlacedDigits(d: Cursor, t: Token, lo: nat, hi: nat)
    requires Placed(d, t) && lo <= hi <= |t.text| && AllInRun(t.text[lo..hi], false)
    ensures forall k :: d.idx + lo <= k < d.idx + hi ==> InRun(d.src[k], false)
  {
    PlacedChars(d, t);
    forall k | d.idx + lo <= k < d.idx + hi ensures InRun(d.src[k], false) {
      assert t.text[lo..hi][k - d.idx - lo] == t.text[k - d.idx];
    }
  }

  /** The digit run after the `.` of a placed REAL token ends where the token does. */
  lemma FractionLayout(d: Cursor, t: Token, p: nat)
    requires DotAt(t, p) && Placed(d, t)
    ensures d.src[d.idx + p] == '.'
    ensures RunEnd(d.src, d.idx + p + 1, false) == d.idx + |t.text|
    ensures d.src[d.idx..d.idx + |t.text|] == t.text
  {
    var s, i, n := d.src, d.idx, |t.text|;
    PlacedChars(d, t);
    assert t.text[p + 1..n] == t.text[p + 1..];
    PlacedDigits(d, t, p + 1, n);
    RunEndUnique(s, i + p + 1, i + n, false);
  }

  /** Where a placed REAL token with digits before its `.` sits. */
  lemma DigitsDotLayout(d: Cursor, t: Token, p: nat)
    requires DotAt(t, p) && 0 < p && Placed(d, t)
    ensures d.idx < |d.src| && IsDigit(d.src[d.idx])
    ensures RunEnd(d.src, d.idx + 1, false) == d.idx + p
  {
    var s, i := d.src, d.idx;
    PlacedChars(d, t);
    assert t.text[1..p] == t.text[..p][1..];
    PlacedDigits(d, t, 1, p);
    RunEndUnique(s, i + 1, i + p, false);
    assert IsDigit(s[i]) by {
      assert t.text[..p][0] == t.text[0];
    }
  }

  /** A placed REAL token with digits before its `.` scans back to itself. */
  lemma DigitsDotRoundTrip(d: Cursor, t: Token, p: nat)
    requires t.kind == REAL && DotAt(t, p) && 0 < p
    requires !d.skip && Placed(d, t)
    ensures TokenAt(d).0 == t && TokenAt(d).1.idx == d.idx + |t.text|
  {
    DigitsDotLayout(d, t, p);
    FractionLayout(d, t, p);
    NumberDispatch(d);
    RealScan(d, d.idx + p, d.idx + |t.text|);
  }

  /** A placed REAL token that starts with its `.` scans back to itself. */
  lemma DotRoundTrip(d: Cursor, t: Token)
    requires t.kind == REAL && DotAt(t, 0)
    requires !d.skip && Placed(d, t)
    ensures TokenAt(d).0 == t && TokenAt(d).1.idx == d.idx + |t.text|
  {
    FractionLayout(d, t, 0);
    LookupDispatch(d);
    LookupDot(d, d.idx + |t.text|);
  }

  /** A placed REAL token scans back to itself. */
  lemma RealRoundTrip(d: Cursor, t: Token)
    requires WellFormedToken(t) && t.kind == REAL
    requires !d.skip && Placed(d, t)
    ensures TokenAt(d).0 == t && TokenAt(d).1.idx == d.idx + |t.text|
  {
    var p :| 0 <= p < |t.text| && t.text[p] == '.' && AllInRun(t.text[..p], false) && AllInRun(t.text[p + 1..], false);
    assert DotAt(t, p);
    if p == 0 {
      DotRoundTrip(d, t);
    } else {
      DigitsDotRoundTrip(d, t, p);
    }
  }

  /** A placed one-character operator or punctuation symbol scans back to itself. */
  lemma SingleRoundTrip(d: Cursor, t: Token)
    requires WellFormedToken(t) && !d.skip && Placed(d, t)
    requires t.kind in {ADD, SUB, MULT, DIV, LPAREN, RPAREN, SEMI, EQ}
    ensures TokenAt(d).0 == t && TokenAt(d).1.idx == d.idx + |t.text|
  {
    PlacedChars(d, t);
    assert |t.text| == 1 && d.src[d.idx] == t.text[0] && t.text == [t.text[0]];
    LexSingle(d);
  }

  /** A placed `:=`, `!=`, `<`, `>`, `<=` or `>=` scans back to itself. */
  lemma PairRoundTrip(d: Cursor, t: Token)
    requires WellFormedToken(t) && !d.skip && Placed(d, t)
    requires t.kind in {ASSIGN, NEQ, LT, GT, LTE, GTE}
    ensures TokenAt(d).0 == t && TokenAt(d).1.idx == d.idx + |t.text|
  {
    PlacedChars(d, t);
    if t.kind == ASSIGN || t.kind == NEQ {
      assert |t.text| == 2 && d.src[d.idx + 1] == '=';
      LexAssignOrUnknown(d);
    } else if t.kind == LTE || t.kind == GTE {
      assert |t.text| == 2 && d.src[d.idx + 1] == '=';
      LexComparison(d);
    } else {
      assert |t.text| == 1 && d.src[d.idx + 1] != '=';
      LexComparison(d);
    }
  }

  /** The scan of a well-formed token placed before a blank yields exactly that token. */
  lemma TokenAtWellFormed(d: Cursor, t: Token)
    requires WellFormedToken(t) && !d.skip && Placed(d, t)
    ensures TokenAt(d).0 == t && TokenAt(d).1.idx == d.idx + |t.text|
  {
    match t.kind
    case ID => WordRoundTrip(d, t);
    case VAL => WordRoundTrip(d, t);
    case NOT => WordRoundTrip(d, t);
    case AND => WordRoundTrip(d, t);
    case OR => WordRoundTrip(d, t);
    case MOD => WordRoundTrip(d, t);
    case TRUE => WordRoundTrip(d, t);
    case FALSE => WordRoundTrip(d, t);
    case INT => IntRoundTrip(d, t);
    case REAL => RealRoundTrip(d, t);
    case UNKNOWN =>
      PlacedChars(d, t);
      LexUnknown(d);
    case ASSIGN => PairRoundTrip(d, t);
    case NEQ => PairRoundTrip(d, t);
    case LT => PairRoundTrip(d, t);
    case GT => PairRoundTrip(d, t);
    case LTE => PairRoundTrip(d, t);
    case GTE => PairRoundTrip(d, t);
    case ADD => SingleRoundTrip(d, t);
    case SUB => SingleRoundTrip(d, t);
    case MULT => SingleRoundTrip(d, t);
    case DIV => SingleRoundTrip(d, t);
    case LPAREN => SingleRoundTrip(d, t);
    case RPAREN => SingleRoundTrip(d, t);
    case SEMI => SingleRoundTrip(d, t);
    case EQ => SingleRoundTrip(d, t);
    case EOF => assert false;
  }

  /** Skipping blanks stops at the first non-blank character or the end. */
  lemma BlanksThenStop(c: Cursor, k: nat)
    requires c.idx <= k <= |c.src|
    requires forall i :: c.idx <= i < k ==> IsWhitespace(c.src[i])
    requires k == |c.src| || !IsWhitespace(c.src[k])
    ensures AdvanceToNonBlank(c).idx == k
  {
  }

  /**
   * Lexing from `c` is still to produce the tokens `ts`: blanks up to `k`,
   * then the rendering of `ts`.
   */
  predicate Pending(c: Cursor, k: nat, ts: seq<Token>) {
    && c.idx <= k <= |c.src|
    && (forall i :: c.idx <= i < k ==> IsWhitespace(c.src[i]))
    && c.src[k..] == Render(ts)
    && AllWellFormed(ts)
  }

  /** A rendered non-empty token sequence starts with the first token's text and a blank. */
  lemma RenderSplit(src: string, k: nat, ts: seq<Token>)
    requires |ts| > 0 && k <= |src| && src[k..] == Render(ts)
    ensures var n := |ts[0].text|;
            && k + n < |src| && src[k..k + n] == ts[0].text && src[k + n] == ' '
            && src[k + n + 1..] == Render(ts[1..])
  {
    var n := |ts[0].text|;
    assert src[k..][..n] == ts[0].text && src[k..][n] == ' ';
    assert src[k..k + n] == src[k..][..n];
    assert src[k + n + 1..] == src[k..][n + 1..];
  }

  lemma WellFormedTail(ts: seq<Token>)
    requires |ts| > 0 && AllWellFormed(ts)
    ensures AllWellFormed(ts[1..])
  {
    assert forall i :: 0 <= i < |ts[1..]| ==> ts[1..][i] == ts[i + 1];
  }

  /** The first token of a pending sequence is placed after the blanks. */
  lemma PendingHead(c: Cursor, k: nat, ts: seq<Token>)
    requires Pending(c, k, ts) && |ts| > 0
    ensures WellFormedToken(ts[0])
    ensures k + |ts[0].text| < |c.src| && c.src[k..k + |ts[0].text|] == ts[0].text
    ensures IsWhitespace(c.src[k + |ts[0].text|])
  {
    RenderSplit(c.src, k, ts);
  }

  /** After the first token of a pending sequence, a blank and the rest are pending. */
  lemma PendingTail(c: Cursor, k: nat, ts: seq<Token>, e: Cursor)
    requires Pending(c, k, ts) && |ts| > 0
    requires e.src == c.src && e.idx == k + |ts[0].text|
    ensures Pending(e, e.idx + 1, ts[1..])
  {
    RenderSplit(c.src, k, ts);
    WellFormedTail(ts);
  }

  /** The first non-blank character is where the placed token starts. */
  lemma BlanksThenToken(c: Cursor, k: nat, t: Token)
    requires c.idx <= k && k + |t.text| < |c.src|
    requires forall i :: c.idx <= i < k ==> IsWhitespace(c.src[i])
    requires WellFormedToken(t)
    requires c.src[k..k + |t.text|] == t.text
    requires IsWhitespace(c.src[k + |t.text|])
    ensures Placed(AdvanceToNonBlank(c), t)
  {
    WellFormedStartsNonBlank(t);
    assert c.src[k] == t.text[0] by {
      assert c.src[k..k + |t.text|][0] == c.src[k];
    }
    BlanksThenStop(c, k);
  }

  /** Blanks, then a placed well-formed token: the lexer returns the token and stops after its text. */
  lemma FirstToken(c: Cursor, k: nat, t: Token) returns (e: Cursor)
    requires c.idx <= k && k + |t.text| < |c.src|
    requires forall i :: c.idx <= i < k ==> IsWhitespace(c.src[i])
    requires WellFormedToken(t)
    requires c.src[k..k + |t.text|] == t.text
    requires IsWhitespace(c.src[k + |t.text|])
    ensures TokenizeFrom(c) == [t] + TokenizeFrom(e)
    ensures e.src == c.src && e.idx == k + |t.text|
  {
    BlanksThenToken(c, k, t);
    TokenAtWellFormed(AdvanceToNonBlank(c), t);
    e := NextToken(c).1;
  }

  /** One step of a pending sequence: its first token comes out, the rest stays pending. */
  lemma PendingStep(c: Cursor, k: nat, ts: seq<Token>) returns (e: Cursor)
    requires Pending(c, k, ts) && |ts| > 0
    ensures TokenizeFrom(c) == [ts[0]] + TokenizeFrom(e)
    ensures Pending(e, e.idx + 1, ts[1..])
  {
    PendingHead(c, k, ts);
    e := FirstToken(c, k, ts[0]);
    PendingTail(c, k, ts, e);
  }

  lemma ConsSplit(ts: seq<Token>)
    requires |ts| > 0
    ensures ts + [EofToken] == [ts[0]] + (ts[1..] + [EofToken])
  {
    assert ts == [ts[0]] + ts[1..];
  }

  /** Only blanks are left: the lexer returns EOF alone. */
  lemma TokenizeBlanks(c: Cursor, k: nat)
    requires c.idx <= k == |c.src|
    requires forall i :: c.idx <= i < k ==> IsWhitespace(c.src[i])
    ensures TokenizeFrom(c) == [EofToken]
  {
    BlanksThenStop(c, k);
    assert NextToken(c).0 == EofToken;
  }

  /**
   * Lexing from a cursor that is followed by blanks and then the rendering of
   * well-formed tokens yields exactly those tokens and then EOF.
   */
  lemma {:induction false} TokenizeRendered(c: Cursor, k: nat, ts: seq<Token>)
    requires Pending(c, k, ts)
    ensures TokenizeFrom(c) == ts + [EofToken]
    decreases |ts|
  {
    if |ts| == 0 {
      TokenizeBlanks(c, k);
    } else {
      var e := PendingStep(c, k, ts);
      TokenizeRendered(e, e.idx + 1, ts[1..]);
      ConsSplit(ts);
    }
  }

  /** Lexing the rendering of well-formed tokens gives them back, then EOF. */
  lemma TokenizeRender(ts: seq<Token>)
    requires AllWellFormed(ts)
    ensures Tokenize(Some(Render(ts))) == ts + [EofToken]
  {
    TokenizeRendered(Open(Some(Render(ts))), 0, ts);
  }
}

=== FILE: tokens.dfy ===
/** Token kinds and tokens: an immutable pair of kind and literal text. */
module Tokens {

  datatype TokenKind =
    | ID | INT | REAL
    | VAL | NOT | AND | OR | MOD | TRUE | FALSE
    | ADD | SUB | MULT | DIV | LPAREN | RPAREN | ASSIGN | SEMI
    | EQ | NEQ | GT | GTE | LT | LTE
    | EOF | UNKNOWN

  datatype Token = Token(kind: TokenKind, text: string)

  /** The end-of-input token, returned forever once the input is used up. */
  const EofToken: Token := Token(EOF, "")

  /** The operators of the single relational level. */
  predicate IsRelOp(k: TokenKind) {
    k == LT || k == GT || k == LTE || k == GTE || k == EQ || k == NEQ
  }

  /** The additive operators. */
  predicate IsAddOp(k: TokenKind) {
    k == ADD || k == SUB
  }

  /** The multiplicative operators. */
  predicate IsMulOp(k: TokenKind) {
    k == MULT || k == DIV || k == MOD
  }

  /** The Boolean connectives of the lowest level. */
  predicate IsBoolOp(k: TokenKind) {
    k == AND || k == OR
  }

  /** The token kinds a factor may consist of. */
  predicate IsLiteral(k: TokenKind) {
    k == ID || k == INT || k == REAL || k == TRUE || k == FALSE
  }

  /** The reserved words. */
  predicate IsKeywordKind(k: TokenKind) {
    k == VAL || k == NOT || k == AND || k == OR || k == MOD || k == TRUE || k == FALSE
  }

  /** Kinds whose literal text is always the same. */
  predicate HasFixedText(k: TokenKind) {
    k != ID && k != INT && k != REAL && k != EOF && k != UNKNOWN
  }

  /** The text the lexer attaches to a token of a fixed-text kind. */
  function Spelling(k: TokenKind): string
    requires HasFixedText(k)
  {
    match k
    case VAL => "val"
    case NOT => "not"
    case AND => "and"
    case OR => "or"
    case MOD => "mod"
    case TRUE => "true"
    case FALSE => "false"
    case ADD => "+"
    case SUB => "-"
    case MULT => "*"
    case DIV => "/"
    case LPAREN => "("
    case RPAREN => ")"
    case ASSIGN => ":="
    case SEMI => ";"
    case EQ => "="
    case NEQ => "!="
    case GT => ">"
    case GTE => ">="
    case LT => "<"
    case LTE => "<="
  }

  /** The token of a fixed-text kind. */
  function Fixed(k: TokenKind): (t: Token)
    requires HasFixedText(k)
    ensures t.kind == k && |t.text| > 0
  {
    Token(k, Spelling(k))
  }
}
